=== FILE: README.md ===
# STTApi client core in Dafny

This project models the data-shaping core of the STTApi client for the
Star Trek Timelines game server, and proves properties of that model.
The client logs a player in, loads the server's payloads and merges them
into the collections the UI shows. It resolves the equipment recipe tree,
caches images and assembles mission data. The model covers:

- **Equipment closure** (`equipment_tools.dfy`):
  - `loadFullTree` seeds the known ids, merges the digest's cache entry and
    gathers the missing ids from recipe demands and crew slots;
  - it fetches the first 20 of them, appends what comes back and repeats,
    stopping at the first empty batch;
  - `loadItemsDescription` bisects a failing batch.
- **Minimal complement** (`compute_worker.dfy`): the worker's greedy fixpoint
  drops one crew id at a time while the summed challenge score stays at its
  baseline.
- **Login sequence** (`login_sequence.dfy`):
  - the loaders run in their fixed order, and the fleet loaders only for a
    player in a fleet;
  - the crew and ships are matched;
  - every image URL is set from the synchronous cache and a fetch starts on
    a miss;
  - the completions are applied at the single join and counted against the
    total;
  - when asked, the missions stage follows.
- **Roster, ships, missions and voyages** (`crew_tools.dfy`,
  `ship_tools.dfy`, `mission_tools.dfy`, `voyage_tools.dfy`):
  - `matchCrew` / `rosterFromCrew` / `formatCrewStats`;
  - `matchShips`;
  - `loadMissionData` with `loadQuestData` / `loadConflictInfo`;
  - `bestVoyageShip`.
- **Helpers and session state**:
  - `formatTimeSeconds` (`misc_tools.dfy`);
  - `rgbToHex` and the constant tables (`config.dfy`);
  - the `STTApi` session object as a class with its fields, its request
    guard and its login paths (`stt_api.dfy`).

`entities.dfy` holds the payload shapes the code reads. `wrappers.dfy`
holds `Option`/`Result`. `text.dfy` holds the string helpers the source
takes from JavaScript: `join`, `split`, `indexOf` and `replace` of a first
occurrence.

The server, the browser database and the image providers are parameters:
- every request's answer is a function-typed oracle (`Responses`, `fetch`,
  `info`, `conflict`, `immortals`);
- the database tables are maps on the session;
- an image provider is a pair `Images(cached, resolve)`. `cached` is the
  synchronous lookup (`""` on a miss). `resolve` is the asynchronous answer
  (`None` for a fetch that fails).

Each imperative routine is a method proved against a specification function. The
properties the source promises are proved about those functions as lemmas.

## Model

| member | source | states |
|---|---|---|
| EquipmentTools.RequestsBound | lib/EquipmentTools.ts:85-112 | bisecting a non-empty batch of n ids issues at most 2n-1 requests |
| EquipmentTools.DescriptionProvenance | lib/EquipmentTools.ts:90-107 | every archetype `loadItemsDescription` returns came from a successful request for a contiguous slice of the batch |
| EquipmentTools.BisectionIsolatesPoison | lib/EquipmentTools.ts:96-108 | when exactly the batches holding a bad id fail, bisection returns the descriptions of exactly the good ids, in order: one failing id costs only itself |
| EquipmentTools.Clean | lib/EquipmentTools.ts:99-108 | the good ids of a batch are never more than the batch |
| EquipmentTools.Describe | lib/EquipmentTools.ts:92-94 | a healthy server describes each requested id once |
| EquipmentTools.CleanAppend | lib/EquipmentTools.ts:102-107 | filtering the bad ids commutes with the left/right split |
| EquipmentTools.DescribeAppend | lib/EquipmentTools.ts:107 | describing the concatenated halves is concatenating their descriptions |
| EquipmentTools.CleanOfHealthy | lib/EquipmentTools.ts:90-94 | a batch with no bad id is kept whole |
| EquipmentTools.IdsMembers | lib/EquipmentTools.ts:7-9 | the known-id set holds exactly the ids of the archetypes |
| EquipmentTools.IdsAppend | lib/EquipmentTools.ts:16-21 | the ids of a concatenation are the union of the ids |
| EquipmentTools.MergeCacheProps | lib/EquipmentTools.ts:12-22 | the cache merge keeps the archetypes as a prefix, only appends cached ones, and its ids are the union of both id sets (deduplicated by id) |
| EquipmentTools.FirstBatch | lib/EquipmentTools.ts:71 | the requested batch is exactly the first min(20, n) ids of the n missing ones, as `slice(0, 20)` takes |
| EquipmentTools.DemandIdsExact | lib/EquipmentTools.ts:27-31 | an id is pushed for a recipe exactly when one of its demands names it and it is not known |
| EquipmentTools.DemandMissingExact | lib/EquipmentTools.ts:25-33 | the demand scan collects exactly the unknown demanded ids of all archetypes |
| EquipmentTools.SlotIdsExact | lib/EquipmentTools.ts:38-44 | an id is pushed for a crew member exactly when one of its slots names it and it is not known |
| EquipmentTools.SlotMissingExact | lib/EquipmentTools.ts:36-57 | the slot scan collects exactly the unknown slot archetypes of the roster |
| EquipmentTools.MissingExact | lib/EquipmentTools.ts:25-60 | the missing list holds exactly the unknown demanded or slotted ids, and is empty iff the archetypes are closed under demands and slots |
| EquipmentTools.SeedKnown | lib/EquipmentTools.ts:4-9 | the seeding loop builds the id set of the archetypes |
| EquipmentTools.MergeCached | lib/EquipmentTools.ts:14-22 | the merge loop computes the cache merge and keeps the known set equal to its ids |
| EquipmentTools.ScanDemands | lib/EquipmentTools.ts:25-33 | the demand loop computes the demand scan |
| EquipmentTools.ScanSlots | lib/EquipmentTools.ts:36-57 | the slot loop appends the slot scan to the missing list |
| EquipmentTools.Round | lib/EquipmentTools.ts:4-57 | one round merges the cache and computes the missing list of the merged archetypes |
| EquipmentTools.FromSourcesStep | lib/EquipmentTools.ts:71-75 | every archetype after a round is an original one, a cached one, or one a requested batch returned |
| EquipmentTools.FetchRound | lib/EquipmentTools.ts:4-76 | a round extends the archetypes; with nothing missing they are closed and nothing is fetched, otherwise the first batch is fetched |
| EquipmentTools.BatchedStep | lib/EquipmentTools.ts:71 | every recorded request is the first batch of the missing list it was taken from |
| EquipmentTools.ExtendsStep | lib/EquipmentTools.ts:73-74 | appending the fetched archetypes never shrinks or reorders the list |
| EquipmentTools.TreeStep | lib/EquipmentTools.ts:59-82 | one invocation leaves the cache-merged list, followed by what the first batch returned when ids are missing; it ends Complete when nothing is missing (the list is closed), Stalled when that batch returned nothing, and otherwise recurses, so the run from here is the next invocation's with one unit less; the list only grows; a recursing invocation records one more batch |
| EquipmentTools.TreeRoundProps | lib/EquipmentTools.ts:59-76 | one invocation only extends the list; it completes only on a closed list, stalls only when ids are missing and the first batch returned nothing, and recurses only after appending at least one archetype |
| EquipmentTools.TreeProps | lib/EquipmentTools.ts:3-83 | the whole recursion only extends the list; it ends Complete only on a closed list and Stalled only on an empty first batch; n invocations that all recursed appended at least n archetypes |
| EquipmentTools.FromSourcesCompose | lib/EquipmentTools.ts:73-75 | what the recursive invocation adds comes from its own batches, which follow the first invocation's |
| EquipmentTools.BatchedAppend | lib/EquipmentTools.ts:71-75 | the request records of successive invocations, each a first batch of its recorded missing list, compose |
| EquipmentTools.TreeRounds | lib/EquipmentTools.ts:59-82 | the invocations leave in the session the list and outcome of `Tree`, the recursion cut off after `fuel` invocations; the digest's cache entry is written with the final list on Complete or Stalled and otherwise left; running out means exactly `fuel` batches were requested, each of 1 to 20 ids; nothing is fetched when the merged list is already closed |
| EquipmentTools.LoadFullTree | lib/EquipmentTools.ts:3-83 | the final list and outcome are those of `Tree`; the archetypes only grow; Complete means closed; Stalled means the first batch returned nothing; on either the cache entry for the digest is written with the final list and otherwise not; running out means `fuel` batches were requested; each request holds 1 to 20 ids; nothing is fetched when the merged list is already closed |
| ComputeWorker.Remaining | lib/computeWorker.ts:29 | the filter keeps only candidates of the entry whose id is not excluded, and is empty iff every candidate is excluded |
| ComputeWorker.RemainingFirst | lib/computeWorker.ts:29-30 | the filter keeps every candidate that is not excluded, and the first one it keeps (the one `Top` reads) is the entry's first candidate that is not excluded |
| ComputeWorker.Without | lib/computeWorker.ts:34-35 | the remaining candidates are exactly the ids not removed |
| ComputeWorker.DedupProps | lib/computeWorker.ts:5-9 | the candidate set has no duplicates and holds exactly the crew ids seen |
| ComputeWorker.WithoutNoDup | lib/computeWorker.ts:34 | deleting ids keeps the set duplicate-free |
| ComputeWorker.WithoutOne | lib/computeWorker.ts:34-35 | deleting one more id equals filtering by the removed list extended with it |
| ComputeWorker.WithoutPresent | lib/computeWorker.ts:34 | deleting a present id shrinks the set by one |
| ComputeWorker.WithoutAbsent | lib/computeWorker.ts:34 | deleting an absent id changes nothing |
| ComputeWorker.WithoutEmpty | lib/computeWorker.ts:19 | with nothing removed every candidate is still considered |
| ComputeWorker.BaselineIsTotal | lib/computeWorker.ts:11-31 | the baseline is the filtered sum with nothing excluded |
| ComputeWorker.TopBounded | lib/computeWorker.ts:30 | for an entry sorted by descending non-negative success, filtering never raises its top score |
| ComputeWorker.TotalBelow | lib/computeWorker.ts:28-31 | for sorted entries, the filtered sum never exceeds the baseline |
| ComputeWorker.TotalBounded | lib/computeWorker.ts:28-33 | for sorted entries, a filtered sum equal to the baseline keeps every entry's top score |
| ComputeWorker.PerEntryPreserved | lib/computeWorker.ts:30-33 | for sorted entries, when the removed crew keep the baseline, every challenge keeps its own score |
| ComputeWorker.UnsortedEntriesTradeScores | lib/computeWorker.ts:30-33 | without sorting, the sum can stay at the baseline while one challenge's score changes |
| ComputeWorker.SumOfTops | lib/computeWorker.ts:26-31 | the inner loop sums each entry's first remaining success |
| ComputeWorker.AddEntryIds | lib/computeWorker.ts:7-9 | adding an entry's ids extends the first-appearance set |
| ComputeWorker.Collect | lib/computeWorker.ts:4-12 | the first pass computes the baseline and the candidate set |
| ComputeWorker.Pass | lib/computeWorker.ts:23-38 | one pass keeps the bookkeeping; when it removes an id, that id is the first candidate, in order, whose removal keeps the sum at the baseline, appended to the removed list and deleted from the candidates; when it removes nothing, no single further removal keeps the baseline and nothing changes |
| ComputeWorker.RemoveKeeps | lib/computeWorker.ts:33-36 | removing an id whose removal keeps the baseline preserves the bookkeeping and shrinks the candidates by one |
| ComputeWorker.RemoveStep | lib/computeWorker.ts:34-35 | the candidate and removed lists stay complementary after a removal |
| ComputeWorker.ComputeMinimalComplement | lib/computeWorker.ts:3-45 | needed and unneeded crew are duplicate-free, disjoint and together exactly the candidates; dropping the unneeded keeps the baseline; dropping any needed one more changes it; the loop runs at most candidates+1 passes |
| LoginSequence.SettleAllExact | lib/LoginSequence.ts:80-265 | after the join every entity's URL is the last successful answer for its key, unchanged when none succeeded |
| LoginSequence.MissesExact | lib/LoginSequence.ts:119-121 | a fetch is started exactly for the keys whose cache lookup is empty |
| LoginSequence.LookupThenSettle | lib/LoginSequence.ts:119-265 | lookup then join gives each entity the cached URL, or the fetched one, or `""` |
| LoginSequence.Succeeded | lib/LoginSequence.ts:79 | successful completions are at most the fetches started |
| LoginSequence.LookupUrls | lib/LoginSequence.ts:118-137 | the lookup loop sets each URL from the cache, starts a fetch per miss, and hits plus misses is the entity count |
| LoginSequence.WriteBackLoop | lib/LoginSequence.ts:123-126 | a completion writes its URL onto every entity with the matching key |
| LoginSequence.WriteBackMiss | lib/LoginSequence.ts:123-126 | a completion whose key matches no entity changes nothing |
| LoginSequence.JoinViews | lib/LoginSequence.ts:265 | the join settles each collection independently |
| LoginSequence.JoinRoster | lib/LoginSequence.ts:80-102 | roster icon and body completions write their own field of the matching crew |
| LoginSequence.AwaitAll | lib/LoginSequence.ts:265 | awaiting the fetches applies every successful completion and counts them |
| LoginSequence.CompleteTask | lib/LoginSequence.ts:80-194 | one completion writes back its URL |
| LoginSequence.CrewEntryMissesExact | lib/LoginSequence.ts:76-96 | a crew member starts a fetch for each of its two images the cache misses |
| LoginSequence.CrewMissesSound | lib/LoginSequence.ts:75-113 | every started crew fetch is a missed key of some roster entry |
| LoginSequence.CrewMissesComplete | lib/LoginSequence.ts:75-113 | every missed crew key has a fetch |
| LoginSequence.CrewMissesExact | lib/LoginSequence.ts:75-113 | crew fetches are exactly the missed keys, at most two per crew member |
| LoginSequence.CrewMissesTargets | lib/LoginSequence.ts:78-97 | crew fetches target crew icons or bodies only |
| LoginSequence.ResetCrewUrls | lib/LoginSequence.ts:65-68 | every roster entry gets empty icon and body URLs |
| LoginSequence.LookupCrewEntry | lib/LoginSequence.ts:76-112 | one crew member's URLs come from the cache, with a fetch per miss and two lookups in all |
| LoginSequence.CacheRosterImages | lib/LoginSequence.ts:75-113 | the roster loop sets both URLs of every crew member and counts 2 per member |
| LoginSequence.ItemPathSegments | lib/LoginSequence.ts:185-186 | for an icon file `/items/<kind>/<symbol>` the type name is the kind and the symbol the symbol |
| LoginSequence.LookupItem | lib/LoginSequence.ts:184-186 | an item gets its cached URL, type name and symbol |
| LoginSequence.ItemsLookupExact | lib/LoginSequence.ts:183-205 | the item loop describes and looks up each item in place |
| LoginSequence.ItemsLookupIsLookup | lib/LoginSequence.ts:183-205 | the item loop is the generic lookup of the described items |
| LoginSequence.CacheItemImages | lib/LoginSequence.ts:179-205 | the item loop's result, its fetches (one per miss) and its count |
| LoginSequence.StartSpriteTasks | lib/LoginSequence.ts:253-263 | a fetch starts for every sprite, without a cache lookup |
| LoginSequence.MissesTargets | lib/LoginSequence.ts:121-228 | the fetches of one collection target that collection only |
| LoginSequence.StagedCrewShipTargets | lib/LoginSequence.ts:78-155 | crew, avatar and ship fetches target their own collection |
| LoginSequence.StagedInventoryTargets | lib/LoginSequence.ts:189-254 | item, equipment and sprite fetches target their own collection |
| LoginSequence.StagedCrewMissed | lib/LoginSequence.ts:76-96 | a crew image is fetched iff its cache lookup missed |
| LoginSequence.StagedAvatarsMissed | lib/LoginSequence.ts:119-120 | an avatar is fetched iff its cache lookup missed |
| LoginSequence.StagedShipsItemsMissed | lib/LoginSequence.ts:153-188 | a ship or item is fetched iff its cache lookup missed |
| LoginSequence.StagedArchetypesSpritesMissed | lib/LoginSequence.ts:226-254 | an equipment image is fetched iff its lookup missed; every sprite is fetched |
| LoginSequence.LookupJoinSettles | lib/LoginSequence.ts:118-265 | a looked-up collection settles to cached-or-fetched URLs after the join |
| LoginSequence.JoinRosterSettles | lib/LoginSequence.ts:65-265 | after the join every crew member's icon and body URL is settled |
| LoginSequence.JoinAvatarsSettle | lib/LoginSequence.ts:118-265 | after the join every avatar URL is settled |
| LoginSequence.JoinShipsSettle | lib/LoginSequence.ts:152-265 | after the join every ship URL is settled |
| LoginSequence.JoinItemsSettle | lib/LoginSequence.ts:183-265 | after the join every item is described and its URL settled |
| LoginSequence.JoinArchetypesSettle | lib/LoginSequence.ts:225-265 | after the join every equipment URL is settled |
| LoginSequence.JoinSpritesSettle | lib/LoginSequence.ts:253-265 | after the join a sprite has its fetched URL, or keeps the URL it had (none on a first sign-in) when its fetch failed |
| LoginSequence.JoinSettles | lib/LoginSequence.ts:65-265 | after the join all collections are settled and the rest of the player data is untouched (the ship objects it shares with the ship list are not modelled as shared) |
| LoginSequence.StoreAllMain | lib/STTApi.ts:253-308 | a successful main loader stores its response in its own field, and other fields keep their values |
| LoginSequence.StoreAllFleet | lib/STTApi.ts:332-356 | a successful fleet loader stores its response in its own field |
| LoginSequence.FirstFailure | lib/LoginSequence.ts:49-52 | the loaders before the first rejection all succeed |
| LoginSequence.RunLoader | lib/STTApi.ts:246-363 | a loader succeeds iff its response is valid, then stores it; a rejection changes nothing |
| LoginSequence.RunStages | lib/LoginSequence.ts:49-58 | the loader loop announces each loader before running it, stops at the first rejection, and stores the responses before it |
| LoginSequence.LoaderMainLoaded | lib/LoginSequence.ts:49-52 | with no rejection every main field holds its response |
| LoginSequence.LoaderFleetLoaded | lib/LoginSequence.ts:54-59 | with no rejection and a fleet, the fleet fields hold the responses for that fleet id; without a fleet they are untouched |
| LoginSequence.UnfailedPlan | lib/LoginSequence.ts:49-59 | no rejection means every main and (in a fleet) every fleet loader succeeded |
| LoginSequence.MainStagesStored | lib/LoginSequence.ts:49-52 | after the main loaders the player data is the loaded one |
| LoginSequence.FleetStagesStored | lib/LoginSequence.ts:55-58 | after the fleet loaders their fields hold the responses |
| LoginSequence.FleetGated | lib/LoginSequence.ts:54 | the fleet loaders run iff all main loaders succeeded and the player has a fleet with a non-zero id; the main loaders come first, in order |
| LoginSequence.NoFleetInMain | lib/LoginSequence.ts:11-32 | no fleet loader is among the main ones |
| LoginSequence.LoadResources | lib/LoginSequence.ts:49-59 | the loader stage's announcements, first rejection and stored fields are those of the loader plan |
| LoginSequence.CounterBound | lib/LoginSequence.ts:70-249 | fetches never outnumber the images, and the final count never exceeds the total |
| LoginSequence.CrewStage | lib/LoginSequence.ts:61-137 | crew matching either fails with nothing changed, or stores the matched roster and avatars with cached URLs, their fetches and counts |
| LoginSequence.ShipStage | lib/LoginSequence.ts:143-171 | the ships are the matched ones with cached URLs, with a fetch per miss |
| LoginSequence.ItemStage | lib/LoginSequence.ts:177-205 | the items are described and looked up in place, with a fetch per miss |
| LoginSequence.EquipmentStage | lib/LoginSequence.ts:211-243 | the equipment tree is loaded first, ending with the list and outcome of `Tree` (closed on Complete); whatever the outcome, every archetype of that list is then looked up, with a fetch per miss |
| LoginSequence.StagedAssembled | lib/LoginSequence.ts:61-263 | the collections assembled stage by stage are the staged gallery |
| LoginSequence.RosterStages | lib/LoginSequence.ts:61-171 | crew then ship stages: the roster, avatars and ships looked up, or nothing changed when crew matching fails |
| LoginSequence.InventoryStages | lib/LoginSequence.ts:177-263 | item, equipment and sprite stages: their collections looked up and their fetches started |
| LoginSequence.LookupStages | lib/LoginSequence.ts:61-263 | all lookups before the join: the session holds the staged gallery, the started tasks and hits+tasks equals the total |
| LoginSequence.StagedCounted | lib/LoginSequence.ts:70-249 | the counted hits plus the started tasks equal the total of all stages |
| LoginSequence.StoreGallery | lib/LoginSequence.ts:80-259 | the completions' writes land in the session's collections |
| LoginSequence.CacheImages | lib/LoginSequence.ts:61-265 | the image stages through the join: what the lookups started from, the joined session state, the total and the final count |
| LoginSequence.MainStoryExact | lib/LoginSequence.ts:271 | the filter keeps exactly the main-story missions |
| LoginSequence.MissionStage | lib/LoginSequence.ts:267-278 | the missions are filtered and written back, loaded with the cadet missions; a rejected `mission/info` answer is the stage's failure with the disputes and quest cache unchanged; on success the mission list and success stats are stored |
| LoginSequence.ImageStages | lib/LoginSequence.ts:61-265 | the stages go on iff `matchCrew` resolves, and otherwise change neither roster nor player data; after the join the collections are settled, current is at most total, and the player differs only in its items |
| LoginSequence.MissionsAfterJoin | lib/LoginSequence.ts:267-278 | the missions stage fails exactly with the mission load's rejection, stores the loaded missions, success stats and quest cache, and leaves the joined image collections as they are |
| LoginSequence.AfterLoaders | lib/LoginSequence.ts:61-279 | the outcome is CrewRejected iff `matchCrew` rejects, else MissionsRejected with the load's reason iff missions are asked for and their load rejects, else Done; the stored missions follow the load; then settled images and counters |
| LoginSequence.Run | lib/LoginSequence.ts:10-280 | loaders are announced and run in order and a rejection ends the run; otherwise the outcome is CrewRejected iff `matchCrew` on the loaded responses rejects, MissionsRejected with the reason iff asked-for missions fail to load, else Done; images settle, total is the image total and current at most it |
| CrewTools.ZeroSkills | lib/CrewTools.ts:59-61 | the defaults give every skill core, min and max 0 |
| CrewTools.GetDefaults | lib/CrewTools.ts:50-63 | `getDefaults` is undefined iff no avatar has the id; otherwise it copies the first such avatar with zeroed level, rarity, frozen and skills |
| CrewTools.FromCrewSlots | lib/CrewTools.ts:28-36 | merging fails iff an equipment index names no slot; otherwise slot i has `have` iff i is among the equipment indices |
| CrewTools.FromCrewSkills | lib/CrewTools.ts:11-22 | each skill of the crew is copied, the others keep the entry's value, and each skill core mirrors its skill |
| CrewTools.FromCrewKeeps | lib/CrewTools.ts:5-9 | level, rarity and crew id come from the crew; identity comes from the entry |
| CrewTools.ReplaceFirstProps | lib/CrewTools.ts:42-46 | replacing the first occurrence keeps the length, changes nothing when absent, and otherwise swaps one occurrence for the new value at the end |
| CrewTools.RewriteNonhumanProps | lib/CrewTools.ts:39-46 | `nonhuman` becomes `alien` at the end, with the same length and one element swapped |
| CrewTools.MergeSkills | lib/CrewTools.ts:11-15 | the skill loop merges the crew's skills into the entry's |
| CrewTools.MarkSlots | lib/CrewTools.ts:30-36 | the slot loops fail iff an index is out of range, and otherwise mark the slots |
| CrewTools.RewriteTraits | lib/CrewTools.ts:42-46 | the splice-and-push rewrites `nonhuman` |
| CrewTools.RosterFromCrew | lib/CrewTools.ts:4-47 | `rosterFromCrew` is the merge of the crew into the entry |
| CrewTools.ActiveEntriesFail | lib/CrewTools.ts:69-78 | the active crew fail exactly when a member with an avatar has an out-of-range equipment index |
| CrewTools.ActiveEntriesShape | lib/CrewTools.ts:69-78 | one entry per active crew member with an avatar, in order, each merged into its defaults |
| CrewTools.FrozenDefaultsShape | lib/CrewTools.ts:86-98 | one entry per stored immortal with an avatar, frozen count copied, level 100 and max rarity |
| CrewTools.SourceStable | lib/CrewTools.ts:106-120 | a frozen crew member's data source is unchanged by cache writes of the same answers |
| CrewTools.LoadFrozen | lib/CrewTools.ts:106-121 | a frozen entry is merged from the immortal cache on a hit, or from the server; the server's answer is cached exactly when it arrived and the merge succeeded, and the cache is otherwise unchanged |
| CrewTools.MatchActive | lib/CrewTools.ts:69-78 | the active-crew loop computes the active entries |
| CrewTools.PushFrozen | lib/CrewTools.ts:86-98 | the frozen loop pushes the frozen defaults |
| CrewTools.LoadFrozenAll | lib/CrewTools.ts:97-100 | the frozen loads complete the frozen entries; the cache only grows |
| CrewTools.MatchCrew | lib/CrewTools.ts:49-104 | `matchCrew` returns the active entries then the loaded frozen ones, failing when any load or merge fails |
| CrewTools.LoadAllShape | lib/CrewTools.ts:97-100 | the frozen loads succeed iff every entry's data is found and merges; then entry i of the result is entry i merged with its data |
| CrewTools.FrozenLoadedShape | lib/CrewTools.ts:86-120 | the loaded frozen half has one entry per stored immortal with an avatar, keeping its id and quantity, with the crew id of the data found for it |
| CrewTools.MatchCrewShape | lib/CrewTools.ts:66-103 | a successful `matchCrew` is the active members with an avatar, each merged into its defaults, followed by the loaded frozen entries |
| CrewTools.ActiveNoneStays | lib/CrewTools.ts:69-78 | a failure in a prefix of the active crew fails the whole |
| CrewTools.LoadNoneStays | lib/CrewTools.ts:100 | a failed frozen load fails the whole |
| CrewTools.StatsTextEmpty | lib/CrewTools.ts:133-141 | the stats text is empty iff no skill has a positive core |
| CrewTools.StatPieceShape | lib/CrewTools.ts:138 | a piece is `ABBR (n) ` with n the core plus the floored half of min+max |
| CrewTools.FormatCrewStats | lib/CrewTools.ts:123-142 | the loop lists the pieces in skill-table order |
| ShipTools.TraitNamesSplit | lib/ShipTools.ts:15-19 | the trait names, split at commas, are the mapped names of traits then hidden traits |
| ShipTools.FirstNamed | lib/ShipTools.ts:6-26 | the search finds the first ship with the name, or none |
| ShipTools.SchematicPartShape | lib/ShipTools.ts:5-22 | one ship per schematic, in schematic order |
| ShipTools.AppendUnlistedPrefix | lib/ShipTools.ts:25-36 | the extra-ships loop keeps the listed ships as a prefix |
| ShipTools.AppendUnlistedNew | lib/ShipTools.ts:25-36 | every appended ship is an owned ship, with its trait names, whose name was not yet listed |
| ShipTools.AppendUnlistedCovers | lib/ShipTools.ts:25-36 | every owned ship's name appears in the result |
| ShipTools.MatchShipsSchematics | lib/ShipTools.ts:5-22 | entry i is the first owned ship named like schematic i, or that schematic's ship with level and id 0, with trait names set |
| ShipTools.MatchShipsExtras | lib/ShipTools.ts:24-36 | the entries after the schematics are unlisted owned ships, and every owned name is covered |
| ShipTools.MatchShips | lib/ShipTools.ts:3-39 | `matchShips` returns the specified list and rewrites each schematic's ship in place |
| MissionTools.AcceptedIdsExact | lib/MissionTools.ts:67-72 | the accepted ids are exactly those of the non-tutorial missions |
| MissionTools.DisputeIdsExact | lib/MissionTools.ts:75-83 | the dispute ids are exactly the mission ids of the non-tutorial disputes |
| MissionTools.RequestedIdsExact | lib/MissionTools.ts:65-83 | the request lists the accepted ids first, then the dispute ids |
| MissionTools.CollectMissionIds | lib/MissionTools.ts:65-83 | the id loops build the requested ids |
| MissionTools.ConflictLoad | lib/MissionTools.ts:28-53 | the conflict load succeeds iff the request is answered with mastery levels, then copies the details and caches them; a rejected request rejects with its own reason, a reply without mastery levels with `Invalid data for quest conflict!`; on failure nothing changes |
| MissionTools.QuestDataLoad | lib/MissionTools.ts:3-26 | a completed mission with a cache hit takes the cached details, and anything else loads the conflict info |
| MissionTools.CacheHitIgnoresServer | lib/MissionTools.ts:4-17 | on a cache hit the server's answer is irrelevant |
| MissionTools.Prepare | lib/MissionTools.ts:106-111 | a non-conflict quest becomes `Ship battle`, and a conflict quest loads its data; other cache entries are kept |
| MissionTools.LoadConflictInfo | lib/MissionTools.ts:28-53 | the method updates the quest and the quest cache per ConflictLoad, including the rejected request and the missing mastery levels |
| MissionTools.LoadQuestData | lib/MissionTools.ts:3-26 | the method updates the quest and the quest cache as specified |
| MissionTools.PrepareQuest | lib/MissionTools.ts:105-111 | the method prepares one eligible quest |
| MissionTools.MissionQuestsShape | lib/MissionTools.ts:104-115 | a titled mission keeps exactly its unlocked named quests, in order, the non-conflict ones described as ship battles |
| MissionTools.EligibleQuestsExact | lib/MissionTools.ts:105 | a quest is kept iff it is unlocked and named |
| MissionTools.FillMissionQuests | lib/MissionTools.ts:104-115 | the quest loop of a titled mission |
| MissionTools.MergeQuestsExtends | lib/MissionTools.ts:131-141 | merging keeps the dispute's quests as a prefix, keeps ids distinct, and only adds eligible quests |
| MissionTools.MergeQuestsCovers | lib/MissionTools.ts:131-141 | after merging, every eligible quest's id is in the dispute |
| MissionTools.MergeDisputeQuests | lib/MissionTools.ts:128-142 | the merge loop of one dispute |
| MissionTools.MergeIntoDisputesShape | lib/MissionTools.ts:121-145 | an untitled mission changes only the quests of the non-tutorial disputes listing it, which then hold every eligible quest id |
| MissionTools.MergeMission | lib/MissionTools.ts:121-145 | the dispute loop of an untitled mission |
| MissionTools.ProcessMissionsShape | lib/MissionTools.ts:89-147 | one entry per titled non-tutorial mission, matching it; disputes keep everything but their quests |
| MissionTools.ProcessReply | lib/MissionTools.ts:89-147 | the reply loop |
| MissionTools.EpisodeEntry | lib/MissionTools.ts:157-164 | an episode's title is its description, `" : "` and its name |
| MissionTools.EpisodesShape | lib/MissionTools.ts:150-167 | one episode entry per non-tutorial dispute, in order |
| MissionTools.AppendEpisodes | lib/MissionTools.ts:150-168 | the episode loop appends the episodes after the missions |
| MissionTools.MissionDataLoadShape | lib/MissionTools.ts:85-171 | the result lists the titled missions, then one episode per non-tutorial dispute |
| MissionTools.NonTutorialKeepsCount | lib/MissionTools.ts:150-155 | filling quests does not change which disputes are episodes |
| MissionTools.LoadMissionData | lib/MissionTools.ts:64-173 | the ids requested; `Not logged in!` without a token; a rejected `mission/info` answer rejects with the disputes and quest cache unchanged; otherwise the specified missions, disputes and quest cache |
| VoyageTools.ScoreAllExact | lib/VoyageTools.ts:8-21 | scoring fails iff a considered ship has no traits; otherwise one entry per ship with id > 0, in order, with its score |
| VoyageTools.ConsideredShipsExact | lib/VoyageTools.ts:9 | exactly the ships with a positive id are considered |
| VoyageTools.MaxScore | lib/VoyageTools.ts:23-24 | the top score bounds every entry and is reached |
| VoyageTools.WithScoreExact | lib/VoyageTools.ts:24 | the filter keeps exactly the entries with the given score |
| VoyageTools.TopScoredProps | lib/VoyageTools.ts:23-24 | every returned entry has the top score, every top-scoring entry is returned, and the result is empty iff there are no entries |
| VoyageTools.BestEmptyIffNoneConsidered | lib/VoyageTools.ts:8-24 | the answer is empty iff no ship has a positive id |
| VoyageTools.ScoreBonus | lib/VoyageTools.ts:12-17 | the 150 bonus is earned exactly when the voyage names a non-empty trait the ship carries; an empty trait earns nothing |
| VoyageTools.BestEntriesScored | lib/VoyageTools.ts:8-24 | every answer is a considered ship scored antimatter plus 150 when it carries the voyage's non-empty trait |
| VoyageTools.BestVoyageShip | lib/VoyageTools.ts:4-27 | the forEach loop then sort-and-filter compute the specified answer |
| MiscTools.NatToString | lib/MiscTools.ts:7-10 | a number renders as a non-empty run of digits |
| MiscTools.NatToStringRoundTrip | lib/MiscTools.ts:7-10 | the rendered digits read back as the number |
| MiscTools.Components | lib/MiscTools.ts:2-6 | days, hours, minutes and seconds add up to the input, with hours < 24 and minutes, seconds < 60 |
| MiscTools.ComponentsUnique | lib/MiscTools.ts:2-6 | they are the only such decomposition |
| MiscTools.FormatEmptyIffZero | lib/MiscTools.ts:7-11 | the text is empty iff the input is 0 |
| MiscTools.DigitRun | lib/MiscTools.ts:7-10 | the digit prefix fits in the text |
| MiscTools.DigitRunOfNumber | lib/MiscTools.ts:7-10 | a rendered number followed by a non-digit is read as one run |
| MiscTools.GroupThenSpace | lib/MiscTools.ts:7-9 | a `nX ` group reads as n units |
| MiscTools.SpacedPart | lib/MiscTools.ts:7-9 | a present or absent `nD `/`nH `/`nM ` part reads as n units |
| MiscTools.SecondsPart | lib/MiscTools.ts:10 | the `nS` part reads as n seconds |
| MiscTools.MinutesSecondsRoundTrip | lib/MiscTools.ts:9-11 | minutes then seconds read back |
| MiscTools.HoursRoundTrip | lib/MiscTools.ts:8-11 | hours, minutes, seconds read back |
| MiscTools.PartsRoundTrip | lib/MiscTools.ts:7-11 | the four parts read back as their weighted sum |
| MiscTools.FormatTimeRoundTrip | lib/MiscTools.ts:1-12 | parsing `formatTimeSeconds(s)` gives s back |
| MiscTools.FormatTimeInjective | lib/MiscTools.ts:1-12 | different durations never render the same |
| Config.HexDigit | lib/CONFIG.ts:7 | a digit renders as a lowercase hex character |
| Config.DigitValueOfHexDigit | lib/CONFIG.ts:7 | a hex character reads back as its digit |
| Config.HexDigits | lib/CONFIG.ts:7 | the zero-padded hex rendering has the requested width |
| Config.HexDigitsRoundTrip | lib/CONFIG.ts:7 | the padded hex reads back as the value |
| Config.TrimTrailingZeros | lib/CONFIG.ts:7 | the trimmed text is a prefix with only zeros cut, and it does not end in `0` |
| Config.PackRgb | lib/CONFIG.ts:7 | the packed colour is below 2^24 |
| Config.PackBits | lib/CONFIG.ts:7 | `b \| g << 8 \| r << 16` on bytes is r·65536 + g·256 + b |
| Config.UnpackRgb | lib/CONFIG.ts:7 | the bytes are recovered from the packed value |
| Config.RgbToHex | lib/CONFIG.ts:6-8 | the result is `#` plus at most six digits, not ending in `0` |
| Config.RgbToHexRoundTrip | lib/CONFIG.ts:6-8 | the colour reads back from its rendering |
| Config.RgbToHexInjective | lib/CONFIG.ts:6-8 | different colours render differently |
| Config.HexOfRgb | lib/CONFIG.ts:7 | the six hex digits are the two digits of r, g, b in turn |
| Config.RgbToHexFull | lib/CONFIG.ts:6-8 | when b's low nibble is non-zero all six digits appear |
| Config.CommonColor | lib/CONFIG.ts:28 | the Common colour is `#9b9b9b` |
| Config.UncommonColor | lib/CONFIG.ts:29 | the Uncommon colour is `#50aa3c` |
| Config.RareColor | lib/CONFIG.ts:30 | the Rare colour is `#5aaaff` |
| Config.SuperRareColor | lib/CONFIG.ts:31 | the Super Rare colour is `#aa2deb` |
| Config.LegendaryColor | lib/CONFIG.ts:32 | the Legendary colour is `#fdd26a` |
| Config.SkillsTable | lib/CONFIG.ts:35-42 | the skill table lists the six skills once each |
| Config.SpritesTable | lib/CONFIG.ts:71-100 | the sprite table has 28 rows, none with a URL yet |
| SttApi.FirstAvatarIndex | lib/STTApi.ts:142-144 | the search finds the first avatar with the id, or none |
| SttApi.CrewAvatarById | lib/STTApi.ts:142-144 | `getCrewAvatarById` finds an avatar iff one has the id, and then the first |
| SttApi.Session.constructor | lib/STTApi.ts:48-55 | a new session has nothing loaded and no token |
| SttApi.Session.ClearLoaded | lib/STTApi.ts:58-65 | the loaded payloads are cleared |
| SttApi.Session.ClearDerived | lib/STTApi.ts:66-70 | roster, ships and missions are cleared, the success list emptied, the complement unset |
| SttApi.Session.RefreshEverything | lib/STTApi.ts:57-75 | everything is cleared; the token is cleared on logout and kept otherwise, so logged-in holds afterwards iff it held and this is no logout |
| SttApi.Session.GetRequest | lib/STTApi.ts:226-233 | rejects with `Not logged in!` iff there is no token; otherwise a GET to the server URL whose query holds the caller's keys (overriding) plus `client_api` and `access_token` |
| SttApi.Session.PostRequest | lib/STTApi.ts:235-244 | rejects with `Not logged in!` iff there is no token; otherwise a POST with `client_api`, the caller's keys and the token as bearer |
| SttApi.Session.LoginWithAccessToken | lib/STTApi.ts:186-206 | the token is stored, and written with `autoLogin` to the config table only when asked |
| SttApi.Session.Login | lib/STTApi.ts:150-165 | an error description rejects with it, else a token logs in, else `Invalid data for login!`; a rejection changes nothing |
| SttApi.Session.LoginWithCachedAccessToken | lib/STTApi.ts:167-184 | succeeds iff auto-login is on and a non-empty token is stored, and then takes that token |
| Text.Split | lib/LoginSequence.ts:185-186 | splitting always yields at least one piece |
| Text.SplitPlain | lib/LoginSequence.ts:185-186 | a text without the separator splits into itself |
| Text.SplitAfterPiece | lib/LoginSequence.ts:185-186 | splitting peels off the piece before the first separator |
| Text.SplitJoin | lib/CrewTools.ts:38 | splitting a join of separator-free pieces gives the pieces back |
| Text.IndexOf | lib/CrewTools.ts:42 | `indexOf` is -1 iff absent, else the first position |
| Text.OccursShift | lib/LoginSequence.ts:185 | an occurrence after the first character is an occurrence in the rest |
| Text.Find | lib/LoginSequence.ts:185 | the first occurrence of a pattern, or -1 when there is none |
| Text.RemoveFirst | lib/LoginSequence.ts:185 | `replace` with a string pattern cuts out its first occurrence only |

## Left out

- HTTP transport (`lib/NetworkFetch.ts`, `lib/NetworkInterface.d.ts`) is not part of this model. `GetRequest`/`PostRequest` build the request value. The answers are oracle parameters: `Responses` for the loaders, `fetch` for item descriptions, `info` for `mission/info` (the mission list, or the reason the request or the reading of its reply was rejected), `conflict` for `quest/conflict_info` (the reply, or the reason the request was rejected), and `immortals` for `loadFrozenCrew`.
- The browser database tables are maps on the session: `equipmentCache`, `immortalsCache`, `questCache` and `configTable`. A `put` is an immediate map update, including the puts the source does not await.
- The image providers (`lib/ImageProvider` and its implementations) are not part of this model:
  - they become `Images(cached, resolve)`;
  - a fetch's answer depends only on its key, and so does the synchronous cache lookup (the source's `getCached` and `getCrewCached` take the whole object);
  - `setImageProvider` (lib/STTApi.ts:77-84) is not modelled.
- Concurrency:
  - image completions are applied together at the join (lib/LoginSequence.ts:265), in the order the fetches were started;
  - `Promise.all` in lib/CrewTools.ts:100 and lib/MissionTools.ts:149 is sequential, so when several quest loads reject, `loadMissionData` rejects with the first in the order the loads start, where the source reports the first to reject in time;
  - the 50 ms yield at lib/LoginSequence.ts:218 is not modelled.
- LoginSequence.Run: progress messages:
  - the loader announcements are modelled, in order, along with the crew, image and mission stage messages;
  - the `(current/total)` messages and `loadFullTree`'s `remaining` message are not;
  - the counters are modelled as their values after the join.
- LoginSequence.Run: its contract does not restate what the collections looked like before their lookups (`raw`). `CacheImages` and `LookupStages` tie `raw` to the session state they start from.
- EquipmentTools.LoadFullTree: the self-recursion is cut off after `fuel` invocations, and `OutOfRounds` reports running out. The source does not terminate when the server keeps returning ids that are already known.
- EquipmentTools.LoadItemsDescription: requires a non-empty batch or one the server answers. On an empty batch that fails, the source recurses without end, and its only caller never passes one.
- `calculateMissionCrewSuccess` (lib/MissionCrewSuccess, not part of this model) is the `successOf` parameter.
- `calculateMinimalComplementAsync` hands the work to the worker without awaiting it, so the login sequence does not call `ComputeMinimalComplement`. The worker's message listener (lib/computeWorker.ts:47-49) is not modelled.
- Aliasing: the source mutates shared objects in place. The model works on values and writes the changes back:
  - a schematic's `ship` object is also in the ship list;
  - a quest object is in both the mission data and the dispute's quest list;
  - a frozen roster entry is pushed before `loadFrozen` fills it;
  - `matchShips` returns the very ship objects of the player's `character.ships` (lib/ShipTools.ts:6-8, 24-34), so the `traitNames` it sets and the ship `iconUrl` write-backs (lib/LoginSequence.ts:152-160) also land in the player's ship list. The model leaves that list unchanged; no modelled operation reads it afterwards.
- Skill keys are the six keys of `CONFIG.SKILLS`. A crew skill under any other key is not representable; the source would throw at lib/CrewTools.ts:12.
- Fields the core only copies through are not modelled or are opaque `Blob`s:
  - not modelled: portraits, `ship_battle` details, and the fleet and starbase payload contents;
  - opaque: challenges, mastery levels, `cadet` and `crew_requirement`.
- VoyageTools.BestVoyageShip: the voyage is the player's `voyageShipTrait`, standing for `voyage_descriptions[0].ship_trait`. A player without a voyage description is not modelled.
- `loginWithFacebook` (lib/STTApi.ts:208-224) shares `login`'s response classification, which `Session.Login` models. The facebook token request itself is transport.
- Not modelled: `resyncPlayerCurrencyData`, `inspectPlayer`, `getGithubReleases`, `getCrewAvatarBySymbol` and the property getters of lib/STTApi.ts. They are transport calls, `mergeDeep`, or plain field reads.
- MiscTools.FormatTimeRoundTrip: `formatTimeSeconds` is modelled on natural numbers of seconds. Fractional or negative inputs are not covered.
- Config.RgbToHex: the source divides by 2^24 in floating point and keeps the hex fraction's digits. The model uses the equivalent integer form: six hex digits with trailing zeros dropped. This is exact because the divisor is a power of two.

=== FILE: compute_worker.dfy ===
/** The minimal-complement worker: a greedy fixpoint that drops crew ids
    from the candidate set while the summed best success over all
    challenges stays at its baseline. */
module ComputeWorker {
  import opened Entities

  // ---------------------------------------------------------------------
  // Specification
  // ---------------------------------------------------------------------

  predicate NoDup(s: seq<int>) {
    forall i, j :: 0 <= i < j < |s| ==> s[i] != s[j]
  }

  /** The candidates of one entry that survive the exclusion, in order
      (the `filter` of the inner loop). */
  function Remaining(entry: seq<Candidate>, excluded: seq<int>): (r: seq<Candidate>)
    ensures forall c :: c in r ==> c in entry && c.crewId !in excluded
    ensures |r| == 0 <==> forall c :: c in entry ==> c.crewId in excluded
  {
    if entry == [] then []
    else if entry[0].crewId in excluded then Remaining(entry[1..], excluded)
    else [entry[0]] + Remaining(entry[1..], excluded)
  }

  /** The filter keeps every candidate that is not excluded, and the first
      one it keeps is the entry's first candidate that is not excluded. */
  lemma {:induction false} RemainingFirst(entry: seq<Candidate>, excluded: seq<int>)
    ensures forall c :: c in entry && c.crewId !in excluded ==> c in Remaining(entry, excluded)
    ensures forall i :: 0 <= i < |entry| && entry[i].crewId !in excluded
                        && (forall j :: 0 <= j < i ==> entry[j].crewId in excluded)
                        ==> |Remaining(entry, excluded)| > 0 && Remaining(entry, excluded)[0] == entry[i]
  {
    if entry != [] {
      var rest := entry[1..];
      RemainingFirst(rest, excluded);
      assert entry == [entry[0]] + rest;
      forall i | 0 <= i < |entry| && entry[i].crewId !in excluded
                 && (forall j :: 0 <= j < i ==> entry[j].crewId in excluded)
        ensures |Remaining(entry, excluded)| > 0 && Remaining(entry, excluded)[0] == entry[i]
      {
        if i > 0 {
          assert rest[i - 1] == entry[i];
          forall j | 0 <= j < i - 1
            ensures rest[j].crewId in excluded
          {
            assert rest[j] == entry[j + 1];
          }
        }
      }
    }
  }

  /** An entry's score once `excluded` is gone: its first remaining
      candidate's success, or 0. */
  function Top(entry: seq<Candidate>, excluded: seq<int>): int {
    var r := Remaining(entry, excluded);
    if |r| > 0 then r[0].success else 0
  }

  /** The summed score over all entries with `excluded` gone. */
  function Total(entries: seq<seq<Candidate>>, excluded: seq<int>): int {
    if entries == [] then 0
    else Total(entries[..|entries| - 1], excluded) + Top(entries[|entries| - 1], excluded)
  }

  /** The baseline: every entry's first candidate, 0 for an empty entry. */
  function Baseline(entries: seq<seq<Candidate>>): int {
    if entries == [] then 0
    else
      var e := entries[|entries| - 1];
      Baseline(entries[..|entries| - 1]) + (if |e| > 0 then e[0].success else 0)
  }

  /** The crew ids of one entry, in order. */
  function EntryIds(entry: seq<Candidate>): seq<int> {
    if entry == [] then [] else EntryIds(entry[..|entry| - 1]) + [entry[|entry| - 1].crewId]
  }

  /** Every crew id of every entry, in encounter order, repeats kept. */
  function AllIds(entries: seq<seq<Candidate>>): seq<int> {
    if entries == [] then [] else AllIds(entries[..|entries| - 1]) + EntryIds(entries[|entries| - 1])
  }

  /** First-appearance order without repeats: the iteration order of a set
      filled by `add`. */
  function Dedup(s: seq<int>): seq<int> {
    if s == [] then []
    else
      var d := Dedup(s[..|s| - 1]);
      if s[|s| - 1] in d then d else d + [s[|s| - 1]]
  }

  /** The initial candidate set, in insertion order. */
  function CrewIds(entries: seq<seq<Candidate>>): seq<int> {
    Dedup(AllIds(entries))
  }

  /** `s` without the members of `ex`, order kept: what is left of an
      insertion-ordered set after deleting `ex`. */
  function Without(s: seq<int>, ex: seq<int>): (r: seq<int>)
    ensures forall x :: x in r <==> x in s && x !in ex
  {
    if s == [] then []
    else if s[0] in ex then Without(s[1..], ex)
    else [s[0]] + Without(s[1..], ex)
  }

  // ---------------------------------------------------------------------
  // Lemmas about the specification
  // ---------------------------------------------------------------------

  lemma {:induction false} DedupProps(s: seq<int>)
    ensures NoDup(Dedup(s))
    ensures forall x :: x in Dedup(s) <==> x in s
  {
    if s != [] {
      DedupProps(s[..|s| - 1]);
      assert s == s[..|s| - 1] + [s[|s| - 1]];
    }
  }

  lemma {:induction false} WithoutNoDup(s: seq<int>, ex: seq<int>)
    requires NoDup(s)
    ensures NoDup(Without(s, ex))
  {
    if s != [] {
      WithoutNoDup(s[1..], ex);
    }
  }

  lemma {:induction false} WithoutOne(s: seq<int>, ex: seq<int>, x: int)
    ensures Without(Without(s, ex), [x]) == Without(s, ex + [x])
  {
    if s != [] {
      WithoutOne(s[1..], ex, x);
    }
  }

  /** Deleting a present member of a repeat-free sequence shortens it by one. */
  lemma {:induction false} WithoutPresent(s: seq<int>, x: int)
    requires NoDup(s) && x in s
    ensures |Without(s, [x])| == |s| - 1
  {
    if s[0] == x {
      assert x !in s[1..];
      WithoutAbsent(s[1..], x);
    } else {
      WithoutPresent(s[1..], x);
    }
  }

  lemma {:induction false} WithoutAbsent(s: seq<int>, x: int)
    requires x !in s
    ensures Without(s, [x]) == s
  {
    if s != [] {
      WithoutAbsent(s[1..], x);
    }
  }

  /** The baseline is the total with nothing excluded. */
  lemma {:induction false} BaselineIsTotal(entries: seq<seq<Candidate>>)
    ensures Baseline(entries) == Total(entries, [])
  {
    if entries != [] {
      BaselineIsTotal(entries[..|entries| - 1]);
      var e := entries[|entries| - 1];
      if |e| > 0 {
        assert Remaining(e, []) == [e[0]] + Remaining(e[1..], []);
      }
    }
  }

  predicate SortedBySuccess(entry: seq<Candidate>) {
    forall i, j :: 0 <= i <= j < |entry| ==> entry[j].success <= entry[i].success
  }

  predicate NonNegative(entry: seq<Candidate>) {
    forall i :: 0 <= i < |entry| ==> entry[i].success >= 0
  }

  /** In a sorted entry of non-negative scores, excluding crew can only
      lower the entry's score. */
  lemma TopBounded(entry: seq<Candidate>, ex: seq<int>)
    requires SortedBySuccess(entry) && NonNegative(entry)
    ensures Top(entry, ex) <= Top(entry, [])
  {
    if entry != [] {
      assert Remaining(entry, []) == [entry[0]] + Remaining(entry[1..], []);
      var r := Remaining(entry, ex);
      if |r| > 0 {
        assert r[0] in entry;
      }
    }
  }

  /** Every entry is sorted by descending, non-negative success. */
  predicate AllSorted(entries: seq<seq<Candidate>>) {
    forall i :: 0 <= i < |entries| ==> SortedBySuccess(entries[i]) && NonNegative(entries[i])
  }

  lemma {:induction false} TotalBelow(entries: seq<seq<Candidate>>, ex: seq<int>)
    requires AllSorted(entries)
    ensures Total(entries, ex) <= Total(entries, [])
  {
    if entries != [] {
      var n := |entries| - 1;
      assert AllSorted(entries[..n]) by {
        assert forall i :: 0 <= i < n ==> entries[..n][i] == entries[i];
      }
      TotalBelow(entries[..n], ex);
      TopBounded(entries[n], ex);
    }
  }

  /** A sum of entry scores, each at most its unexcluded score, stays at
      its unexcluded value only when every entry does. */
  lemma {:induction false} TotalBounded(entries: seq<seq<Candidate>>, ex: seq<int>)
    requires AllSorted(entries)
    ensures Total(entries, ex) <= Total(entries, [])
    ensures Total(entries, ex) == Total(entries, [])
            ==> forall i :: 0 <= i < |entries| ==> Top(entries[i], ex) == Top(entries[i], [])
  {
    TotalBelow(entries, ex);
    if entries != [] && Total(entries, ex) == Total(entries, []) {
      var n := |entries| - 1;
      var init := entries[..n];
      assert AllSorted(init) by {
        assert forall i :: 0 <= i < n ==> init[i] == entries[i];
      }
      TopBounded(entries[n], ex);
      TotalBelow(init, ex);
      assert Total(entries, ex) == Total(init, ex) + Top(entries[n], ex);
      assert Total(entries, []) == Total(init, []) + Top(entries[n], []);
      assert Top(entries[n], ex) == Top(entries[n], []);
      assert Total(init, ex) == Total(init, []);
      TotalBounded(init, ex);
      forall i | 0 <= i < |entries| ensures Top(entries[i], ex) == Top(entries[i], []) {
        if i < n {
          assert init[i] == entries[i];
          assert Top(init[i], ex) == Top(init[i], []);
        } else {
          assert i == n;
        }
      }
    }
  }

  /** Only the sum is compared: when every entry is sorted by descending,
      non-negative success, an exclusion that keeps the sum at the baseline
      keeps every entry's own score too. */
  lemma PerEntryPreserved(entries: seq<seq<Candidate>>, ex: seq<int>)
    requires AllSorted(entries)
    requires Total(entries, ex) == Baseline(entries)
    ensures forall i :: 0 <= i < |entries| ==> Top(entries[i], ex) == Top(entries[i], [])
  {
    BaselineIsTotal(entries);
    TotalBounded(entries, ex);
  }

  /** Without the ordering, the sum can stay at the baseline while two
      entries trade scores: dropping crew 1 below keeps 15 but changes both
      entries. */
  lemma UnsortedEntriesTradeScores()
    ensures var entries := [[Candidate(1, 10), Candidate(2, 5)], [Candidate(1, 5), Candidate(2, 10)]];
            && Total(entries, [1]) == Baseline(entries)
            && Top(entries[0], [1]) != Top(entries[0], [])
  {
    var entries := [[Candidate(1, 10), Candidate(2, 5)], [Candidate(1, 5), Candidate(2, 10)]];
    var e0, e1 := entries[0], entries[1];
    assert Remaining(e0, [1]) == [Candidate(2, 5)] by {
      assert Remaining(e0[1..], [1]) == [Candidate(2, 5)] + Remaining(e0[1..][1..], [1]);
    }
    assert Remaining(e1, [1]) == [Candidate(2, 10)] by {
      assert Remaining(e1[1..], [1]) == [Candidate(2, 10)] + Remaining(e1[1..][1..], [1]);
    }
    assert Remaining(e0, []) == [e0[0]] + Remaining(e0[1..], []);
    assert entries[..1] == [e0];
    assert entries[..1][..0] == [];
  }

  // ---------------------------------------------------------------------
  // The worker
  // ---------------------------------------------------------------------

  /** The inner `forEach`: the summed score with `excluded` gone. */
  method SumOfTops(entries: seq<seq<Candidate>>, excluded: seq<int>) returns (result: int)
    ensures result == Total(entries, excluded)
  {
    result := 0;
    var i := 0;
    while i < |entries|
      invariant 0 <= i <= |entries|
      invariant result == Total(entries[..i], excluded)
    {
      var filtered := Remaining(entries[i], excluded);
      result := result + (if |filtered| > 0 then filtered[0].success else 0);
      assert entries[..i + 1][..i] == entries[..i];
      i := i + 1;
    }
    assert entries[..i] == entries;
  }

  /** The inner loop of the first loop: an entry's crew ids are added to
      the set, each unless already there. */
  method AddEntryIds(considered: seq<int>, ghost seen: seq<int>, entry: seq<Candidate>)
    returns (considered': seq<int>)
    requires considered == Dedup(seen)
    ensures considered' == Dedup(seen + EntryIds(entry))
  {
    considered' := considered;
    assert seen + EntryIds(entry[..0]) == seen;
    var j := 0;
    while j < |entry|
      invariant 0 <= j <= |entry|
      invariant considered' == Dedup(seen + EntryIds(entry[..j]))
    {
      var s := seen + EntryIds(entry[..j]);
      assert entry[..j + 1][..j] == entry[..j];
      assert seen + EntryIds(entry[..j + 1]) == s + [entry[j].crewId];
      assert (s + [entry[j].crewId])[..|s|] == s;
      if entry[j].crewId !in considered' {
        considered' := considered' + [entry[j].crewId];
      }
      j := j + 1;
    }
    assert entry[..j] == entry;
  }

  /** The first loop: the baseline and the candidate set in insertion order. */
  method Collect(entries: seq<seq<Candidate>>) returns (baseline: int, considered: seq<int>)
    ensures baseline == Baseline(entries)
    ensures considered == CrewIds(entries)
  {
    baseline := 0;
    considered := [];
    var i := 0;
    while i < |entries|
      invariant 0 <= i <= |entries|
      invariant baseline == Baseline(entries[..i])
      invariant considered == Dedup(AllIds(entries[..i]))
    {
      var entry := entries[i];
      considered := AddEntryIds(considered, AllIds(entries[..i]), entry);
      assert entries[..i + 1][..i] == entries[..i];
      assert AllIds(entries[..i + 1]) == AllIds(entries[..i]) + EntryIds(entry);
      baseline := baseline + (if |entry| > 0 then entry[0].success else 0);
      i := i + 1;
    }
    assert entries[..i] == entries;
  }

  /** What the worker keeps true between rounds: the candidates are the
      initial ones minus the removed ones, order kept, and with the removed
      ones gone the summed score is still the baseline. */
  ghost predicate Bookkeeping(entries: seq<seq<Candidate>>, baseline: int, ids: seq<int>,
                              considered: seq<int>, removed: seq<int>)
  {
    && NoDup(ids) && considered == Without(ids, removed)
    && NoDup(removed) && (forall x :: x in removed ==> x in ids)
    && |considered| + |removed| == |ids|
    && Total(entries, removed) == baseline
  }

  /** Candidate `k` is the first, in insertion order, whose removal keeps
      the baseline. */
  ghost predicate FirstKeeping(entries: seq<seq<Candidate>>, baseline: int, considered: seq<int>,
                               removed: seq<int>, k: int)
    requires 0 <= k < |considered|
  {
    && Total(entries, removed + [considered[k]]) == baseline
    && forall j :: 0 <= j < k ==> Total(entries, removed + [considered[j]]) != baseline
  }

  /** One round of the do/while: the first candidate, in insertion order,
      whose removal keeps the baseline is removed, and the round stops there. */
  method Pass(entries: seq<seq<Candidate>>, baseline: int, ghost ids: seq<int>,
              considered: seq<int>, removed: seq<int>)
    returns (considered': seq<int>, removed': seq<int>, removedOne: bool)
    requires Bookkeeping(entries, baseline, ids, considered, removed)
    ensures Bookkeeping(entries, baseline, ids, considered', removed')
    ensures !removedOne ==> considered' == considered && removed' == removed
    ensures !removedOne ==> forall x :: x in considered ==> Total(entries, removed + [x]) != baseline
    ensures removedOne ==> |considered'| == |considered| - 1 && |removed'| == |removed| + 1
    ensures removedOne ==>
              exists k :: 0 <= k < |considered| && FirstKeeping(entries, baseline, considered, removed, k)
                          && removed' == removed + [considered[k]]
                          && considered' == Without(considered, [considered[k]])
  {
    var k := 0;
    var found := false;
    while k < |considered| && !found
      invariant 0 <= k <= |considered|
      invariant found ==> k < |considered| && Total(entries, removed + [considered[k]]) == baseline
      invariant forall j :: 0 <= j < k ==> Total(entries, removed + [considered[j]]) != baseline
      decreases |considered| - k, if found then 0 else 1
    {
      var result := SumOfTops(entries, removed + [considered[k]]);
      if result == baseline {
        found := true;
      } else {
        k := k + 1;
      }
    }
    if found {
      var crewId := considered[k];
      RemoveKeeps(entries, baseline, ids, considered, removed, crewId);
      considered' := Without(considered, [crewId]);
      removed' := removed + [crewId];
      removedOne := true;
      assert FirstKeeping(entries, baseline, considered, removed, k);
    } else {
      considered', removed' := considered, removed;
      removedOne := false;
      forall x | x in considered
        ensures Total(entries, removed + [x]) != baseline
      {
        var j :| 0 <= j < |considered| && considered[j] == x;
      }
    }
  }

  /** `computeCrewSuccessmissionSuccess`. `passes` counts the rounds of the
      do/while loop. */
  method ComputeMinimalComplement(entries: seq<seq<Candidate>>)
    returns (c: Complement, ghost passes: nat)
    ensures NoDup(c.neededCrew) && NoDup(c.unneededCrew)
    ensures forall x :: x in c.neededCrew ==> x !in c.unneededCrew
    ensures forall x :: x in c.neededCrew || x in c.unneededCrew <==> x in CrewIds(entries)
    ensures c.neededCrew == Without(CrewIds(entries), c.unneededCrew)
    ensures Total(entries, c.unneededCrew) == Baseline(entries)
    ensures forall x :: x in c.neededCrew ==> Total(entries, c.unneededCrew + [x]) != Baseline(entries)
    ensures passes == |c.unneededCrew| + 1
    ensures passes <= |CrewIds(entries)| + 1
  {
    var baseline, considered := Collect(entries);
    ghost var ids := CrewIds(entries);
    DedupProps(AllIds(entries));
    BaselineIsTotal(entries);
    WithoutEmpty(ids);
    var removed: seq<int> := [];
    passes := 0;
    var progress := true;
    while progress
      invariant Bookkeeping(entries, baseline, ids, considered, removed)
      invariant progress ==> passes == |removed|
      invariant !progress ==> passes == |removed| + 1
      invariant !progress ==> forall x :: x in considered ==> Total(entries, removed + [x]) != baseline
      decreases |considered| + (if progress then 1 else 0)
    {
      var before := |considered|;
      var removedOne;
      considered, removed, removedOne := Pass(entries, baseline, ids, considered, removed);
      passes := passes + 1;
      progress := |considered| < before;
    }
    WithoutNoDup(ids, removed);
    c := Complement(considered, removed);
  }

  /** Removing a candidate whose removal keeps the baseline keeps the
      bookkeeping, with one candidate fewer. */
  lemma RemoveKeeps(entries: seq<seq<Candidate>>, baseline: int, ids: seq<int>,
                    considered: seq<int>, removed: seq<int>, crewId: int)
    requires Bookkeeping(entries, baseline, ids, considered, removed)
    requires crewId in considered && Total(entries, removed + [crewId]) == baseline
    ensures Bookkeeping(entries, baseline, ids, Without(considered, [crewId]), removed + [crewId])
    ensures |Without(considered, [crewId])| == |considered| - 1
  {
    RemoveStep(ids, removed, crewId);
  }

  /** One deletion keeps the loop's bookkeeping: the candidates are still
      the initial ones minus the removed ones, one fewer of them. */
  lemma RemoveStep(ids: seq<int>, removed: seq<int>, crewId: int)
    requires NoDup(ids) && NoDup(removed) && forall x :: x in removed ==> x in ids
    requires crewId in Without(ids, removed)
    ensures Without(Without(ids, removed), [crewId]) == Without(ids, removed + [crewId])
    ensures |Without(ids, removed + [crewId])| == |Without(ids, removed)| - 1
    ensures NoDup(removed + [crewId]) && forall x :: x in removed + [crewId] ==> x in ids
  {
    WithoutNoDup(ids, removed);
    WithoutPresent(Without(ids, removed), crewId);
    WithoutOne(ids, removed, crewId);
  }

  lemma {:induction false} WithoutEmpty(s: seq<int>)
    ensures Without(s, []) == s
  {
    if s != [] {
      WithoutEmpty(s[1..]);
    }
  }
}

=== FILE: config.dfy ===
/** The client's static configuration: colour helper, rarity and skill
    tables, the sprite table, and the endpoints and client identity used
    when talking to the servers. */
module Config {
  import opened Wrappers
  import opened Entities

  const URL_PLATFORM: string := "https://thorium.disruptorbeam.com/"
  const URL_SERVER: string := "https://stt.disruptorbeam.com/"
  const CLIENT_ID: string := "4fc852d7-d602-476a-a292-d243022a475d"
  const CLIENT_API_VERSION: nat := 11
  const CLIENT_VERSION: string := "5.1.0"
  const CLIENT_PLATFORM: string := "webgl"
  const HOURS_TO_RECOVERY: nat := 24 * 10

  // ---------------------------------------------------------------- rgbToHex

  type Byte = x: int | 0 <= x < 256

  const HEX_DIGITS: string := "0123456789abcdef"

  predicate IsHexDigit(c: char) {
    ('0' <= c <= '9') || ('a' <= c <= 'f')
  }

  function HexDigit(d: nat): (c: char)
    requires d < 16
    ensures IsHexDigit(c)
  {
    HEX_DIGITS[d]
  }

  /** The value of a lower-case hex digit (0 for anything else). */
  function DigitValue(c: char): (d: nat)
    ensures d < 16
  {
    if '0' <= c <= '9' then (c - '0') as nat
    else if 'a' <= c <= 'f' then (c - 'a') as nat + 10
    else 0
  }

  lemma DigitValueOfHexDigit(d: nat)
    requires d < 16
    ensures DigitValue(HexDigit(d)) == d
  {
  }

  function Pow16(n: nat): (p: nat)
    ensures p >= 1
  {
    if n == 0 then 1 else 16 * Pow16(n - 1)
  }

  /** The `n`-digit, zero-padded, lower-case hex rendering of `v`. */
  function HexDigits(v: nat, n: nat): (s: string)
    requires v < Pow16(n)
    ensures |s| == n
  {
    if n == 0 then "" else HexDigits(v / 16, n - 1) + [HexDigit(v % 16)]
  }

  /** Reads a hex string back, most significant digit first. */
  function HexValue(s: string): nat {
    if s == [] then 0 else 16 * HexValue(s[..|s| - 1]) + DigitValue(s[|s| - 1])
  }

  lemma {:induction false} HexDigitsRoundTrip(v: nat, n: nat)
    requires v < Pow16(n)
    ensures HexValue(HexDigits(v, n)) == v
  {
    if n > 0 {
      var s := HexDigits(v, n);
      HexDigitsRoundTrip(v / 16, n - 1);
      assert s[..|s| - 1] == HexDigits(v / 16, n - 1);
      DigitValueOfHexDigit(v % 16);
    }
  }

  function Zeros(n: nat): (z: string)
    ensures |z| == n && forall i :: 0 <= i < n ==> z[i] == '0'
  {
    seq(n, _ => '0')
  }

  /** Drops the trailing `'0'` characters: what JavaScript's shortest
      rendering of a fraction does to the digits after the point. */
  function TrimTrailingZeros(s: string): (t: string)
    ensures |t| <= |s| && t == s[..|t|]
    ensures s == t + Zeros(|s| - |t|)
    ensures t == [] || t[|t| - 1] != '0'
  {
    if s != [] && s[|s| - 1] == '0' then
      var init := s[..|s| - 1];
      var t := TrimTrailingZeros(init);
      var z := Zeros(|init| - |t|);
      assert s == init + ['0'];
      assert Zeros(|s| - |t|) == z + ['0'];
      assert s == t + (z + ['0']) by {
        assert init + ['0'] == (t + z) + ['0'] == t + (z + ['0']);
      }
      assert s[..|t|] == init[..|t|];
      t
    else s
  }

  /** `b | g << 8 | r << 16`: for byte-sized operands the shifts and the
      bitwise or add up disjoint bit ranges (see `PackBits`). */
  function PackRgb(r: Byte, g: Byte, b: Byte): (v: nat)
    ensures v < 0x1000000
  {
    r * 65536 + g * 256 + b
  }

  /** On 32-bit words, the shift-and-or of three bytes is their weighted sum. */
  lemma PackBits(r: bv32, g: bv32, b: bv32)
    requires r < 256 && g < 256 && b < 256
    ensures b | (g << 8) | (r << 16) == r * 65536 + g * 256 + b
  {
  }

  /** The three bytes can be read back from the packed value. */
  lemma UnpackRgb(r: Byte, g: Byte, b: Byte)
    ensures PackRgb(r, g, b) / 65536 == r
    ensures (PackRgb(r, g, b) / 256) % 256 == g
    ensures PackRgb(r, g, b) % 256 == b
  {
    var v := PackRgb(r, g, b);
    assert v == r * 65536 + (g * 256 + b) && 0 <= g * 256 + b < 65536;
    assert v == (r * 256 + g) * 256 + b;
  }

  lemma Pow16Six()
    ensures Pow16(6) == 0x1000000
  {
    assert Pow16(2) == 256;
    assert Pow16(4) == 65536;
  }

  /** `'#' + (v / 0x1000000).toString(16).substring(2)`: the colour value
      divided by 2^24 is a hex fraction with at most six digits, so the
      text after `"0."` is the six-digit hex of `v` without trailing zeros
      (and `"0"` alone, for black, leaves nothing). */
  function RgbToHex(r: Byte, g: Byte, b: Byte): (hex: string)
    ensures 1 <= |hex| <= 7 && hex[0] == '#'
    ensures |hex| == 1 || hex[|hex| - 1] != '0'
  {
    Pow16Six();
    "#" + TrimTrailingZeros(HexDigits(PackRgb(r, g, b), 6))
  }

  /** Reads a colour written by `RgbToHex` back into its components. */
  function ParseColor(hex: string): Option<(Byte, Byte, Byte)> {
    if 1 <= |hex| <= 7 && hex[0] == '#' then
      var v := HexValue(hex[1..] + Zeros(7 - |hex|));
      if v < 0x1000000 then Some((v / 65536, (v / 256) % 256, v % 256)) else None
    else None
  }

  lemma RgbToHexRoundTrip(r: Byte, g: Byte, b: Byte)
    ensures ParseColor(RgbToHex(r, g, b)) == Some((r, g, b))
  {
    Pow16Six();
    var v := PackRgb(r, g, b);
    var digits := HexDigits(v, 6);
    var hex := RgbToHex(r, g, b);
    var t := TrimTrailingZeros(digits);
    assert hex[1..] == t;
    assert hex[1..] + Zeros(7 - |hex|) == digits;
    HexDigitsRoundTrip(v, 6);
    UnpackRgb(r, g, b);
  }

  lemma RgbToHexInjective(r: Byte, g: Byte, b: Byte, r': Byte, g': Byte, b': Byte)
    requires RgbToHex(r, g, b) == RgbToHex(r', g', b')
    ensures r == r' && g == g' && b == b'
  {
    RgbToHexRoundTrip(r, g, b);
    RgbToHexRoundTrip(r', g', b');
  }

  // ---------------------------------------------------------------- tables

  datatype Rarity = Rarity(name: string, color: string)

  const RARITIES: seq<Rarity> := [
    Rarity("Basic", "Grey"),
    Rarity("Common", RgbToHex(155, 155, 155)),
    Rarity("Uncommon", RgbToHex(80, 170, 60)),
    Rarity("Rare", RgbToHex(90, 170, 255)),
    Rarity("Super Rare", RgbToHex(170, 45, 235)),
    Rarity("Legendary", RgbToHex(253, 210, 106))
  ]

  /** Hex rendering peels one digit at a time: `16 * q + d` renders as
      the digits of `q` followed by the digit `d`. */
  lemma HexStep(v: nat, q: nat, d: nat, n: nat)
    requires v == 16 * q + d && d < 16 && q < Pow16(n)
    ensures v < Pow16(n + 1)
    ensures HexDigits(v, n + 1) == HexDigits(q, n) + [HexDigit(d)]
  {
    assert Pow16(n + 1) == 16 * Pow16(n);
    assert v / 16 == q && v % 16 == d;
  }

  /** The six digits of a colour are the two-digit hex of each byte, most
      significant byte first. */
  lemma HexOfRgb(r: Byte, g: Byte, b: Byte)
    ensures Pow16(6) == 0x1000000
    ensures HexDigits(PackRgb(r, g, b), 6)
         == [HexDigit(r / 16), HexDigit(r % 16), HexDigit(g / 16), HexDigit(g % 16),
             HexDigit(b / 16), HexDigit(b % 16)]
  {
    Pow16Six();
    HexStep(r / 16, 0, r / 16, 0);
    HexStep(r, r / 16, r % 16, 1);
    HexStep(r * 16 + g / 16, r, g / 16, 2);
    HexStep(r * 256 + g, r * 16 + g / 16, g % 16, 3);
    HexStep(r * 4096 + g * 16 + b / 16, r * 256 + g, b / 16, 4);
    HexStep(PackRgb(r, g, b), r * 4096 + g * 16 + b / 16, b % 16, 5);
  }

  /** A colour whose last hex digit is not zero keeps all six digits. */
  lemma RgbToHexFull(r: Byte, g: Byte, b: Byte)
    requires b % 16 != 0
    ensures RgbToHex(r, g, b)
         == ['#', HexDigit(r / 16), HexDigit(r % 16), HexDigit(g / 16), HexDigit(g % 16),
             HexDigit(b / 16), HexDigit(b % 16)]
  {
    HexOfRgb(r, g, b);
    var digits := HexDigits(PackRgb(r, g, b), 6);
    assert digits[5] == HexDigit(b % 16) != '0';
    assert TrimTrailingZeros(digits) == digits;
  }

  /** The colours of the rarity table, as `rgbToHex` renders them. */
  lemma CommonColor() ensures RgbToHex(155, 155, 155) == "#9b9b9b" { RgbToHexFull(155, 155, 155); }
  lemma UncommonColor() ensures RgbToHex(80, 170, 60) == "#50aa3c" { RgbToHexFull(80, 170, 60); }
  lemma RareColor() ensures RgbToHex(90, 170, 255) == "#5aaaff" { RgbToHexFull(90, 170, 255); }
  lemma SuperRareColor() ensures RgbToHex(170, 45, 235) == "#aa2deb" { RgbToHexFull(170, 45, 235); }
  lemma LegendaryColor() ensures RgbToHex(253, 210, 106) == "#fdd26a" { RgbToHexFull(253, 210, 106); }

  /** The keys of `CONFIG.SKILLS`, in declaration order. */
  const SKILLS: seq<Skill> := [Command, Science, Security, Engineering, Diplomacy, Medicine]

  /** The value `CONFIG.SKILLS` maps a skill's key to. */
  function SkillName(s: Skill): string {
    match s
    case Command => "Command"
    case Science => "Science"
    case Security => "Security"
    case Engineering => "Engineering"
    case Diplomacy => "Diplomacy"
    case Medicine => "Medicine"
  }

  /** The key under which a skill appears in payloads and roster entries. */
  function SkillKey(s: Skill): string {
    match s
    case Command => "command_skill"
    case Science => "science_skill"
    case Security => "security_skill"
    case Engineering => "engineering_skill"
    case Diplomacy => "diplomacy_skill"
    case Medicine => "medicine_skill"
  }

  /** The skill table lists each of the six skills exactly once. */
  lemma SkillsTable()
    ensures |SKILLS| == 6
    ensures forall s: Skill :: s in SKILLS
    ensures forall i, j :: 0 <= i < j < |SKILLS| ==> SKILLS[i] != SKILLS[j]
  {
    forall s: Skill ensures s in SKILLS {
      match s
      case Command => assert SKILLS[0] == s;
      case Science => assert SKILLS[1] == s;
      case Security => assert SKILLS[2] == s;
      case Engineering => assert SKILLS[3] == s;
      case Diplomacy => assert SKILLS[4] == s;
      case Medicine => assert SKILLS[5] == s;
    }
  }

  /** One row of `CONFIG.SPRITES`: the sprite's name (its key), the asset
      bundle it lives in, and its resolved URL (`None` for `undefined`). */
  datatype Sprite = Sprite(name: string, asset: string, url: Option<string>)

  const ICONS: string := "atlas_stt_icons"

  /** `CONFIG.SPRITES` as declared, in declaration order. */
  const SPRITES: seq<Sprite> := [
    Sprite("mastery_highest_icon", ICONS, None),
    Sprite("mastery_medium_icon", ICONS, None),
    Sprite("mastery_lowest_icon", ICONS, None),
    Sprite("star_reward", ICONS, None),
    Sprite("star_reward_inactive", ICONS, None),
    Sprite("fleet_rank_admiral_icon", ICONS, None),
    Sprite("fleet_rank_captain_icon", ICONS, None),
    Sprite("fleet_rank_ensign_icon", ICONS, None),
    Sprite("fleet_rank_lt_icon", ICONS, None),
    Sprite("honor_currency", ICONS, None),
    Sprite("icon_command_skill", ICONS, None),
    Sprite("icon_diplomacy_skill", ICONS, None),
    Sprite("icon_engineering_skill", ICONS, None),
    Sprite("icon_medicine_skill", ICONS, None),
    Sprite("icon_science_skill", ICONS, None),
    Sprite("icon_security_skill", ICONS, None),
    Sprite("icon_shuttle_lg", ICONS, None),
    Sprite("node_icon", ICONS, None),
    Sprite("pe_currency_icon", ICONS, None),
    Sprite("pp_currency_icon", ICONS, None),
    Sprite("soft_currency_icon", ICONS, None),
    Sprite("victory_point_icon", ICONS, None),
    Sprite("energy_icon", ICONS, None),
    Sprite("cadet_icon", ICONS, None),
    Sprite("images_currency_honor_currency_0", "", None),
    Sprite("images_currency_pe_currency_0", "", None),
    Sprite("images_currency_pp_currency_0", "", None),
    Sprite("images_currency_sc_currency_0", "", None)
  ]

  /** The sprite table has 28 rows, none with a URL yet. */
  lemma SpritesTable()
    ensures |SPRITES| == 28
    ensures forall i :: 0 <= i < |SPRITES| ==> SPRITES[i].url == None
  {
  }
}

=== FILE: crew_tools.dfy ===
/** Building the crew roster: default entries from avatars, merging a
    crew member's data into an entry, loading frozen crew, and the stats
    summary. */
module CrewTools {
  import opened Wrappers
  import opened Entities
  import Config
  import MiscTools
  import Text
  import SttApi

  // ---------------------------------------------------------------------
  // Default entries
  // ---------------------------------------------------------------------

  /** All six skills at zero. */
  function ZeroSkills(): (m: map<Skill, SkillValue>)
    ensures forall s: Skill :: s in m && m[s] == SkillValue(0, 0, 0)
  {
    Config.SkillsTable();
    map s | s in Config.SKILLS :: SkillValue(0, 0, 0)
  }

  /** Every skill has a value, as in an entry built by `getDefaults`. */
  predicate AllSkills(skills: map<Skill, SkillValue>) {
    forall s: Skill :: s in skills
  }

  /** `getDefaults`: a blank entry for the avatar with the id, if any. */
  function GetDefaults(avatars: seq<Avatar>, id: int): (r: Option<RosterEntry>)
    ensures r.None? <==> forall i :: 0 <= i < |avatars| ==> avatars[i].id != id
    ensures r.Some? ==> r.value.id == id && AllSkills(r.value.skills)
    ensures r.Some? ==> var a := SttApi.CrewAvatarById(avatars, id).value;
                        && r.value.name == a.name && r.value.shortName == a.shortName
                        && r.value.maxRarity == a.maxRarity && r.value.symbol == a.symbol
    ensures r.Some? ==> r.value.level == 0 && r.value.rarity == 0 && r.value.frozen == 0
                        && !r.value.buyback && r.value.traits == "" && r.value.rawTraits == []
                        && forall s: Skill :: r.value.skills[s] == SkillValue(0, 0, 0)
  {
    match SttApi.CrewAvatarById(avatars, id)
    case None => None
    case Some(a) =>
      Some(RosterEntry(a.id, a.name, a.shortName, a.maxRarity, a.symbol,
                       0, 0, 0, false, 0, 0, "", [], ZeroSkills(), map[],
                       Blob(""), Blob(""), "", [], "", ""))
  }

  // ---------------------------------------------------------------------
  // Merging a crew member into an entry
  // ---------------------------------------------------------------------

  /** Every `crew.equipment` index names a slot; otherwise marking it throws. */
  predicate EquipmentInRange(crew: CrewData) {
    forall k :: k in crew.equipment ==> 0 <= k < |crew.equipmentSlots|
  }

  /** The skills after the merge: those the crew member has are copied
      from `{core, range_min, range_max}`, the rest keep their value. */
  function MergedSkills(skills: map<Skill, SkillValue>, crew: map<Skill, SkillRange>): map<Skill, SkillValue> {
    map s | s in skills :: if s in crew then SkillValue(crew[s].core, crew[s].rangeMin, crew[s].rangeMax)
                           else skills[s]
  }

  /** The six `*_skill_core` fields. */
  function SkillCores(skills: map<Skill, SkillValue>): map<Skill, int> {
    map s | s in skills :: skills[s].core
  }

  /** The slots with `have` set exactly for the indices in `equipment`. */
  function MarkedSlots(slots: seq<EquipmentSlot>, equipment: seq<int>): seq<EquipmentSlot> {
    seq(|slots|, i requires 0 <= i < |slots| => slots[i].(have := i in equipment))
  }

  /** The display names of the traits, visible then hidden. */
  function TraitNames(names: map<string, string>, traits: seq<string>): seq<string> {
    seq(|traits|, i requires 0 <= i < |traits| => SttApi.TraitName(names, traits[i]))
  }

  const NONHUMAN := "nonhuman"
  const ALIEN := "alien"

  /** The first `from`, if any, is taken out and `to` is appended. */
  function ReplaceFirst<T(==)>(raw: seq<T>, from: T, to: T): seq<T> {
    var i := Text.IndexOf(raw, from);
    if i > -1 then raw[..i] + raw[i + 1..] + [to] else raw
  }

  /** `rawTraits`: the first `nonhuman`, if any, is taken out and `alien`
      is appended. */
  function RewriteNonhuman(raw: seq<string>): seq<string> {
    ReplaceFirst(raw, NONHUMAN, ALIEN)
  }

  /** The entry after `rosterFromCrew`, or `None` where it would throw. */
  function FromCrew(entry: RosterEntry, crew: CrewData, names: map<string, string>): Option<RosterEntry>
    requires AllSkills(entry.skills)
  {
    if !EquipmentInRange(crew) then None
    else
      var skills := MergedSkills(entry.skills, crew.skills);
      var raw := crew.traits + crew.traitsHidden;
      Some(entry.(level := crew.level, rarity := crew.rarity, buyback := crew.inBuyBack,
                  crewId := crew.id, activeId := crew.activeId,
                  skills := skills, skillCore := SkillCores(skills),
                  shipBattle := crew.shipBattle, action := crew.action, flavor := crew.flavor,
                  equipmentSlots := MarkedSlots(crew.equipmentSlots, crew.equipment),
                  traits := Text.Join(TraitNames(names, raw), ','),
                  rawTraits := RewriteNonhuman(raw)))
  }

  /** Slot `i` has `have` exactly when `i` is the first component of some
      `crew.equipment` pair; an out-of-range index is the only failure. */
  lemma FromCrewSlots(entry: RosterEntry, crew: CrewData, names: map<string, string>)
    requires AllSkills(entry.skills)
    ensures FromCrew(entry, crew, names).Some? <==> EquipmentInRange(crew)
    ensures FromCrew(entry, crew, names).Some? ==>
              var slots := FromCrew(entry, crew, names).value.equipmentSlots;
              && |slots| == |crew.equipmentSlots|
              && forall i :: 0 <= i < |slots| ==>
                   (slots[i].have <==> i in crew.equipment)
                   && slots[i].level == crew.equipmentSlots[i].level
                   && slots[i].archetype == crew.equipmentSlots[i].archetype
  {
  }

  /** Every skill the crew member has is copied; the others keep the
      entry's value; each `*_skill_core` mirrors its skill's core. */
  lemma FromCrewSkills(entry: RosterEntry, crew: CrewData, names: map<string, string>)
    requires AllSkills(entry.skills)
    requires EquipmentInRange(crew)
    ensures var r := FromCrew(entry, crew, names).value;
            && AllSkills(r.skills)
            && (forall s: Skill :: s in crew.skills ==>
                  r.skills[s] == SkillValue(crew.skills[s].core, crew.skills[s].rangeMin, crew.skills[s].rangeMax))
            && (forall s: Skill :: s !in crew.skills ==> r.skills[s] == entry.skills[s])
            && (forall s: Skill :: s in r.skillCore && r.skillCore[s] == r.skills[s].core)
  {
  }

  /** What `rosterFromCrew` does not touch: identity, names and `frozen`. */
  lemma FromCrewKeeps(entry: RosterEntry, crew: CrewData, names: map<string, string>)
    requires AllSkills(entry.skills)
    requires EquipmentInRange(crew)
    ensures var r := FromCrew(entry, crew, names).value;
            && r.id == entry.id && r.name == entry.name && r.shortName == entry.shortName
            && r.symbol == entry.symbol && r.maxRarity == entry.maxRarity && r.frozen == entry.frozen
            && r.level == crew.level && r.rarity == crew.rarity && r.crewId == crew.id
  {
  }

  /** Replacing keeps the length and swaps one `from` for one `to`, at
      the end; without `from` nothing changes. */
  lemma ReplaceFirstProps<T>(raw: seq<T>, from: T, to: T)
    ensures |ReplaceFirst(raw, from, to)| == |raw|
    ensures from !in raw ==> ReplaceFirst(raw, from, to) == raw
    ensures from in raw ==>
              && ReplaceFirst(raw, from, to)[|raw| - 1] == to
              && multiset(ReplaceFirst(raw, from, to)) == multiset(raw) - multiset{from} + multiset{to}
  {
    var i := Text.IndexOf(raw, from);
    if i > -1 {
      var a, b := raw[..i], raw[i + 1..];
      assert ReplaceFirst(raw, from, to) == a + b + [to];
      assert raw == a + [from] + b;
      SwapMultiset(a, from, b, to);
      assert multiset(ReplaceFirst(raw, from, to)) == multiset(raw) - multiset{from} + multiset{to};
    }
  }

  lemma SwapMultiset<T>(a: seq<T>, x: T, b: seq<T>, y: T)
    ensures multiset(a + b + [y]) == multiset(a + [x] + b) - multiset{x} + multiset{y}
  {
    assert multiset(a + [x] + b) == multiset(a) + multiset{x} + multiset(b);
    assert multiset(a + b + [y]) == multiset(a) + multiset(b) + multiset{y};
  }

  /** The nonhuman rewrite keeps the length and swaps one `nonhuman` for
      one `alien`, at the end; without `nonhuman` nothing changes. */
  lemma RewriteNonhumanProps(raw: seq<string>)
    ensures |RewriteNonhuman(raw)| == |raw|
    ensures NONHUMAN !in raw ==> RewriteNonhuman(raw) == raw
    ensures NONHUMAN in raw ==>
              && RewriteNonhuman(raw)[|raw| - 1] == ALIEN
              && multiset(RewriteNonhuman(raw)) == multiset(raw) - multiset{NONHUMAN} + multiset{ALIEN}
  {
    ReplaceFirstProps(raw, NONHUMAN, ALIEN);
  }

  /** The skill loop of `rosterFromCrew`. */
  method MergeSkills(skills: map<Skill, SkillValue>, crew: map<Skill, SkillRange>)
    returns (merged: map<Skill, SkillValue>)
    requires AllSkills(skills)
    ensures merged == MergedSkills(skills, crew)
  {
    merged := skills;
    var k := 0;
    while k < |Config.SKILLS|
      invariant 0 <= k <= |Config.SKILLS|
      invariant merged.Keys == skills.Keys
      invariant forall s :: s in merged ==>
                  merged[s] == if s in crew && s in Config.SKILLS[..k]
                               then SkillValue(crew[s].core, crew[s].rangeMin, crew[s].rangeMax)
                               else skills[s]
    {
      var s := Config.SKILLS[k];
      if s in crew {
        merged := merged[s := SkillValue(crew[s].core, crew[s].rangeMin, crew[s].rangeMax)];
      }
      assert Config.SKILLS[..k + 1] == Config.SKILLS[..k] + [s];
      k := k + 1;
    }
    Config.SkillsTable();
    assert Config.SKILLS[..k] == Config.SKILLS;
  }

  /** The two slot loops of `rosterFromCrew`: clear every `have`, then set
      it for each equipped index; `None` where an index names no slot. */
  method MarkSlots(slots: seq<EquipmentSlot>, equipment: seq<int>) returns (r: Option<seq<EquipmentSlot>>)
    ensures r.Some? <==> forall k :: k in equipment ==> 0 <= k < |slots|
    ensures r.Some? ==> r.value == MarkedSlots(slots, equipment)
  {
    var marked := slots;
    var i := 0;
    while i < |marked|
      invariant 0 <= i <= |marked| && |marked| == |slots|
      invariant forall j :: 0 <= j < |marked| ==>
                  marked[j] == if j < i then slots[j].(have := false) else slots[j]
    {
      marked := marked[i := marked[i].(have := false)];
      i := i + 1;
    }
    var n := 0;
    while n < |equipment|
      invariant 0 <= n <= |equipment| && |marked| == |slots|
      invariant forall k :: k in equipment[..n] ==> 0 <= k < |slots|
      invariant forall j :: 0 <= j < |marked| ==> marked[j] == slots[j].(have := j in equipment[..n])
    {
      var idx := equipment[n];
      if !(0 <= idx < |marked|) {
        assert idx in equipment;
        return None;
      }
      assert equipment[..n + 1] == equipment[..n] + [idx];
      marked := marked[idx := marked[idx].(have := true)];
      n := n + 1;
    }
    assert equipment[..n] == equipment;
    r := Some(marked);
  }

  /** The `indexOf` / `splice` / `push` of `rosterFromCrew`. */
  method RewriteTraits(raw: seq<string>) returns (rawTraits: seq<string>)
    ensures rawTraits == RewriteNonhuman(raw)
  {
    rawTraits := raw;
    var nh := Text.IndexOf(raw, NONHUMAN);
    if nh > -1 {
      rawTraits := rawTraits[..nh] + rawTraits[nh + 1..];
      rawTraits := rawTraits + [ALIEN];
    }
  }

  /** `rosterFromCrew`, on values: the entry it leaves behind, or `None`
      where marking a slot would throw. */
  method RosterFromCrew(entry: RosterEntry, crew: CrewData, names: map<string, string>)
    returns (r: Option<RosterEntry>)
    requires AllSkills(entry.skills)
    ensures r == FromCrew(entry, crew, names)
  {
    var skills := MergeSkills(entry.skills, crew.skills);
    var e := entry.(level := crew.level, rarity := crew.rarity, buyback := crew.inBuyBack,
                    crewId := crew.id, activeId := crew.activeId,
                    skills := skills, skillCore := SkillCores(skills),
                    shipBattle := crew.shipBattle, action := crew.action, flavor := crew.flavor);
    var slots := MarkSlots(crew.equipmentSlots, crew.equipment);
    if slots.None? {
      return None;
    }
    var raw := crew.traits + crew.traitsHidden;
    var traits := Text.Join(TraitNames(names, raw), ',');
    var rawTraits := RewriteTraits(raw);
    r := Some(e.(equipmentSlots := slots.value, traits := traits, rawTraits := rawTraits));
  }

  // ---------------------------------------------------------------------
  // Matching the player's crew
  // ---------------------------------------------------------------------

  /** The active crew members that have an avatar, in order. */
  function WithAvatar(avatars: seq<Avatar>, crews: seq<CrewData>): seq<CrewData> {
    if crews == [] then []
    else
      var c := crews[|crews| - 1];
      WithAvatar(avatars, crews[..|crews| - 1]) + (if GetDefaults(avatars, c.archetypeId).Some? then [c] else [])
  }

  /** The entries of the active crew, or `None` when one of them throws. */
  function ActiveEntries(avatars: seq<Avatar>, crews: seq<CrewData>, names: map<string, string>)
    : Option<seq<RosterEntry>>
  {
    if crews == [] then Some([])
    else
      var c := crews[|crews| - 1];
      match ActiveEntries(avatars, crews[..|crews| - 1], names)
      case None => None
      case Some(prefix) =>
        match GetDefaults(avatars, c.archetypeId)
        case None => Some(prefix)
        case Some(d) =>
          match FromCrew(d, c, names)
          case None => None
          case Some(e) => Some(prefix + [e])
  }

  /** `matchCrew` fails on its active crew exactly when a member with an
      avatar has an equipment index that names no slot. */
  lemma {:induction false} ActiveEntriesFail(avatars: seq<Avatar>, crews: seq<CrewData>, names: map<string, string>)
    ensures ActiveEntries(avatars, crews, names).None? <==>
            exists c :: c in WithAvatar(avatars, crews) && !EquipmentInRange(c)
  {
    if crews != [] {
      var n := |crews| - 1;
      ActiveEntriesFail(avatars, crews[..n], names);
      var c := crews[n];
      var d := GetDefaults(avatars, c.archetypeId);
      if d.Some? {
        assert WithAvatar(avatars, crews) == WithAvatar(avatars, crews[..n]) + [c];
      } else {
        assert WithAvatar(avatars, crews) == WithAvatar(avatars, crews[..n]);
      }
    }
  }

  /** One entry per active crew member with an avatar, in order, each the
      merge of that member into its avatar's defaults. */
  lemma {:induction false} ActiveEntriesShape(avatars: seq<Avatar>, crews: seq<CrewData>, names: map<string, string>)
    requires ActiveEntries(avatars, crews, names).Some?
    ensures var w := WithAvatar(avatars, crews);
            var r := ActiveEntries(avatars, crews, names).value;
            && |r| == |w|
            && forall i :: 0 <= i < |w| ==>
                 && GetDefaults(avatars, w[i].archetypeId).Some?
                 && Some(r[i]) == FromCrew(GetDefaults(avatars, w[i].archetypeId).value, w[i], names)
  {
    if crews != [] {
      var n := |crews| - 1;
      ActiveEntriesShape(avatars, crews[..n], names);
      var c := crews[n];
      if GetDefaults(avatars, c.archetypeId).Some? {
        assert WithAvatar(avatars, crews) == WithAvatar(avatars, crews[..n]) + [c];
      } else {
        assert WithAvatar(avatars, crews) == WithAvatar(avatars, crews[..n]);
      }
    }
  }

  /** The stored immortals that have an avatar, in order. */
  function FrozenWithAvatar(avatars: seq<Avatar>, stored: seq<StoredImmortal>): seq<StoredImmortal> {
    if stored == [] then []
    else
      var im := stored[|stored| - 1];
      FrozenWithAvatar(avatars, stored[..|stored| - 1]) + (if GetDefaults(avatars, im.id).Some? then [im] else [])
  }

  /** The entry pushed for a frozen crew member before its data arrives. */
  function FrozenDefault(d: RosterEntry, im: StoredImmortal): RosterEntry {
    d.(frozen := im.quantity, level := 100, rarity := d.maxRarity)
  }

  /** The frozen entries as pushed, one per stored immortal with an avatar. */
  function FrozenDefaults(avatars: seq<Avatar>, stored: seq<StoredImmortal>): seq<RosterEntry> {
    if stored == [] then []
    else
      var im := stored[|stored| - 1];
      FrozenDefaults(avatars, stored[..|stored| - 1])
      + match GetDefaults(avatars, im.id)
        case None => []
        case Some(d) => [FrozenDefault(d, im)]
  }

  lemma {:induction false} FrozenDefaultsShape(avatars: seq<Avatar>, stored: seq<StoredImmortal>)
    ensures var f := FrozenWithAvatar(avatars, stored);
            var r := FrozenDefaults(avatars, stored);
            && |r| == |f|
            && forall i :: 0 <= i < |f| ==>
                 && r[i].id == f[i].id && r[i].frozen == f[i].quantity
                 && r[i].level == 100 && r[i].rarity == r[i].maxRarity && AllSkills(r[i].skills)
  {
    if stored != [] {
      var n := |stored| - 1;
      FrozenDefaultsShape(avatars, stored[..n]);
    }
  }

  /** Where a frozen crew member's data comes from: the immortal cache,
      else the server (`None` when that request fails). */
  function FrozenSource(cache: map<string, CrewData>, load: string -> Option<CrewData>, symbol: string)
    : Option<CrewData>
  {
    if symbol in cache then Some(cache[symbol]) else load(symbol)
  }

  /** The frozen entries once their data is merged in, or `None` when a
      load fails or a merge throws. */
  function LoadAll(entries: seq<RosterEntry>, cache: map<string, CrewData>,
                   load: string -> Option<CrewData>, names: map<string, string>): Option<seq<RosterEntry>>
    requires forall i :: 0 <= i < |entries| ==> AllSkills(entries[i].skills)
  {
    if entries == [] then Some([])
    else
      var e := entries[|entries| - 1];
      match LoadAll(entries[..|entries| - 1], cache, load, names)
      case None => None
      case Some(prefix) =>
        match LoadOne(e, cache, load, names)
        case None => None
        case Some(r) => Some(prefix + [r])
  }

  /** One frozen entry with its data merged in, or `None` when the load
      fails or the merge throws. */
  function LoadOne(entry: RosterEntry, cache: map<string, CrewData>,
                   load: string -> Option<CrewData>, names: map<string, string>): Option<RosterEntry>
    requires AllSkills(entry.skills)
  {
    match FrozenSource(cache, load, entry.symbol)
    case None => None
    case Some(crew) => FromCrew(entry, crew, names)
  }

  /** The whole `matchCrew` result. */
  function MatchCrewSpec(avatars: seq<Avatar>, character: SttApi.Character, names: map<string, string>,
                         cache: map<string, CrewData>, load: string -> Option<CrewData>)
    : Option<seq<RosterEntry>>
  {
    match ActiveEntries(avatars, character.crew, names)
    case None => None
    case Some(active) =>
      var frozen := FrozenDefaults(avatars, character.storedImmortals);
      FrozenDefaultsShape(avatars, character.storedImmortals);
      match LoadAll(frozen, cache, load, names)
      case None => None
      case Some(loaded) => Some(active + loaded)
  }

  /** The frozen loads succeed exactly when every entry's data can be
      found and merged; then entry i of the result is entry i merged with
      its data. */
  lemma {:induction false} LoadAllShape(entries: seq<RosterEntry>, cache: map<string, CrewData>,
                                        load: string -> Option<CrewData>, names: map<string, string>)
    requires forall i :: 0 <= i < |entries| ==> AllSkills(entries[i].skills)
    ensures LoadAll(entries, cache, load, names).Some? <==>
              forall i :: 0 <= i < |entries| ==> LoadOne(entries[i], cache, load, names).Some?
    ensures LoadAll(entries, cache, load, names).Some? ==>
              var r := LoadAll(entries, cache, load, names).value;
              && |r| == |entries|
              && forall i :: 0 <= i < |entries| ==> Some(r[i]) == LoadOne(entries[i], cache, load, names)
  {
    if entries != [] {
      var n := |entries| - 1;
      var init := entries[..n];
      LoadAllShape(init, cache, load, names);
      assert forall i :: 0 <= i < n ==> init[i] == entries[i];
      if LoadAll(entries, cache, load, names).Some? {
        var prefix := LoadAll(init, cache, load, names).value;
        var r := LoadAll(entries, cache, load, names).value;
        assert r == prefix + [LoadOne(entries[n], cache, load, names).value];
        forall i | 0 <= i < |entries|
          ensures Some(r[i]) == LoadOne(entries[i], cache, load, names)
        {
          if i < n {
            assert r[i] == prefix[i];
          }
        }
      }
    }
  }

  /** The loaded frozen half: one entry per stored immortal with an
      avatar, keeping that immortal's id and quantity, with its data found
      and merged in. */
  lemma FrozenLoadedShape(avatars: seq<Avatar>, stored: seq<StoredImmortal>, names: map<string, string>,
                          cache: map<string, CrewData>, load: string -> Option<CrewData>)
    requires forall i :: 0 <= i < |FrozenDefaults(avatars, stored)| ==> AllSkills(FrozenDefaults(avatars, stored)[i].skills)
    requires LoadAll(FrozenDefaults(avatars, stored), cache, load, names).Some?
    ensures var f := FrozenWithAvatar(avatars, stored);
            var r := LoadAll(FrozenDefaults(avatars, stored), cache, load, names).value;
            && |r| == |f|
            && forall i :: 0 <= i < |f| ==>
                 && r[i].id == f[i].id && r[i].frozen == f[i].quantity
                 && FrozenSource(cache, load, r[i].symbol).Some?
                 && r[i].crewId == FrozenSource(cache, load, r[i].symbol).value.id
  {
    var frozen := FrozenDefaults(avatars, stored);
    FrozenDefaultsShape(avatars, stored);
    LoadAllShape(frozen, cache, load, names);
    var loaded := LoadAll(frozen, cache, load, names).value;
    forall i | 0 <= i < |frozen|
      ensures && loaded[i].id == frozen[i].id && loaded[i].frozen == frozen[i].frozen
              && FrozenSource(cache, load, loaded[i].symbol).Some?
              && loaded[i].crewId == FrozenSource(cache, load, loaded[i].symbol).value.id
    {
      assert LoadOne(frozen[i], cache, load, names).Some?;
      FromCrewKeeps(frozen[i], FrozenSource(cache, load, frozen[i].symbol).value, names);
    }
  }

  /** `matchCrew` lists the active crew with an avatar, each merged into its
      defaults, then the loaded frozen half. */
  lemma MatchCrewShape(avatars: seq<Avatar>, character: SttApi.Character, names: map<string, string>,
                       cache: map<string, CrewData>, load: string -> Option<CrewData>)
    requires MatchCrewSpec(avatars, character, names, cache, load).Some?
    ensures var w := WithAvatar(avatars, character.crew);
            var frozen := FrozenDefaults(avatars, character.storedImmortals);
            var r := MatchCrewSpec(avatars, character, names, cache, load).value;
            && (forall i :: 0 <= i < |frozen| ==> AllSkills(frozen[i].skills))
            && LoadAll(frozen, cache, load, names).Some?
            && |r| == |w| + |LoadAll(frozen, cache, load, names).value|
            && r[|w|..] == LoadAll(frozen, cache, load, names).value
            && (forall i :: 0 <= i < |w| ==>
                  GetDefaults(avatars, w[i].archetypeId).Some?
                  && Some(r[i]) == FromCrew(GetDefaults(avatars, w[i].archetypeId).value, w[i], names))
  {
    ActiveEntriesShape(avatars, character.crew, names);
    FrozenDefaultsShape(avatars, character.storedImmortals);
    var active := ActiveEntries(avatars, character.crew, names).value;
    var loaded := LoadAll(FrozenDefaults(avatars, character.storedImmortals), cache, load, names).value;
    assert (active + loaded)[|active|..] == loaded;
  }

  /** The immortal cache only grows, and only with what the server sent
      for a symbol it did not hold. */
  ghost predicate CacheGrows(before: map<string, CrewData>, after: map<string, CrewData>,
                             load: string -> Option<CrewData>)
  {
    forall sym :: sym in after ==>
      if sym in before then after[sym] == before[sym] else load(sym) == Some(after[sym])
  }

  lemma SourceStable(before: map<string, CrewData>, after: map<string, CrewData>,
                     load: string -> Option<CrewData>, sym: string)
    requires CacheGrows(before, after, load)
    requires forall s :: s in before ==> s in after
    ensures FrozenSource(after, load, sym) == FrozenSource(before, load, sym)
  {
  }

  /** Loads and merges one frozen entry, through the immortal cache. */
  method LoadFrozen(s: SttApi.Session, entry: RosterEntry, load: string -> Option<CrewData>,
                    names: map<string, string>, ghost cache0: map<string, CrewData>)
    returns (r: Option<RosterEntry>)
    requires AllSkills(entry.skills)
    requires CacheGrows(cache0, s.immortalsCache, load) && forall k :: k in cache0 ==> k in s.immortalsCache
    modifies s`immortalsCache
    ensures CacheGrows(cache0, s.immortalsCache, load) && forall k :: k in cache0 ==> k in s.immortalsCache
    ensures forall k :: k in old(s.immortalsCache) ==> k in s.immortalsCache
    ensures r == LoadOne(entry, cache0, load, names)
    ensures entry.symbol !in old(s.immortalsCache) && r.Some?
            ==> s.immortalsCache == old(s.immortalsCache)[entry.symbol := load(entry.symbol).value]
    ensures entry.symbol in old(s.immortalsCache) || r.None? ==> s.immortalsCache == old(s.immortalsCache)
    ensures r.Some? ==> entry.symbol in s.immortalsCache
  {
    SourceStable(cache0, s.immortalsCache, load, entry.symbol);
    if entry.symbol in s.immortalsCache {
      r := RosterFromCrew(entry, s.immortalsCache[entry.symbol], names);
    } else {
      var crew := load(entry.symbol);
      if crew.None? {
        return None;
      }
      r := RosterFromCrew(entry, crew.value, names);
      if r.Some? {
        s.immortalsCache := s.immortalsCache[entry.symbol := crew.value];
      }
    }
  }

  /** The active entries of one more crew member. */
  lemma ActiveEntriesStep(avatars: seq<Avatar>, crews: seq<CrewData>, names: map<string, string>, i: nat)
    requires i < |crews|
    ensures ActiveEntries(avatars, crews[..i + 1], names)
            == match ActiveEntries(avatars, crews[..i], names)
               case None => None
               case Some(prefix) =>
                 match GetDefaults(avatars, crews[i].archetypeId)
                 case None => Some(prefix)
                 case Some(d) =>
                   match FromCrew(d, crews[i], names)
                   case None => None
                   case Some(e) => Some(prefix + [e])
  {
    assert crews[..i + 1][..i] == crews[..i];
  }

  /** The active-crew loop of `matchCrew`. */
  method MatchActive(avatars: seq<Avatar>, crews: seq<CrewData>, names: map<string, string>)
    returns (r: Option<seq<RosterEntry>>)
    ensures r == ActiveEntries(avatars, crews, names)
  {
    var roster: seq<RosterEntry> := [];
    var i := 0;
    while i < |crews|
      invariant 0 <= i <= |crews|
      invariant ActiveEntries(avatars, crews[..i], names) == Some(roster)
    {
      ActiveEntriesStep(avatars, crews, names, i);
      var d := GetDefaults(avatars, crews[i].archetypeId);
      if d.Some? {
        var e := RosterFromCrew(d.value, crews[i], names);
        if e.None? {
          ActiveNoneStays(avatars, crews, names, i + 1);
          return None;
        }
        roster := roster + [e.value];
      }
      i := i + 1;
    }
    assert crews[..i] == crews;
    r := Some(roster);
  }

  /** The loop that pushes the frozen entries. */
  method PushFrozen(avatars: seq<Avatar>, stored: seq<StoredImmortal>) returns (frozen: seq<RosterEntry>)
    ensures frozen == FrozenDefaults(avatars, stored)
  {
    frozen := [];
    var j := 0;
    while j < |stored|
      invariant 0 <= j <= |stored|
      invariant frozen == FrozenDefaults(avatars, stored[..j])
    {
      assert stored[..j + 1][..j] == stored[..j];
      var d := GetDefaults(avatars, stored[j].id);
      if d.Some? {
        frozen := frozen + [FrozenDefault(d.value, stored[j])];
      }
      j := j + 1;
    }
    assert stored[..j] == stored;
  }

  /** The join over the frozen loads. */
  method LoadFrozenAll(s: SttApi.Session, frozen: seq<RosterEntry>, load: string -> Option<CrewData>,
                       names: map<string, string>)
    returns (r: Option<seq<RosterEntry>>)
    requires forall i :: 0 <= i < |frozen| ==> AllSkills(frozen[i].skills)
    modifies s`immortalsCache
    ensures r == LoadAll(frozen, old(s.immortalsCache), load, names)
    ensures CacheGrows(old(s.immortalsCache), s.immortalsCache, load)
    ensures forall k :: k in old(s.immortalsCache) ==> k in s.immortalsCache
  {
    ghost var cache0 := s.immortalsCache;
    var loaded: seq<RosterEntry> := [];
    var k := 0;
    while k < |frozen|
      invariant 0 <= k <= |frozen|
      invariant LoadAll(frozen[..k], cache0, load, names) == Some(loaded)
      invariant CacheGrows(cache0, s.immortalsCache, load) && forall c :: c in cache0 ==> c in s.immortalsCache
    {
      assert frozen[..k + 1][..k] == frozen[..k];
      var e := LoadFrozen(s, frozen[k], load, names, cache0);
      if e.None? {
        LoadNoneStays(frozen, cache0, load, names, k + 1);
        return None;
      }
      loaded := loaded + [e.value];
      k := k + 1;
    }
    assert frozen[..k] == frozen;
    r := Some(loaded);
  }

  /** `matchCrew`: the active crew, then the frozen crew with their data
      loaded. The immortal cache gains what the server had to send. */
  method MatchCrew(s: SttApi.Session, character: SttApi.Character, load: string -> Option<CrewData>)
    returns (r: Option<seq<RosterEntry>>)
    requires s.crewAvatars.Some? && s.platformConfig.Some?
    modifies s`immortalsCache
    ensures r == MatchCrewSpec(s.crewAvatars.value, character, s.platformConfig.value.traitNames,
                               old(s.immortalsCache), load)
    ensures CacheGrows(old(s.immortalsCache), s.immortalsCache, load)
    ensures forall k :: k in old(s.immortalsCache) ==> k in s.immortalsCache
  {
    var avatars := s.crewAvatars.value;
    var names := s.platformConfig.value.traitNames;
    var active := MatchActive(avatars, character.crew, names);
    if active.None? {
      return None;
    }
    r := active;
    if |character.storedImmortals| > 0 {
      var frozen := PushFrozen(avatars, character.storedImmortals);
      FrozenDefaultsShape(avatars, character.storedImmortals);
      var loaded := LoadFrozenAll(s, frozen, load, names);
      if loaded.None? {
        return None;
      }
      r := Some(active.value + loaded.value);
    } else {
      assert active.value + [] == active.value;
    }
  }

  lemma {:induction false} ActiveNoneStays(avatars: seq<Avatar>, crews: seq<CrewData>, names: map<string, string>, i: nat)
    requires i <= |crews| && ActiveEntries(avatars, crews[..i], names).None?
    ensures ActiveEntries(avatars, crews, names).None?
    decreases |crews| - i
  {
    if i < |crews| {
      assert crews[..i + 1][..i] == crews[..i];
      ActiveNoneStays(avatars, crews, names, i + 1);
    } else {
      assert crews[..i] == crews;
    }
  }

  lemma {:induction false} LoadNoneStays(entries: seq<RosterEntry>, cache: map<string, CrewData>,
                                         load: string -> Option<CrewData>, names: map<string, string>, i: nat)
    requires forall j :: 0 <= j < |entries| ==> AllSkills(entries[j].skills)
    requires i <= |entries| && LoadAll(entries[..i], cache, load, names).None?
    ensures LoadAll(entries, cache, load, names).None?
    decreases |entries| - i
  {
    if i < |entries| {
      assert entries[..i + 1][..i] == entries[..i];
      LoadNoneStays(entries, cache, load, names, i + 1);
    } else {
      assert entries[..i] == entries;
    }
  }

  // ---------------------------------------------------------------------
  // The stats summary
  // ---------------------------------------------------------------------

  /** The short names of `formatCrewStats`. */
  function SkillAbbr(s: Skill): string {
    match s
    case Command => "CMD"
    case Science => "SCI"
    case Security => "SEC"
    case Engineering => "ENG"
    case Diplomacy => "DIP"
    case Medicine => "MED"
  }

  /** `floor(core + (min + max) / 2)`: with an integer core this is the
      core plus the floored half-sum, which is what `/` by a positive
      divisor computes here. */
  function AverageValue(v: SkillValue): int {
    v.core + (v.min + v.max) / 2
  }

  /** The piece one skill contributes: nothing unless its core is positive. */
  function StatPiece(s: Skill, v: SkillValue): string {
    if v.core > 0 then SkillAbbr(s) + " (" + MiscTools.IntToString(AverageValue(v)) + ") " else ""
  }

  /** The summary over `order`: the pieces, in that order. */
  function StatsText(skills: map<Skill, SkillValue>, order: seq<Skill>): string
    requires AllSkills(skills)
  {
    if order == [] then ""
    else StatsText(skills, order[..|order| - 1]) + StatPiece(order[|order| - 1], skills[order[|order| - 1]])
  }

  /** The summary is empty exactly when no skill in the order has a
      positive core. */
  lemma {:induction false} StatsTextEmpty(skills: map<Skill, SkillValue>, order: seq<Skill>)
    requires AllSkills(skills)
    ensures StatsText(skills, order) == "" <==> forall i :: 0 <= i < |order| ==> skills[order[i]].core <= 0
  {
    if order != [] {
      var n := |order| - 1;
      StatsTextEmpty(skills, order[..n]);
      assert forall i :: 0 <= i < n ==> order[..n][i] == order[i];
    }
  }

  /** A shown skill: its short name, then the average in parentheses. */
  lemma StatPieceShape(s: Skill, v: SkillValue)
    requires v.core > 0
    ensures StatPiece(s, v)[..5] == SkillAbbr(s) + " ("
    ensures StatPiece(s, v)[|StatPiece(s, v)| - 2..] == ") "
    ensures v.min + v.max >= 0 ==> StatPiece(s, v) == SkillAbbr(s) + " (" + MiscTools.NatToString(AverageValue(v)) + ") "
  {
  }

  /** `formatCrewStats`, its loop over `CONFIG.SKILLS`. */
  method FormatCrewStats(skills: map<Skill, SkillValue>) returns (result: string)
    requires AllSkills(skills)
    ensures result == StatsText(skills, Config.SKILLS)
  {
    result := "";
    var k := 0;
    while k < |Config.SKILLS|
      invariant 0 <= k <= |Config.SKILLS|
      invariant result == StatsText(skills, Config.SKILLS[..k])
    {
      var s := Config.SKILLS[k];
      var skill := skills[s];
      assert Config.SKILLS[..k + 1][..k] == Config.SKILLS[..k];
      if skill.core > 0 {
        result := result + StatPiece(s, skill);
      }
      k := k + 1;
    }
    assert Config.SKILLS[..k] == Config.SKILLS;
  }
}

=== FILE: entities.dfy ===
/** The shapes of the server payloads that the client reads and reshapes.
    Only the fields the modelled code touches are kept; everything the
    client passes through untouched is an opaque `Blob`. */
module Entities {
  import opened Wrappers

  /** An opaque part of a server payload that the client never inspects. */
  datatype Blob = Blob(raw: string)

  // ---------------------------------------------------------------- equipment

  /** One ingredient of a recipe: `{archetype_id, count}`. */
  datatype Demand = Demand(archetypeId: int, count: int)

  /** An item archetype. A missing `recipe` or missing `recipe.demands` is
      modelled as an empty demand list: the client treats both alike. */
  datatype Archetype = Archetype(id: int, demands: seq<Demand>, iconUrl: string)

  // ---------------------------------------------------------------- crew

  /** The six skill keys of the game (the keys of `CONFIG.SKILLS`). */
  datatype Skill = Command | Science | Security | Engineering | Diplomacy | Medicine

  /** A skill as the server sends it: `{core, range_min, range_max}`. */
  datatype SkillRange = SkillRange(core: int, rangeMin: int, rangeMax: int)

  /** A skill as a roster entry keeps it: `{core, min, max}`. */
  datatype SkillValue = SkillValue(core: int, min: int, max: int)

  datatype EquipmentSlot = EquipmentSlot(level: int, archetype: int, have: bool)

  /** A crew avatar (the static description of a crew archetype). */
  datatype Avatar = Avatar(id: int, name: string, shortName: string, maxRarity: int,
                           symbol: string, iconUrl: string)

  /** A crew member as the player data (or the immortal cache) holds it.
      `equipment` holds the first component of every `crew.equipment` pair. */
  datatype CrewData = CrewData(
    id: int, archetypeId: int, activeId: int, level: int, rarity: int, inBuyBack: bool,
    skills: map<Skill, SkillRange>, traits: seq<string>, traitsHidden: seq<string>,
    equipmentSlots: seq<EquipmentSlot>, equipment: seq<int>,
    shipBattle: Blob, action: Blob, flavor: string)

  /** A frozen crew member: the avatar id and how many copies are frozen. */
  datatype StoredImmortal = StoredImmortal(id: int, quantity: int)

  /** One row of the roster the client builds. */
  datatype RosterEntry = RosterEntry(
    id: int, name: string, shortName: string, maxRarity: int, symbol: string,
    level: int, rarity: int, frozen: int, buyback: bool,
    crewId: int, activeId: int,
    traits: string, rawTraits: seq<string>,
    skills: map<Skill, SkillValue>, skillCore: map<Skill, int>,
    shipBattle: Blob, action: Blob, flavor: string,
    equipmentSlots: seq<EquipmentSlot>,
    iconUrl: string, iconBodyUrl: string)

  // ---------------------------------------------------------------- ships

  /** A ship; `traits == None` stands for a ship without a `traits` field. */
  datatype Ship = Ship(id: int, name: string, level: int, antimatter: int,
                       traits: Option<seq<string>>, traitsHidden: seq<string>,
                       traitNames: string, iconUrl: string)

  // ---------------------------------------------------------------- items

  /** An inventory item; `typeName` and `symbol` are `None` until derived
      (and stay `None` when the icon path has too few segments). */
  datatype Item = Item(id: int, iconFile: string, iconUrl: string,
                       typeName: Option<string>, symbol: Option<string>)

  // ---------------------------------------------------------------- missions

  /** What `quest/conflict_info` (or the quest cache) provides for a quest. */
  datatype QuestDetails = QuestDetails(description: string, challenges: Blob,
                                       masteryLevels: Blob, cadet: Blob,
                                       crewRequirement: Blob)

  /** A quest; `name == ""` stands for a missing name. */
  datatype Quest = Quest(id: int, name: string, locked: bool, questType: string,
                         description: string, details: Option<QuestDetails>)

  /** An accepted mission as the player data lists it. */
  datatype AcceptedMission = AcceptedMission(id: int, symbol: string, mainStory: bool)

  /** A mission as `mission/info` describes it. */
  datatype MissionInfo = MissionInfo(id: int, symbol: string, episodeTitle: Option<string>,
                                     description: string, starsEarned: int, totalStars: int,
                                     quests: seq<Quest>)

  /** An episode (dispute history); `quests` is absent until a mission fills it. */
  datatype Dispute = Dispute(symbol: string, missionIds: seq<int>, episode: int, name: string,
                             starsEarned: int, totalStars: int, quests: Option<seq<Quest>>)

  /** One entry of the client's mission list (`IMissionData`). `id` is `None`
      when it would be `undefined` (an episode with no mission ids). */
  datatype MissionData = MissionData(id: Option<int>, episodeTitle: string, description: string,
                                     starsEarned: int, totalStars: int,
                                     quests: Option<seq<Quest>>)

  // ---------------------------------------------------------------- challenges

  /** One scored crew candidate of a challenge: `{crew: {id}, success}`. */
  datatype Candidate = Candidate(crewId: int, success: int)

  /** `MinimalComplement`: the crew needed and the crew that can be dropped. */
  datatype Complement = Complement(neededCrew: seq<int>, unneededCrew: seq<int>)
}

=== FILE: equipment_tools.dfy ===
/** The equipment closure resolver: archetypes referenced by recipes or by
    crew slots but not yet known are fetched in batches of at most twenty,
    appended, and the search repeats; failing batches are bisected. */
module EquipmentTools {
  import opened Wrappers
  import opened Entities
  import Text
  import SttApi

  /** What `item/description` answers: a failure (any rejection), or a
      response whose `item_archetype_cache.archetypes` may be missing. */
  datatype FetchResult = Fail | Fetched(archetypes: Option<seq<Archetype>>)

  /** How a run of the resolver ends. `OutOfRounds` is a run the fuel cut
      short (the source would keep going); for a single invocation it means
      that the invocation recurses. */
  datatype TreeOutcome = Complete | Stalled | OutOfRounds

  const BATCH_SIZE: nat := 20

  // ---------------------------------------------------------------------
  // The description fetch with bisection
  // ---------------------------------------------------------------------

  /** `loadItemsDescription`: never fails. A failing batch is split into its
      first `ceil(n/2)` ids and the rest; a failing single id gives nothing.
      A failing empty batch would split forever, hence the precondition. */
  function LoadItemsDescription(fetch: seq<int> -> FetchResult, ids: seq<int>): (r: seq<Archetype>)
    requires ids != [] || fetch(ids).Fetched?
    decreases |ids|
  {
    match fetch(ids)
    case Fetched(Some(archetypes)) => archetypes
    case Fetched(None) => []
    case Fail =>
      if |ids| == 1 then []
      else
        var half := (|ids| + 1) / 2;
        LoadItemsDescription(fetch, ids[..half]) + LoadItemsDescription(fetch, ids[half..])
  }

  /** How many requests `LoadItemsDescription` issues. */
  function DescriptionRequests(fetch: seq<int> -> FetchResult, ids: seq<int>): nat
    requires ids != [] || fetch(ids).Fetched?
    decreases |ids|
  {
    if fetch(ids).Fetched? || |ids| == 1 then 1
    else
      var half := (|ids| + 1) / 2;
      1 + DescriptionRequests(fetch, ids[..half]) + DescriptionRequests(fetch, ids[half..])
  }

  /** Bisection on n ids issues at most 2n-1 requests. */
  lemma {:induction false} RequestsBound(fetch: seq<int> -> FetchResult, ids: seq<int>)
    requires ids != []
    ensures DescriptionRequests(fetch, ids) <= 2 * |ids| - 1
  {
    if !(fetch(ids).Fetched? || |ids| == 1) {
      var half := (|ids| + 1) / 2;
      RequestsBound(fetch, ids[..half]);
      RequestsBound(fetch, ids[half..]);
    }
  }

  /** The server answered request `batch` with a list holding `a`. */
  predicate Answered(fetch: seq<int> -> FetchResult, batch: seq<int>, a: Archetype) {
    fetch(batch).Fetched? && fetch(batch).archetypes.Some? && a in fetch(batch).archetypes.value
  }

  /** Every archetype returned came from a successful request on a
      contiguous part of the batch. */
  lemma {:induction false} DescriptionProvenance(fetch: seq<int> -> FetchResult, ids: seq<int>, a: Archetype)
    returns (i: nat, j: nat)
    requires ids != []
    requires a in LoadItemsDescription(fetch, ids)
    ensures i < j <= |ids| && Answered(fetch, ids[i..j], a)
    decreases |ids|
  {
    if fetch(ids).Fetched? {
      i, j := 0, |ids|;
      assert ids[i..j] == ids;
    } else {
      var half := (|ids| + 1) / 2;
      var left, right := ids[..half], ids[half..];
      if a in LoadItemsDescription(fetch, left) {
        i, j := DescriptionProvenance(fetch, left, a);
        forall k | 0 <= k < j - i
          ensures left[i..j][k] == ids[i..j][k]
        {
        }
        assert left[i..j] == ids[i..j];
      } else {
        var k, l := DescriptionProvenance(fetch, right, a);
        forall m | 0 <= m < l - k
          ensures right[k..l][m] == ids[half + k..half + l][m]
        {
        }
        assert right[k..l] == ids[half + k..half + l];
        i, j := half + k, half + l;
      }
    }
  }

  // A server that chokes on exactly the batches holding a poisoned id.

  predicate Poisoned(batch: seq<int>, bad: set<int>) {
    exists i :: 0 <= i < |batch| && batch[i] in bad
  }

  /** The ids of a batch that are not poisoned, in order. */
  function Clean(ids: seq<int>, bad: set<int>): (r: seq<int>)
    ensures |r| <= |ids|
  {
    if ids == [] then []
    else (if ids[0] in bad then [] else [ids[0]]) + Clean(ids[1..], bad)
  }

  /** The descriptions of the ids, in order. */
  function Describe(desc: int -> Archetype, ids: seq<int>): (r: seq<Archetype>)
    ensures |r| == |ids|
  {
    if ids == [] then [] else [desc(ids[0])] + Describe(desc, ids[1..])
  }

  lemma {:induction false} CleanAppend(a: seq<int>, b: seq<int>, bad: set<int>)
    ensures Clean(a + b, bad) == Clean(a, bad) + Clean(b, bad)
  {
    if a == [] {
      assert a + b == b;
    } else {
      CleanAppend(a[1..], b, bad);
      var x := if a[0] in bad then [] else [a[0]];
      assert Clean(a + b, bad) == x + Clean(a[1..] + b, bad) by {
        assert (a + b)[0] == a[0];
        assert (a + b)[1..] == a[1..] + b;
      }
      assert Clean(a, bad) == x + Clean(a[1..], bad);
      Text.Associative(x, Clean(a[1..], bad), Clean(b, bad));
    }
  }

  lemma {:induction false} DescribeAppend(desc: int -> Archetype, a: seq<int>, b: seq<int>)
    ensures Describe(desc, a + b) == Describe(desc, a) + Describe(desc, b)
  {
    if a == [] {
      assert a + b == b;
    } else {
      DescribeAppend(desc, a[1..], b);
      assert Describe(desc, a + b) == [desc(a[0])] + Describe(desc, a[1..] + b) by {
        assert (a + b)[0] == a[0];
        assert (a + b)[1..] == a[1..] + b;
      }
      Text.Associative([desc(a[0])], Describe(desc, a[1..]), Describe(desc, b));
    }
  }

  lemma {:induction false} CleanOfHealthy(ids: seq<int>, bad: set<int>)
    requires !Poisoned(ids, bad)
    ensures Clean(ids, bad) == ids
  {
    if ids != [] {
      assert !Poisoned(ids[1..], bad) by {
        assert forall i :: 0 <= i < |ids| - 1 ==> ids[1..][i] == ids[i + 1];
      }
      CleanOfHealthy(ids[1..], bad);
      assert ids == [ids[0]] + ids[1..];
    }
  }

  /** Fault isolation: against a server that fails exactly the batches
      holding a poisoned id, bisection recovers the description of every
      healthy id, in order, and nothing else. */
  lemma {:induction false} BisectionIsolatesPoison(fetch: seq<int> -> FetchResult, desc: int -> Archetype,
                                                   bad: set<int>, ids: seq<int>)
    requires ids != []
    requires forall b :: fetch(b) == if Poisoned(b, bad) then Fail else Fetched(Some(Describe(desc, b)))
    ensures LoadItemsDescription(fetch, ids) == Describe(desc, Clean(ids, bad))
  {
    if !Poisoned(ids, bad) {
      CleanOfHealthy(ids, bad);
    } else if |ids| == 1 {
      assert ids[0] in bad;
      assert Clean(ids, bad) == [] + Clean(ids[1..], bad);
    } else {
      var half := (|ids| + 1) / 2;
      var left, right := ids[..half], ids[half..];
      calc {
        LoadItemsDescription(fetch, ids);
        { assert fetch(ids) == Fail; }
        LoadItemsDescription(fetch, left) + LoadItemsDescription(fetch, right);
        { BisectionIsolatesPoison(fetch, desc, bad, left);
          BisectionIsolatesPoison(fetch, desc, bad, right); }
        Describe(desc, Clean(left, bad)) + Describe(desc, Clean(right, bad));
        { DescribeAppend(desc, Clean(left, bad), Clean(right, bad)); }
        Describe(desc, Clean(left, bad) + Clean(right, bad));
        { assert ids == left + right;
          CleanAppend(left, right, bad); }
        Describe(desc, Clean(ids, bad));
      }
    }
  }

  // ---------------------------------------------------------------------
  // The missing-id computation
  // ---------------------------------------------------------------------

  /** The known-id set of an archetype list. */
  function Ids(archetypes: seq<Archetype>): set<int> {
    if archetypes == [] then {}
    else Ids(archetypes[..|archetypes| - 1]) + {archetypes[|archetypes| - 1].id}
  }

  lemma {:induction false} IdsMembers(archetypes: seq<Archetype>)
    ensures forall x :: x in Ids(archetypes) <==> exists a :: a in archetypes && a.id == x
  {
    if archetypes != [] {
      var n := |archetypes| - 1;
      IdsMembers(archetypes[..n]);
      assert archetypes == archetypes[..n] + [archetypes[n]];
    }
  }

  lemma {:induction false} IdsAppend(a: seq<Archetype>, b: seq<Archetype>)
    ensures Ids(a + b) == Ids(a) + Ids(b)
    decreases |b|
  {
    if b == [] {
      assert a + b == a;
    } else {
      var n := |b| - 1;
      IdsAppend(a, b[..n]);
      assert (a + b)[..|a + b| - 1] == a + b[..n];
    }
  }

  /** The cached archetypes merged in: each is appended unless its id is
      already known (from the list or an earlier cached entry). */
  function MergeCache(archetypes: seq<Archetype>, cached: seq<Archetype>): seq<Archetype> {
    if cached == [] then archetypes
    else
      var m := MergeCache(archetypes, cached[..|cached| - 1]);
      var c := cached[|cached| - 1];
      if c.id in Ids(m) then m else m + [c]
  }

  /** The merge never replaces or drops an entry, only appends cached ones,
      and afterwards every cached id is known. */
  lemma {:induction false} MergeCacheProps(archetypes: seq<Archetype>, cached: seq<Archetype>)
    ensures |archetypes| <= |MergeCache(archetypes, cached)|
    ensures MergeCache(archetypes, cached)[..|archetypes|] == archetypes
    ensures forall a :: a in MergeCache(archetypes, cached) ==> a in archetypes || a in cached
    ensures Ids(MergeCache(archetypes, cached)) == Ids(archetypes) + Ids(cached)
  {
    if cached != [] {
      var n := |cached| - 1;
      MergeCacheProps(archetypes, cached[..n]);
      var m := MergeCache(archetypes, cached[..n]);
      IdsAppend(m, [cached[n]]);
      IdsAppend(cached[..n], [cached[n]]);
      assert cached == cached[..n] + [cached[n]];
      assert [cached[n]][..0] == [];
      if cached[n].id !in Ids(m) {
        assert (m + [cached[n]])[..|archetypes|] == m[..|archetypes|];
      }
    }
  }

  /** The demanded ids of one recipe that are not known, in order. */
  function DemandIds(demands: seq<Demand>, known: set<int>): seq<int> {
    if demands == [] then []
    else
      var d := demands[|demands| - 1];
      DemandIds(demands[..|demands| - 1], known) + (if d.archetypeId in known then [] else [d.archetypeId])
  }

  /** The unknown demanded ids of every archetype, in order, repeats kept. */
  function DemandMissing(archetypes: seq<Archetype>, known: set<int>): seq<int> {
    if archetypes == [] then []
    else DemandMissing(archetypes[..|archetypes| - 1], known)
         + DemandIds(archetypes[|archetypes| - 1].demands, known)
  }

  /** The unknown slot archetypes of one crew member, in order. */
  function SlotIds(slots: seq<EquipmentSlot>, known: set<int>): seq<int> {
    if slots == [] then []
    else
      var s := slots[|slots| - 1];
      SlotIds(slots[..|slots| - 1], known) + (if s.archetype in known then [] else [s.archetype])
  }

  /** The unknown slot archetypes of the whole roster, in order, repeats kept. */
  function SlotMissing(roster: seq<RosterEntry>, known: set<int>): seq<int> {
    if roster == [] then []
    else SlotMissing(roster[..|roster| - 1], known) + SlotIds(roster[|roster| - 1].equipmentSlots, known)
  }

  /** The missing list of one round: demands first, then crew slots. */
  function Missing(archetypes: seq<Archetype>, roster: seq<RosterEntry>): seq<int> {
    DemandMissing(archetypes, Ids(archetypes)) + SlotMissing(roster, Ids(archetypes))
  }

  /** The ids a round fetches: the first twenty missing ones. */
  function FirstBatch(missing: seq<int>): (b: seq<int>)
    ensures |b| == if |missing| <= BATCH_SIZE then |missing| else BATCH_SIZE
    ensures b == missing[..|b|]
  {
    if |missing| <= BATCH_SIZE then missing else missing[..BATCH_SIZE]
  }

  lemma {:induction false} DemandIdsExact(demands: seq<Demand>, known: set<int>)
    ensures forall x :: x in DemandIds(demands, known)
                        <==> x !in known && exists d :: d in demands && d.archetypeId == x
  {
    if demands != [] {
      var n := |demands| - 1;
      DemandIdsExact(demands[..n], known);
      assert demands == demands[..n] + [demands[n]];
    }
  }

  lemma {:induction false} DemandMissingExact(archetypes: seq<Archetype>, known: set<int>)
    ensures forall x :: x in DemandMissing(archetypes, known)
                        <==> x !in known && exists a, d :: a in archetypes && d in a.demands && d.archetypeId == x
  {
    if archetypes != [] {
      var n := |archetypes| - 1;
      DemandMissingExact(archetypes[..n], known);
      DemandIdsExact(archetypes[n].demands, known);
      assert archetypes == archetypes[..n] + [archetypes[n]];
    }
  }

  lemma {:induction false} SlotIdsExact(slots: seq<EquipmentSlot>, known: set<int>)
    ensures forall x :: x in SlotIds(slots, known)
                        <==> x !in known && exists s :: s in slots && s.archetype == x
  {
    if slots != [] {
      var n := |slots| - 1;
      SlotIdsExact(slots[..n], known);
      assert slots == slots[..n] + [slots[n]];
    }
  }

  lemma {:induction false} SlotMissingExact(roster: seq<RosterEntry>, known: set<int>)
    ensures forall x :: x in SlotMissing(roster, known)
                        <==> x !in known && exists e, s :: e in roster && s in e.equipmentSlots && s.archetype == x
  {
    if roster != [] {
      var n := |roster| - 1;
      SlotMissingExact(roster[..n], known);
      SlotIdsExact(roster[n].equipmentSlots, known);
      assert roster == roster[..n] + [roster[n]];
    }
  }

  /** Every archetype referenced by the list or by a crew slot is known. */
  ghost predicate Closed(archetypes: seq<Archetype>, roster: seq<RosterEntry>) {
    && (forall a, d :: a in archetypes && d in a.demands ==> d.archetypeId in Ids(archetypes))
    && (forall e, s :: e in roster && s in e.equipmentSlots ==> s.archetype in Ids(archetypes))
  }

  /** The missing list holds exactly the unknown references: it is empty
      exactly when the list is closed. */
  lemma MissingExact(archetypes: seq<Archetype>, roster: seq<RosterEntry>)
    ensures forall x :: x in Missing(archetypes, roster) <==>
      x !in Ids(archetypes) &&
      ((exists a, d :: a in archetypes && d in a.demands && d.archetypeId == x) ||
       (exists e, s :: e in roster && s in e.equipmentSlots && s.archetype == x))
    ensures Missing(archetypes, roster) == [] <==> Closed(archetypes, roster)
  {
    DemandMissingExact(archetypes, Ids(archetypes));
    SlotMissingExact(roster, Ids(archetypes));
    var m := Missing(archetypes, roster);
    if m != [] {
      assert m[0] in m;
    }
  }

  // ---------------------------------------------------------------------
  // The loops of one round
  // ---------------------------------------------------------------------

  /** Seeds the known-id set from the archetype list. */
  method SeedKnown(archetypes: seq<Archetype>) returns (known: set<int>)
    ensures known == Ids(archetypes)
  {
    known := {};
    var i := 0;
    while i < |archetypes|
      invariant 0 <= i <= |archetypes|
      invariant known == Ids(archetypes[..i])
    {
      assert archetypes[..i + 1][..i] == archetypes[..i];
      known := known + {archetypes[i].id};
      i := i + 1;
    }
    assert archetypes[..i] == archetypes;
  }

  /** Merges a cache entry into the list and the known set. */
  method MergeCached(archetypes: seq<Archetype>, known: set<int>, cached: seq<Archetype>)
    returns (merged: seq<Archetype>, known': set<int>)
    requires known == Ids(archetypes)
    ensures merged == MergeCache(archetypes, cached)
    ensures known' == Ids(merged)
  {
    merged, known' := archetypes, known;
    var i := 0;
    while i < |cached|
      invariant 0 <= i <= |cached|
      invariant merged == MergeCache(archetypes, cached[..i])
      invariant known' == Ids(merged)
    {
      assert cached[..i + 1][..i] == cached[..i];
      if cached[i].id !in known' {
        assert (merged + [cached[i]])[..|merged|] == merged;
        merged := merged + [cached[i]];
        known' := known' + {cached[i].id};
      }
      i := i + 1;
    }
    assert cached[..i] == cached;
  }

  /** Scans the recipe demands of every archetype. */
  method ScanDemands(archetypes: seq<Archetype>, known: set<int>) returns (missing: seq<int>)
    ensures missing == DemandMissing(archetypes, known)
  {
    missing := [];
    var i := 0;
    while i < |archetypes|
      invariant 0 <= i <= |archetypes|
      invariant missing == DemandMissing(archetypes[..i], known)
    {
      var demands := archetypes[i].demands;
      var j := 0;
      while j < |demands|
        invariant 0 <= j <= |demands|
        invariant missing == DemandMissing(archetypes[..i], known) + DemandIds(demands[..j], known)
      {
        assert demands[..j + 1][..j] == demands[..j];
        if demands[j].archetypeId !in known {
          missing := missing + [demands[j].archetypeId];
        }
        j := j + 1;
      }
      assert demands[..j] == demands;
      assert archetypes[..i + 1][..i] == archetypes[..i];
      i := i + 1;
    }
    assert archetypes[..i] == archetypes;
  }

  /** Scans the equipment slots of every crew member, after the demands. */
  method ScanSlots(roster: seq<RosterEntry>, known: set<int>, missing: seq<int>) returns (missing': seq<int>)
    ensures missing' == missing + SlotMissing(roster, known)
  {
    missing' := missing;
    var i := 0;
    while i < |roster|
      invariant 0 <= i <= |roster|
      invariant missing' == missing + SlotMissing(roster[..i], known)
    {
      var slots := roster[i].equipmentSlots;
      var j := 0;
      while j < |slots|
        invariant 0 <= j <= |slots|
        invariant missing' == missing + SlotMissing(roster[..i], known) + SlotIds(slots[..j], known)
      {
        assert slots[..j + 1][..j] == slots[..j];
        if slots[j].archetype !in known {
          missing' := missing' + [slots[j].archetype];
        }
        j := j + 1;
      }
      assert slots[..j] == slots;
      assert roster[..i + 1][..i] == roster[..i];
      i := i + 1;
    }
    assert roster[..i] == roster;
  }

  /** One round's list and missing ids: merge the cache entry, then scan. */
  method Round(archetypes: seq<Archetype>, cached: seq<Archetype>, roster: seq<RosterEntry>)
    returns (merged: seq<Archetype>, missing: seq<int>)
    ensures merged == MergeCache(archetypes, cached)
    ensures missing == Missing(merged, roster)
  {
    var known := SeedKnown(archetypes);
    merged, known := MergeCached(archetypes, known, cached);
    missing := ScanDemands(merged, known);
    missing := ScanSlots(roster, known, missing);
  }

  /** The cache entry for a digest, empty when there is none. */
  function CacheEntry(cache: map<string, seq<Archetype>>, digest: string): seq<Archetype> {
    if digest in cache then cache[digest] else []
  }

  // ---------------------------------------------------------------------
  // The resolver
  // ---------------------------------------------------------------------

  /** Every archetype of the list was there before, came from the cache
      entry, or was returned for one of the batches. */
  ghost predicate FromSources(archetypes: seq<Archetype>, before: seq<Archetype>, cached: seq<Archetype>,
                              fetch: seq<int> -> FetchResult, batches: seq<seq<int>>)
    requires forall i :: 0 <= i < |batches| ==> batches[i] != []
  {
    forall a :: a in archetypes ==>
      a in before || a in cached
      || exists i :: 0 <= i < |batches| && a in LoadItemsDescription(fetch, batches[i])
  }

  /** A round keeps `FromSources`: the merge adds only cached entries and
      the fetch only what the new batch returned. */
  lemma FromSourcesStep(archetypes: seq<Archetype>, merged: seq<Archetype>, got: seq<Archetype>,
                        before: seq<Archetype>, cached: seq<Archetype>, fetch: seq<int> -> FetchResult,
                        batches: seq<seq<int>>, batch: seq<int>)
    requires batch != [] && forall i :: 0 <= i < |batches| ==> batches[i] != []
    requires FromSources(archetypes, before, cached, fetch, batches)
    requires forall a :: a in merged ==> a in archetypes || a in cached
    requires got == [] || got == LoadItemsDescription(fetch, batch)
    ensures FromSources(merged, before, cached, fetch, batches)
    ensures FromSources(merged + got, before, cached, fetch, batches + [batch])
  {
    var all := batches + [batch];
    forall a | a in merged + got
      ensures a in before || a in cached
              || exists i :: 0 <= i < |all| && a in LoadItemsDescription(fetch, all[i])
    {
      if a in merged {
        if a in archetypes && a !in before && a !in cached {
          var i :| 0 <= i < |batches| && a in LoadItemsDescription(fetch, batches[i]);
          assert all[i] == batches[i];
        }
      } else {
        assert all[|batches|] == batch;
      }
    }
  }

  /** Each batch is the first twenty ids of a non-empty missing list. */
  predicate Batched(batches: seq<seq<int>>, missings: seq<seq<int>>) {
    && |batches| == |missings|
    && forall i :: 0 <= i < |batches| ==>
         missings[i] != [] && batches[i] == FirstBatch(missings[i]) && 1 <= |batches[i]| <= BATCH_SIZE
  }

  predicate Extends(before: seq<Archetype>, after: seq<Archetype>) {
    |before| <= |after| && after[..|before|] == before
  }

  /** The work of one invocation, without the cache write: merge, scan,
      and fetch the first batch when something is missing. `got` is what
      the batch returned (empty when nothing was fetched). */
  method FetchRound(current: seq<Archetype>, cached: seq<Archetype>, roster: seq<RosterEntry>,
                    fetch: seq<int> -> FetchResult)
    returns (merged: seq<Archetype>, missing: seq<int>, got: seq<Archetype>)
    ensures merged == MergeCache(current, cached) && Extends(current, merged)
    ensures forall a :: a in merged ==> a in current || a in cached
    ensures missing == Missing(merged, roster)
    ensures missing == [] ==> Closed(merged, roster) && got == []
    ensures missing != [] ==> got == LoadItemsDescription(fetch, FirstBatch(missing))
  {
    merged, missing := Round(current, cached, roster);
    MergeCacheProps(current, cached);
    got := [];
    if missing == [] {
      MissingExact(merged, roster);
    } else {
      got := LoadItemsDescription(fetch, FirstBatch(missing));
    }
  }

  /** Recording a round's batch keeps `Batched`. */
  lemma BatchedStep(batches: seq<seq<int>>, missings: seq<seq<int>>, missing: seq<int>)
    requires Batched(batches, missings) && missing != []
    ensures Batched(batches + [FirstBatch(missing)], missings + [missing])
  {
    var batches', missings' := batches + [FirstBatch(missing)], missings + [missing];
    forall i | 0 <= i < |batches'|
      ensures missings'[i] != [] && batches'[i] == FirstBatch(missings'[i]) && 1 <= |batches'[i]| <= BATCH_SIZE
    {
      if i < |batches| {
        assert batches'[i] == batches[i] && missings'[i] == missings[i];
      }
    }
  }

  /** Appending after an extension is still an extension. */
  lemma ExtendsStep(before: seq<Archetype>, current: seq<Archetype>, merged: seq<Archetype>, got: seq<Archetype>)
    requires Extends(before, current) && Extends(current, merged)
    ensures Extends(before, merged + got)
  {
    assert (merged + got)[..|before|] == merged[..|current|][..|before|];
  }

  /** One invocation of `loadFullTree` on values: the list it leaves and how
      it ends. It stops with `Complete` when nothing is missing and with
      `Stalled` when the first batch returns nothing; otherwise it appends
      what came back and recurses (`OutOfRounds`). */
  function TreeRound(archetypes: seq<Archetype>, cached: seq<Archetype>, roster: seq<RosterEntry>,
                     fetch: seq<int> -> FetchResult): (seq<Archetype>, TreeOutcome)
  {
    var merged := MergeCache(archetypes, cached);
    var missing := Missing(merged, roster);
    if missing == [] then (merged, Complete)
    else
      var got := LoadItemsDescription(fetch, FirstBatch(missing));
      if got == [] then (merged, Stalled) else (merged + got, OutOfRounds)
  }

  /** `loadFullTree` with its self-recursion cut off after `fuel`
      invocations: the final list and how the run ends. */
  function Tree(fuel: nat, archetypes: seq<Archetype>, cached: seq<Archetype>, roster: seq<RosterEntry>,
                fetch: seq<int> -> FetchResult): (seq<Archetype>, TreeOutcome)
    decreases fuel
  {
    if fuel == 0 then (archetypes, OutOfRounds)
    else
      var next := TreeRound(archetypes, cached, roster, fetch);
      if next.1 == OutOfRounds then Tree(fuel - 1, next.0, cached, roster, fetch) else next
  }

  /** A run with fuel left is one invocation followed, when it recurses,
      by a run with one unit less. */
  lemma TreeUnfold(fuel: nat, archetypes: seq<Archetype>, cached: seq<Archetype>, roster: seq<RosterEntry>,
                   fetch: seq<int> -> FetchResult, next: (seq<Archetype>, TreeOutcome))
    requires fuel > 0 && next == TreeRound(archetypes, cached, roster, fetch)
    ensures Tree(fuel, archetypes, cached, roster, fetch)
            == if next.1 == OutOfRounds then Tree(fuel - 1, next.0, cached, roster, fetch) else next
  {
  }

  /** One invocation extends the list; it completes only on a closed list,
      stalls only on a batch that returns nothing, and recurses only after
      appending at least one archetype. */
  lemma TreeRoundProps(archetypes: seq<Archetype>, cached: seq<Archetype>, roster: seq<RosterEntry>,
                       fetch: seq<int> -> FetchResult)
    ensures Extends(archetypes, TreeRound(archetypes, cached, roster, fetch).0)
    ensures TreeRound(archetypes, cached, roster, fetch).1 == Complete ==>
              Closed(TreeRound(archetypes, cached, roster, fetch).0, roster)
    ensures TreeRound(archetypes, cached, roster, fetch).1 == Stalled ==>
              var missing := Missing(TreeRound(archetypes, cached, roster, fetch).0, roster);
              missing != [] && LoadItemsDescription(fetch, FirstBatch(missing)) == []
    ensures TreeRound(archetypes, cached, roster, fetch).1 == OutOfRounds ==>
              |TreeRound(archetypes, cached, roster, fetch).0| > |archetypes|
  {
    var merged := MergeCache(archetypes, cached);
    MergeCacheProps(archetypes, cached);
    MissingExact(merged, roster);
    var missing := Missing(merged, roster);
    if missing != [] {
      var got := LoadItemsDescription(fetch, FirstBatch(missing));
      ExtendsStep(archetypes, archetypes, merged, got);
    }
  }

  /** A cut-off run extends the list and ends as a single invocation does;
      a run that uses up its fuel appended at least one archetype per
      invocation. */
  lemma {:induction false} TreeProps(fuel: nat, archetypes: seq<Archetype>, cached: seq<Archetype>,
                                     roster: seq<RosterEntry>, fetch: seq<int> -> FetchResult)
    ensures Extends(archetypes, Tree(fuel, archetypes, cached, roster, fetch).0)
    ensures Tree(fuel, archetypes, cached, roster, fetch).1 == Complete ==>
              Closed(Tree(fuel, archetypes, cached, roster, fetch).0, roster)
    ensures Tree(fuel, archetypes, cached, roster, fetch).1 == Stalled ==>
              var missing := Missing(Tree(fuel, archetypes, cached, roster, fetch).0, roster);
              missing != [] && LoadItemsDescription(fetch, FirstBatch(missing)) == []
    ensures Tree(fuel, archetypes, cached, roster, fetch).1 == OutOfRounds ==>
              |Tree(fuel, archetypes, cached, roster, fetch).0| >= |archetypes| + fuel
    decreases fuel
  {
    if fuel > 0 {
      var next := TreeRound(archetypes, cached, roster, fetch);
      TreeRoundProps(archetypes, cached, roster, fetch);
      if next.1 == OutOfRounds {
        TreeProps(fuel - 1, next.0, cached, roster, fetch);
        var last := Tree(fuel - 1, next.0, cached, roster, fetch).0;
        ExtendsStep(archetypes, next.0, last, []);
        assert last + [] == last;
      }
    } else {
      assert archetypes[..|archetypes|] == archetypes;
    }
  }

  /** One invocation on values: the round, the record of its batch, and
      how the invocation ends (`OutOfRounds` when it recurses). */
  method TreeStep(archetypes: seq<Archetype>, ghost before: seq<Archetype>, cached: seq<Archetype>,
                  roster: seq<RosterEntry>, fetch: seq<int> -> FetchResult,
                  ghost batches: seq<seq<int>>, ghost missings: seq<seq<int>>,
                  ghost left: nat, ghost goal: (seq<Archetype>, TreeOutcome))
    returns (archetypes': seq<Archetype>, outcome: TreeOutcome,
             ghost batches': seq<seq<int>>, ghost missings': seq<seq<int>>)
    requires left > 0 && goal == Tree(left, archetypes, cached, roster, fetch)
    requires Batched(batches, missings)
    requires FromSources(archetypes, before, cached, fetch, batches)
    ensures (archetypes', outcome) == TreeRound(archetypes, cached, roster, fetch)
    ensures outcome == OutOfRounds ==> goal == Tree(left - 1, archetypes', cached, roster, fetch)
    ensures outcome != OutOfRounds ==> goal == (archetypes', outcome)
    ensures Extends(archetypes, archetypes')
    ensures outcome == Complete ==> Closed(archetypes', roster)
    ensures outcome == Stalled ==>
              var missing := Missing(archetypes', roster);
              missing != [] && LoadItemsDescription(fetch, FirstBatch(missing)) == []
    ensures Batched(batches', missings') && |batches'| <= |batches| + 1
    ensures outcome == OutOfRounds ==> |batches'| == |batches| + 1
    ensures FromSources(archetypes', before, cached, fetch, batches')
    ensures archetypes == before && Missing(MergeCache(before, cached), roster) == []
            ==> outcome == Complete && batches' == batches
  {
    var merged, missing, got := FetchRound(archetypes, cached, roster, fetch);
    FromSourcesStep(archetypes, merged, got, before, cached, fetch, batches,
                    if missing == [] then [0] else FirstBatch(missing));
    batches', missings' := batches, missings;
    if missing != [] {
      batches', missings' := batches + [FirstBatch(missing)], missings + [missing];
      BatchedStep(batches, missings, missing);
    }
    archetypes' := merged + got;
    TreeRoundProps(archetypes, cached, roster, fetch);
    if got == [] {
      assert archetypes' == merged;
    }
    outcome := OutOfRounds;
    if missing == [] {
      outcome := Complete;
    } else if got == [] {
      outcome := Stalled;
    }
    TreeUnfold(left, archetypes, cached, roster, fetch, (archetypes', outcome));
  }

  /** Provenance composes: what a later run added came from its own
      batches, which follow the earlier run's. */
  lemma FromSourcesCompose(end: seq<Archetype>, mid: seq<Archetype>, before: seq<Archetype>, cached: seq<Archetype>,
                           fetch: seq<int> -> FetchResult, first: seq<seq<int>>, rest: seq<seq<int>>)
    requires forall i :: 0 <= i < |first| ==> first[i] != []
    requires forall i :: 0 <= i < |rest| ==> rest[i] != []
    requires FromSources(mid, before, cached, fetch, first)
    requires FromSources(end, mid, cached, fetch, rest)
    ensures FromSources(end, before, cached, fetch, first + rest)
  {
    var all := first + rest;
    forall a | a in end
      ensures a in before || a in cached
              || exists i :: 0 <= i < |all| && a in LoadItemsDescription(fetch, all[i])
    {
      if a !in mid && a !in cached {
        var i :| 0 <= i < |rest| && a in LoadItemsDescription(fetch, rest[i]);
        assert all[|first| + i] == rest[i];
      } else if a in mid && a !in before && a !in cached {
        var i :| 0 <= i < |first| && a in LoadItemsDescription(fetch, first[i]);
        assert all[i] == first[i];
      }
    }
  }

  /** Batched rounds followed by batched rounds are batched. */
  lemma BatchedAppend(batches: seq<seq<int>>, missings: seq<seq<int>>, batches': seq<seq<int>>, missings': seq<seq<int>>)
    requires Batched(batches, missings) && Batched(batches', missings')
    ensures Batched(batches + batches', missings + missings')
  {
    var b, m := batches + batches', missings + missings';
    forall i | 0 <= i < |b|
      ensures m[i] != [] && b[i] == FirstBatch(m[i]) && 1 <= |b[i]| <= BATCH_SIZE
    {
      if i < |batches| {
        assert b[i] == batches[i] && m[i] == missings[i];
      } else {
        assert b[i] == batches'[i - |batches|] && m[i] == missings'[i - |batches|];
      }
    }
  }

  /** The invocations of `loadFullTree`: one, then, when it fetched
      something new, the one it makes of itself, here with one unit of
      `fuel` less. `batches` and `missings` record, per fetching round,
      the ids requested and the missing list they were taken from. */
  method TreeRounds(s: SttApi.Session, fetch: seq<int> -> FetchResult, fuel: nat)
    returns (outcome: TreeOutcome, ghost batches: seq<seq<int>>, ghost missings: seq<seq<int>>)
    requires s.playerData.Some? && s.serverConfig.Some? && s.roster.Some?
    modifies s`playerData, s`equipmentCache
    ensures s.playerData.Some? && s.playerData.value.player == old(s.playerData.value.player)
    ensures (s.playerData.value.itemArchetypes, outcome)
            == Tree(fuel, old(s.playerData.value.itemArchetypes),
                    CacheEntry(old(s.equipmentCache), s.serverConfig.value.recipeDigest), s.roster.value, fetch)
    ensures outcome != OutOfRounds ==>
              s.equipmentCache == old(s.equipmentCache)[s.serverConfig.value.recipeDigest
                                                        := s.playerData.value.itemArchetypes]
    ensures outcome == OutOfRounds ==> s.equipmentCache == old(s.equipmentCache)
    ensures Batched(batches, missings) && |batches| <= fuel
    ensures outcome == OutOfRounds ==> |batches| == fuel
    ensures FromSources(s.playerData.value.itemArchetypes, old(s.playerData.value.itemArchetypes),
                        CacheEntry(old(s.equipmentCache), s.serverConfig.value.recipeDigest), fetch, batches)
    ensures fuel > 0 && Missing(MergeCache(old(s.playerData.value.itemArchetypes),
                                           CacheEntry(old(s.equipmentCache), s.serverConfig.value.recipeDigest)),
                                s.roster.value) == []
            ==> outcome == Complete && batches == []
    decreases fuel
  {
    var payload := s.playerData.value;
    var archetypes := payload.itemArchetypes;
    var digest := s.serverConfig.value.recipeDigest;
    var cached := CacheEntry(s.equipmentCache, digest);
    var roster := s.roster.value;
    if fuel == 0 {
      outcome, batches, missings := OutOfRounds, [], [];
      return;
    }
    var next;
    ghost var first, firstMissings;
    next, outcome, first, firstMissings :=
      TreeStep(archetypes, archetypes, cached, roster, fetch, [], [], fuel, Tree(fuel, archetypes, cached, roster, fetch));
    s.playerData := Some(payload.(itemArchetypes := next));
    if outcome != OutOfRounds {
      s.equipmentCache := s.equipmentCache[digest := next];
      batches, missings := first, firstMissings;
      return;
    }
    ghost var rest, restMissings;
    outcome, rest, restMissings := TreeRounds(s, fetch, fuel - 1);
    batches, missings := first + rest, firstMissings + restMissings;
    BatchedAppend(first, firstMissings, rest, restMissings);
    FromSourcesCompose(s.playerData.value.itemArchetypes, next, archetypes, cached, fetch, first, rest);
  }

  /** `loadFullTree`: its invocations, and what the list they end with
      is. */
  method LoadFullTree(s: SttApi.Session, fetch: seq<int> -> FetchResult, fuel: nat)
    returns (outcome: TreeOutcome, ghost batches: seq<seq<int>>, ghost missings: seq<seq<int>>)
    requires s.playerData.Some? && s.serverConfig.Some? && s.roster.Some?
    modifies s`playerData, s`equipmentCache
    ensures s.playerData.Some? && s.playerData.value.player == old(s.playerData.value.player)
    ensures (s.playerData.value.itemArchetypes, outcome)
            == Tree(fuel, old(s.playerData.value.itemArchetypes),
                    CacheEntry(old(s.equipmentCache), s.serverConfig.value.recipeDigest), s.roster.value, fetch)
    ensures Extends(old(s.playerData.value.itemArchetypes), s.playerData.value.itemArchetypes)
    ensures outcome == Complete ==> Closed(s.playerData.value.itemArchetypes, s.roster.value)
    ensures outcome == Stalled ==>
              var missing := Missing(s.playerData.value.itemArchetypes, s.roster.value);
              missing != [] && LoadItemsDescription(fetch, FirstBatch(missing)) == []
    ensures outcome != OutOfRounds ==>
              s.equipmentCache == old(s.equipmentCache)[s.serverConfig.value.recipeDigest
                                                        := s.playerData.value.itemArchetypes]
    ensures outcome == OutOfRounds ==> s.equipmentCache == old(s.equipmentCache)
    ensures Batched(batches, missings) && |batches| <= fuel
    ensures outcome == OutOfRounds ==> |batches| == fuel
    ensures FromSources(s.playerData.value.itemArchetypes, old(s.playerData.value.itemArchetypes),
                        CacheEntry(old(s.equipmentCache), s.serverConfig.value.recipeDigest), fetch, batches)
    ensures fuel > 0 && Missing(MergeCache(old(s.playerData.value.itemArchetypes),
                                           CacheEntry(old(s.equipmentCache), s.serverConfig.value.recipeDigest)),
                                s.roster.value) == []
            ==> outcome == Complete && batches == []
  {
    ghost var before := s.playerData.value.itemArchetypes;
    ghost var cached := CacheEntry(s.equipmentCache, s.serverConfig.value.recipeDigest);
    outcome, batches, missings := TreeRounds(s, fetch, fuel);
    TreeProps(fuel, before, cached, s.roster.value, fetch);
  }
}

=== FILE: login_sequence.dfy ===
/** The login sequence: the loaders in their fixed order, the fleet and
    mission stages behind their gates, and the image stages that reset,
    look up and later fill in the icon URLs while counting progress. */
module LoginSequence {
  import opened Wrappers
  import opened Entities
  import Config
  import Text
  import SttApi
  import CrewTools
  import ShipTools
  import EquipmentTools
  import MissionTools

  // ---------------------------------------------------------------- image tasks

  /** Which collection (and which URL field of it) an image task fills. */
  datatype Target = CrewIcon | CrewBody | AvatarIcon | ShipIcon | ItemIcon | EquipmentIcon | SpriteIcon

  /** An image request and the key its completion matches on: `id` for
      crew, avatars, items and equipment, `name` for ships and sprites. */
  datatype ImageTask = ImageTask(target: Target, id: int, name: string)

  /** The image provider, which is not part of this model: the synchronous
      cache lookup (`""` on a miss) and the outcome of the asynchronous
      fetch (`None` when it fails and is caught). */
  datatype Images = Images(cached: ImageTask -> string, resolve: ImageTask -> Option<string>)

  function CrewIconKey(e: RosterEntry): ImageTask { ImageTask(CrewIcon, e.id, "") }
  function CrewBodyKey(e: RosterEntry): ImageTask { ImageTask(CrewBody, e.id, "") }
  function AvatarKey(a: Avatar): ImageTask { ImageTask(AvatarIcon, a.id, "") }
  function ShipKey(s: Ship): ImageTask { ImageTask(ShipIcon, 0, s.name) }
  function ItemKey(i: Item): ImageTask { ImageTask(ItemIcon, i.id, "") }
  function EquipmentKey(a: Archetype): ImageTask { ImageTask(EquipmentIcon, a.id, "") }
  function SpriteKey(s: Config.Sprite): ImageTask { ImageTask(SpriteIcon, 0, s.name) }

  function SetCrewIcon(e: RosterEntry, url: string): RosterEntry { e.(iconUrl := url) }
  function SetCrewBody(e: RosterEntry, url: string): RosterEntry { e.(iconBodyUrl := url) }
  function SetAvatarIcon(a: Avatar, url: string): Avatar { a.(iconUrl := url) }
  function SetShipIcon(s: Ship, url: string): Ship { s.(iconUrl := url) }
  function SetItemIcon(i: Item, url: string): Item { i.(iconUrl := url) }
  function SetEquipmentIcon(a: Archetype, url: string): Archetype { a.(iconUrl := url) }
  function SetSpriteUrl(s: Config.Sprite, url: string): Config.Sprite { s.(url := Some(url)) }

  /** A URL setter keeps the entity's key, and a later write replaces an
      earlier one. */
  ghost predicate SetterLaws<E(!new)>(key: E -> ImageTask, setUrl: (E, string) -> E) {
    && (forall e, u :: key(setUrl(e, u)) == key(e))
    && (forall e, u, v :: setUrl(setUrl(e, u), v) == setUrl(e, v))
  }

  /** The body of a completion: every entity whose key is the found one
      takes the found URL. */
  function WriteBack<E>(xs: seq<E>, key: E -> ImageTask, setUrl: (E, string) -> E,
                        found: ImageTask, url: string): seq<E> {
    seq(|xs|, i requires 0 <= i < |xs| => if key(xs[i]) == found then setUrl(xs[i], url) else xs[i])
  }

  /** The completions of `tasks`, in order, as seen by one collection: a
      failed task changes nothing. */
  function SettleAll<E>(xs: seq<E>, key: E -> ImageTask, setUrl: (E, string) -> E,
                        tasks: seq<ImageTask>, resolve: ImageTask -> Option<string>): seq<E> {
    if tasks == [] then xs
    else
      var prev := SettleAll(xs, key, setUrl, tasks[..|tasks| - 1], resolve);
      var t := tasks[|tasks| - 1];
      match resolve(t)
      case None => prev
      case Some(url) => WriteBack(prev, key, setUrl, t, url)
  }

  /** After the completions, an entity carries the URL of its key's task
      when such a task was started and succeeded, and is untouched
      otherwise: the order of the completions does not matter. */
  lemma {:induction false} SettleAllExact<E(!new)>(xs: seq<E>, key: E -> ImageTask, setUrl: (E, string) -> E,
                                                  tasks: seq<ImageTask>, resolve: ImageTask -> Option<string>)
    requires SetterLaws(key, setUrl)
    ensures |SettleAll(xs, key, setUrl, tasks, resolve)| == |xs|
    ensures forall i :: 0 <= i < |xs| ==>
              SettleAll(xs, key, setUrl, tasks, resolve)[i]
              == if key(xs[i]) in tasks && resolve(key(xs[i])).Some?
                 then setUrl(xs[i], resolve(key(xs[i])).value) else xs[i]
  {
    if tasks != [] {
      var init := tasks[..|tasks| - 1];
      var t := tasks[|tasks| - 1];
      SettleAllExact(xs, key, setUrl, init, resolve);
      assert tasks == init + [t];
      var prev := SettleAll(xs, key, setUrl, init, resolve);
      forall i | 0 <= i < |xs|
        ensures SettleAll(xs, key, setUrl, tasks, resolve)[i]
                == if key(xs[i]) in tasks && resolve(key(xs[i])).Some?
                   then setUrl(xs[i], resolve(key(xs[i])).value) else xs[i]
      {
        assert key(prev[i]) == key(xs[i]);
      }
    }
  }

  /** The synchronous lookup: every entity takes its cached URL. */
  function Lookup<E>(xs: seq<E>, key: E -> ImageTask, setUrl: (E, string) -> E,
                     cached: ImageTask -> string): seq<E> {
    seq(|xs|, i requires 0 <= i < |xs| => setUrl(xs[i], cached(key(xs[i]))))
  }

  /** The fetches the lookup starts: one per entity whose cached URL is `""`, in order. */
  function Misses<E>(xs: seq<E>, key: E -> ImageTask, cached: ImageTask -> string): seq<ImageTask> {
    if xs == [] then []
    else
      var t := key(xs[|xs| - 1]);
      Misses(xs[..|xs| - 1], key, cached) + (if cached(t) == "" then [t] else [])
  }

  /** A task is started for a key exactly when an entity has that key and
      the cache misses it; every task is of the collection's kind. */
  lemma {:induction false} MissesExact<E>(xs: seq<E>, key: E -> ImageTask, cached: ImageTask -> string)
    ensures |Misses(xs, key, cached)| <= |xs|
    ensures forall t :: t in Misses(xs, key, cached) <==>
              cached(t) == "" && exists i :: 0 <= i < |xs| && key(xs[i]) == t
  {
    if xs != [] {
      var init := xs[..|xs| - 1];
      MissesExact(init, key, cached);
      assert forall i :: 0 <= i < |init| ==> init[i] == xs[i];
    }
  }

  /** The URL an entity ends with: its cached URL on a hit, otherwise what
      the fetch found, or `""` when the fetch failed. */
  function Settled(images: Images, t: ImageTask): string {
    if images.cached(t) != "" then images.cached(t)
    else if images.resolve(t).Some? then images.resolve(t).value
    else ""
  }

  /** Lookup followed by the completions of a task list that holds each
      entity's key exactly when the cache missed it: every entity ends with
      its settled URL. */
  lemma LookupThenSettle<E(!new)>(xs: seq<E>, key: E -> ImageTask, setUrl: (E, string) -> E,
                                  images: Images, tasks: seq<ImageTask>)
    requires SetterLaws(key, setUrl)
    requires forall i :: 0 <= i < |xs| ==> (key(xs[i]) in tasks <==> images.cached(key(xs[i])) == "")
    ensures |SettleAll(Lookup(xs, key, setUrl, images.cached), key, setUrl, tasks, images.resolve)| == |xs|
    ensures forall i :: 0 <= i < |xs| ==>
              SettleAll(Lookup(xs, key, setUrl, images.cached), key, setUrl, tasks, images.resolve)[i]
              == setUrl(xs[i], Settled(images, key(xs[i])))
  {
    var looked := Lookup(xs, key, setUrl, images.cached);
    SettleAllExact(looked, key, setUrl, tasks, images.resolve);
    forall i | 0 <= i < |xs|
      ensures SettleAll(looked, key, setUrl, tasks, images.resolve)[i] == setUrl(xs[i], Settled(images, key(xs[i])))
    {
      assert key(looked[i]) == key(xs[i]);
    }
  }

  /** How many of the fetches succeed. */
  function Succeeded(tasks: seq<ImageTask>, resolve: ImageTask -> Option<string>): (n: nat)
    ensures n <= |tasks|
  {
    if tasks == [] then 0
    else Succeeded(tasks[..|tasks| - 1], resolve) + (if resolve(tasks[|tasks| - 1]).Some? then 1 else 0)
  }

  /** A lookup loop: each entity's URL is set from the cache, a task is
      started on a miss and a hit is counted otherwise. */
  method LookupUrls<E>(xs: seq<E>, key: E -> ImageTask, setUrl: (E, string) -> E, cached: ImageTask -> string)
    returns (ys: seq<E>, tasks: seq<ImageTask>, hits: nat)
    ensures ys == Lookup(xs, key, setUrl, cached)
    ensures tasks == Misses(xs, key, cached)
    ensures hits + |tasks| == |xs|
  {
    ys, tasks, hits := [], [], 0;
    var i := 0;
    while i < |xs|
      invariant 0 <= i <= |xs|
      invariant ys == Lookup(xs[..i], key, setUrl, cached)
      invariant tasks == Misses(xs[..i], key, cached)
      invariant hits + |tasks| == i
    {
      assert xs[..i + 1][..i] == xs[..i];
      var url := cached(key(xs[i]));
      ys := ys + [setUrl(xs[i], url)];
      if url == "" {
        tasks := tasks + [key(xs[i])];
      } else {
        hits := hits + 1;
      }
      i := i + 1;
    }
    assert xs[..i] == xs;
  }

  /** The `forEach` of one completion. */
  method WriteBackLoop<E>(xs: seq<E>, key: E -> ImageTask, setUrl: (E, string) -> E, found: ImageTask, url: string)
    returns (ys: seq<E>)
    ensures ys == WriteBack(xs, key, setUrl, found, url)
  {
    ys := [];
    var i := 0;
    while i < |xs|
      invariant 0 <= i <= |xs|
      invariant ys == WriteBack(xs[..i], key, setUrl, found, url)
    {
      ys := ys + [if key(xs[i]) == found then setUrl(xs[i], url) else xs[i]];
      i := i + 1;
    }
    assert xs[..i] == xs;
  }

  /** A completion for another collection leaves this one alone. */
  lemma WriteBackMiss<E>(xs: seq<E>, key: E -> ImageTask, setUrl: (E, string) -> E, found: ImageTask, url: string)
    requires forall i :: 0 <= i < |xs| ==> key(xs[i]) != found
    ensures WriteBack(xs, key, setUrl, found, url) == xs
  {
  }

  // ---------------------------------------------------------------- the join

  /** The collections the completions write into: the roster, the crew
      avatars, the ships, the player payload (its items and its item
      archetypes) and the sprite table. */
  datatype Gallery = Gallery(roster: seq<RosterEntry>, avatars: seq<Avatar>, ships: seq<Ship>,
                             payload: SttApi.PlayerPayload, sprites: seq<Config.Sprite>)

  function Items(p: SttApi.PlayerPayload): seq<Item> {
    p.player.character.items
  }

  function WithItems(p: SttApi.PlayerPayload, items: seq<Item>): SttApi.PlayerPayload {
    p.(player := p.player.(character := p.player.character.(items := items)))
  }

  /** One successful completion: the collection of the fetch's kind takes
      the URL on every entity whose key matches. */
  function Complete(g: Gallery, t: ImageTask, url: string): Gallery {
    match t.target
    case CrewIcon => g.(roster := WriteBack(g.roster, CrewIconKey, SetCrewIcon, t, url))
    case CrewBody => g.(roster := WriteBack(g.roster, CrewBodyKey, SetCrewBody, t, url))
    case AvatarIcon => g.(avatars := WriteBack(g.avatars, AvatarKey, SetAvatarIcon, t, url))
    case ShipIcon => g.(ships := WriteBack(g.ships, ShipKey, SetShipIcon, t, url))
    case ItemIcon => g.(payload := WithItems(g.payload, WriteBack(Items(g.payload), ItemKey, SetItemIcon, t, url)))
    case EquipmentIcon =>
      g.(payload := g.payload.(itemArchetypes := WriteBack(g.payload.itemArchetypes, EquipmentKey, SetEquipmentIcon, t, url)))
    case SpriteIcon => g.(sprites := WriteBack(g.sprites, SpriteKey, SetSpriteUrl, t, url))
  }

  /** `Promise.all(iconPromises)`: the completions applied in push order. */
  function Join(g: Gallery, tasks: seq<ImageTask>, resolve: ImageTask -> Option<string>): Gallery {
    if tasks == [] then g
    else
      var prev := Join(g, tasks[..|tasks| - 1], resolve);
      var t := tasks[|tasks| - 1];
      match resolve(t)
      case None => prev
      case Some(url) => Complete(prev, t, url)
  }

  /** Seen from one single-URL collection, the join is that collection's
      own completions; the rest of the player payload is untouched. */
  lemma {:induction false} JoinViews(g: Gallery, tasks: seq<ImageTask>, resolve: ImageTask -> Option<string>)
    ensures Join(g, tasks, resolve).avatars == SettleAll(g.avatars, AvatarKey, SetAvatarIcon, tasks, resolve)
    ensures Join(g, tasks, resolve).ships == SettleAll(g.ships, ShipKey, SetShipIcon, tasks, resolve)
    ensures Items(Join(g, tasks, resolve).payload) == SettleAll(Items(g.payload), ItemKey, SetItemIcon, tasks, resolve)
    ensures Join(g, tasks, resolve).payload.itemArchetypes
            == SettleAll(g.payload.itemArchetypes, EquipmentKey, SetEquipmentIcon, tasks, resolve)
    ensures Join(g, tasks, resolve).sprites == SettleAll(g.sprites, SpriteKey, SetSpriteUrl, tasks, resolve)
    ensures WithItems(Join(g, tasks, resolve).payload, []).(itemArchetypes := []) == WithItems(g.payload, []).(itemArchetypes := [])
  {
    if tasks != [] {
      var init := tasks[..|tasks| - 1];
      JoinViews(g, init, resolve);
      var prev := Join(g, init, resolve);
      var t := tasks[|tasks| - 1];
      if resolve(t).Some? {
        var url := resolve(t).value;
        if t.target != AvatarIcon {
          WriteBackMiss(prev.avatars, AvatarKey, SetAvatarIcon, t, url);
        }
        if t.target != ShipIcon {
          WriteBackMiss(prev.ships, ShipKey, SetShipIcon, t, url);
        }
        if t.target != ItemIcon {
          WriteBackMiss(Items(prev.payload), ItemKey, SetItemIcon, t, url);
        }
        if t.target != EquipmentIcon {
          WriteBackMiss(prev.payload.itemArchetypes, EquipmentKey, SetEquipmentIcon, t, url);
        }
        if t.target != SpriteIcon {
          WriteBackMiss(prev.sprites, SpriteKey, SetSpriteUrl, t, url);
        }
      }
    }
  }

  /** Seen from the roster, the join fills each entry's icon and body URL
      from its own succeeded tasks and leaves everything else alone. */
  lemma {:induction false} JoinRoster(g: Gallery, tasks: seq<ImageTask>, resolve: ImageTask -> Option<string>)
    ensures |Join(g, tasks, resolve).roster| == |g.roster|
    ensures forall i :: 0 <= i < |g.roster| ==>
              Join(g, tasks, resolve).roster[i]
              == g.roster[i].(iconUrl := if CrewIconKey(g.roster[i]) in tasks && resolve(CrewIconKey(g.roster[i])).Some?
                                         then resolve(CrewIconKey(g.roster[i])).value else g.roster[i].iconUrl,
                              iconBodyUrl := if CrewBodyKey(g.roster[i]) in tasks && resolve(CrewBodyKey(g.roster[i])).Some?
                                             then resolve(CrewBodyKey(g.roster[i])).value else g.roster[i].iconBodyUrl)
  {
    if tasks != [] {
      var init := tasks[..|tasks| - 1];
      var t := tasks[|tasks| - 1];
      JoinRoster(g, init, resolve);
      assert tasks == init + [t];
      var prev := Join(g, init, resolve).roster;
      var now := Join(g, tasks, resolve).roster;
      forall i | 0 <= i < |g.roster|
        ensures now[i] == g.roster[i].(iconUrl := if CrewIconKey(g.roster[i]) in tasks && resolve(CrewIconKey(g.roster[i])).Some?
                                                  then resolve(CrewIconKey(g.roster[i])).value else g.roster[i].iconUrl,
                                       iconBodyUrl := if CrewBodyKey(g.roster[i]) in tasks && resolve(CrewBodyKey(g.roster[i])).Some?
                                                      then resolve(CrewBodyKey(g.roster[i])).value else g.roster[i].iconBodyUrl)
      {
        assert prev[i].id == g.roster[i].id;
        if resolve(t).Some? && t.target == CrewIcon {
          assert now == WriteBack(prev, CrewIconKey, SetCrewIcon, t, resolve(t).value);
          assert now[i] == if CrewIconKey(prev[i]) == t then SetCrewIcon(prev[i], resolve(t).value) else prev[i];
        } else if resolve(t).Some? && t.target == CrewBody {
          assert now == WriteBack(prev, CrewBodyKey, SetCrewBody, t, resolve(t).value);
          assert now[i] == if CrewBodyKey(prev[i]) == t then SetCrewBody(prev[i], resolve(t).value) else prev[i];
        } else {
          assert now[i] == prev[i];
        }
      }
    }
  }

  /** The join loop: each successful completion runs its `forEach` and
      bumps `current`; a failed one is caught and does nothing. */
  method AwaitAll(g: Gallery, tasks: seq<ImageTask>, resolve: ImageTask -> Option<string>)
    returns (settled: Gallery, done: nat)
    ensures settled == Join(g, tasks, resolve)
    ensures done == Succeeded(tasks, resolve)
  {
    settled, done := g, 0;
    var i := 0;
    while i < |tasks|
      invariant 0 <= i <= |tasks|
      invariant settled == Join(g, tasks[..i], resolve)
      invariant done == Succeeded(tasks[..i], resolve)
    {
      assert tasks[..i + 1][..i] == tasks[..i];
      var t := tasks[i];
      var found := resolve(t);
      if found.Some? {
        settled := CompleteTask(settled, t, found.value);
        done := done + 1;
      }
      i := i + 1;
    }
    assert tasks[..i] == tasks;
  }

  /** A completion's `forEach` over the collection of its kind. */
  method CompleteTask(g: Gallery, t: ImageTask, url: string) returns (r: Gallery)
    ensures r == Complete(g, t, url)
  {
    match t.target {
      case CrewIcon =>
        var roster := WriteBackLoop(g.roster, CrewIconKey, SetCrewIcon, t, url);
        r := g.(roster := roster);
      case CrewBody =>
        var roster := WriteBackLoop(g.roster, CrewBodyKey, SetCrewBody, t, url);
        r := g.(roster := roster);
      case AvatarIcon =>
        var avatars := WriteBackLoop(g.avatars, AvatarKey, SetAvatarIcon, t, url);
        r := g.(avatars := avatars);
      case ShipIcon =>
        var ships := WriteBackLoop(g.ships, ShipKey, SetShipIcon, t, url);
        r := g.(ships := ships);
      case ItemIcon =>
        var items := WriteBackLoop(Items(g.payload), ItemKey, SetItemIcon, t, url);
        r := g.(payload := WithItems(g.payload, items));
      case EquipmentIcon =>
        var archetypes := WriteBackLoop(g.payload.itemArchetypes, EquipmentKey, SetEquipmentIcon, t, url);
        r := g.(payload := g.payload.(itemArchetypes := archetypes));
      case SpriteIcon =>
        var sprites := WriteBackLoop(g.sprites, SpriteKey, SetSpriteUrl, t, url);
        r := g.(sprites := sprites);
    }
  }

  // ---------------------------------------------------------------- the lookup stages

  /** The roster after its lookup loop: both URLs taken from the cache. */
  function CrewLookup(roster: seq<RosterEntry>, cached: ImageTask -> string): seq<RosterEntry> {
    seq(|roster|, i requires 0 <= i < |roster| =>
      WithCrewUrls(roster[i], cached(CrewIconKey(roster[i])), cached(CrewBodyKey(roster[i]))))
  }

  /** The fetches the roster loop starts for one crew member: the icon's
      then the full body's, each only on a cache miss. */
  function CrewEntryMisses(e: RosterEntry, cached: ImageTask -> string): seq<ImageTask> {
    (if cached(CrewIconKey(e)) == "" then [CrewIconKey(e)] else [])
    + (if cached(CrewBodyKey(e)) == "" then [CrewBodyKey(e)] else [])
  }

  /** The fetches the roster loop starts, crew member by crew member. */
  function CrewMisses(roster: seq<RosterEntry>, cached: ImageTask -> string): seq<ImageTask> {
    if roster == [] then []
    else CrewMisses(roster[..|roster| - 1], cached) + CrewEntryMisses(roster[|roster| - 1], cached)
  }

  lemma CrewEntryMissesExact(e: RosterEntry, cached: ImageTask -> string)
    ensures |CrewEntryMisses(e, cached)| <= 2
    ensures forall t :: t in CrewEntryMisses(e, cached) <==>
              cached(t) == "" && (CrewIconKey(e) == t || CrewBodyKey(e) == t)
  {
  }

  /** `t` is the icon or the body task of some crew member of `roster`. */
  ghost predicate CrewKeyOf(roster: seq<RosterEntry>, t: ImageTask) {
    exists i :: 0 <= i < |roster| && (CrewIconKey(roster[i]) == t || CrewBodyKey(roster[i]) == t)
  }

  /** Every task the roster loop starts is a missed key of some crew member. */
  lemma {:induction false} CrewMissesSound(roster: seq<RosterEntry>, cached: ImageTask -> string)
    ensures |CrewMisses(roster, cached)| <= 2 * |roster|
    ensures forall t :: t in CrewMisses(roster, cached) ==> cached(t) == "" && CrewKeyOf(roster, t)
  {
    if roster != [] {
      var init, e := roster[..|roster| - 1], roster[|roster| - 1];
      CrewMissesSound(init, cached);
      CrewEntryMissesExact(e, cached);
      forall t | t in CrewMisses(roster, cached) ensures cached(t) == "" && CrewKeyOf(roster, t) {
        if t in CrewMisses(init, cached) {
          var i :| 0 <= i < |init| && (CrewIconKey(init[i]) == t || CrewBodyKey(init[i]) == t);
          assert roster[i] == init[i];
        } else {
          assert roster[|roster| - 1] == e;
        }
      }
    }
  }

  /** Every missed key of a crew member is a task the roster loop starts. */
  lemma {:induction false} CrewMissesComplete(roster: seq<RosterEntry>, cached: ImageTask -> string)
    ensures forall t :: cached(t) == "" && CrewKeyOf(roster, t) ==> t in CrewMisses(roster, cached)
  {
    if roster != [] {
      var init, e := roster[..|roster| - 1], roster[|roster| - 1];
      CrewMissesComplete(init, cached);
      CrewEntryMissesExact(e, cached);
      forall t | cached(t) == "" && CrewKeyOf(roster, t) ensures t in CrewMisses(roster, cached) {
        var i :| 0 <= i < |roster| && (CrewIconKey(roster[i]) == t || CrewBodyKey(roster[i]) == t);
        if i < |init| {
          assert init[i] == roster[i];
          assert CrewKeyOf(init, t);
          assert t in CrewMisses(init, cached);
        } else {
          assert t in CrewEntryMisses(e, cached);
        }
      }
    }
  }

  /** The roster loop starts exactly the fetches of the missed crew keys. */
  lemma CrewMissesExact(roster: seq<RosterEntry>, cached: ImageTask -> string)
    ensures |CrewMisses(roster, cached)| <= 2 * |roster|
    ensures forall t :: t in CrewMisses(roster, cached) <==> cached(t) == "" && CrewKeyOf(roster, t)
  {
    CrewMissesSound(roster, cached);
    CrewMissesComplete(roster, cached);
  }

  /** Every task the roster loop starts is a crew icon or body task. */
  lemma {:induction false} CrewMissesTargets(roster: seq<RosterEntry>, cached: ImageTask -> string)
    ensures forall t :: t in CrewMisses(roster, cached) ==> t.target == CrewIcon || t.target == CrewBody
  {
    if roster != [] {
      CrewMissesTargets(roster[..|roster| - 1], cached);
      CrewEntryMissesExact(roster[|roster| - 1], cached);
    }
  }

  /** An entry with both URLs set. */
  function WithCrewUrls(e: RosterEntry, icon: string, body: string): RosterEntry {
    e.(iconUrl := icon, iconBodyUrl := body)
  }

  /** The reset loop: every entry's URLs become `""`, nothing else changes. */
  method ResetCrewUrls(roster: seq<RosterEntry>) returns (r: seq<RosterEntry>)
    ensures |r| == |roster|
    ensures forall k :: 0 <= k < |r| ==> r[k] == WithCrewUrls(roster[k], "", "")
  {
    r := roster;
    var i := 0;
    while i < |r|
      invariant 0 <= i <= |r| == |roster|
      invariant forall k :: 0 <= k < i ==> r[k] == WithCrewUrls(roster[k], "", "")
      invariant forall k :: i <= k < |r| ==> r[k] == roster[k]
    {
      r := r[i := WithCrewUrls(r[i], "", "")];
      i := i + 1;
    }
  }

  /** One turn of the lookup loop: both URLs of a reset entry are taken
      from the cache, and each miss starts a task. */
  method LookupCrewEntry(crew: RosterEntry, cached: ImageTask -> string)
    returns (r: RosterEntry, missed: seq<ImageTask>, hit: nat)
    ensures r == WithCrewUrls(crew, cached(CrewIconKey(crew)), cached(CrewBodyKey(crew)))
    ensures missed == CrewEntryMisses(crew, cached)
    ensures hit + |missed| == 2
  {
    missed, hit := [], 0;
    var icon := cached(CrewIconKey(crew));
    r := crew.(iconUrl := icon);
    if icon == "" {
      missed := missed + [CrewIconKey(crew)];
    } else {
      hit := hit + 1;
    }
    var body := cached(CrewBodyKey(crew));
    r := r.(iconBodyUrl := body);
    if body == "" {
      missed := missed + [CrewBodyKey(crew)];
    } else {
      hit := hit + 1;
    }
  }

  /** The reset loop, then the lookup loop over the roster. */
  method CacheRosterImages(roster: seq<RosterEntry>, cached: ImageTask -> string)
    returns (r: seq<RosterEntry>, tasks: seq<ImageTask>, hits: nat)
    ensures r == CrewLookup(roster, cached)
    ensures tasks == CrewMisses(roster, cached)
    ensures hits + |tasks| == 2 * |roster|
  {
    r := ResetCrewUrls(roster);
    tasks, hits := [], 0;
    var i := 0;
    while i < |r|
      invariant 0 <= i <= |r| == |roster|
      invariant forall k :: 0 <= k < i ==> r[k] == CrewLookup(roster, cached)[k]
      invariant forall k :: i <= k < |r| ==> r[k] == WithCrewUrls(roster[k], "", "")
      invariant tasks == CrewMisses(roster[..i], cached)
      invariant hits + |tasks| == 2 * i
    {
      assert roster[..i + 1][..i] == roster[..i];
      assert CrewIconKey(r[i]) == CrewIconKey(roster[i]) && CrewBodyKey(r[i]) == CrewBodyKey(roster[i]);
      var crew, missed, hit := LookupCrewEntry(r[i], cached);
      assert crew == CrewLookup(roster, cached)[i];
      assert missed == CrewEntryMisses(roster[i], cached);
      tasks, hits := tasks + missed, hits + hit;
      r := r[i := crew];
      i := i + 1;
    }
    assert roster[..i] == roster;
  }

  /** The segments of an item's icon path once the first `"/items"` is cut out. */
  function IconSegments(iconFile: string): seq<string> {
    Text.Split(Text.RemoveFirst(iconFile, "/items"), '/')
  }

  /** `pieces[k]`, or `None` where the source reads `undefined`. */
  function Segment(pieces: seq<string>, k: nat): Option<string> {
    if k < |pieces| then Some(pieces[k]) else None
  }

  /** An item with `typeName` and `symbol` derived from its icon path. */
  function DescribeItem(item: Item): Item {
    item.(typeName := Segment(IconSegments(item.iconFile), 1), symbol := Segment(IconSegments(item.iconFile), 2))
  }

  function DescribeItems(items: seq<Item>): seq<Item> {
    seq(|items|, i requires 0 <= i < |items| => DescribeItem(items[i]))
  }

  /** For an icon path `/items/<type>/<symbol>`, the type and the symbol
      come back as `typeName` and `symbol`. */
  lemma ItemPathSegments(item: Item, kind: string, symbol: string)
    requires '/' !in kind && '/' !in symbol
    requires item.iconFile == "/items/" + kind + "/" + symbol
    ensures DescribeItem(item).typeName == Some(kind)
    ensures DescribeItem(item).symbol == Some(symbol)
  {
    var s := item.iconFile;
    assert Text.OccursAt(s, "/items", 0) by {
      assert s[0..6] == "/items";
    }
    var at := Text.Find(s, "/items");
    assert at == 0;
    assert Text.RemoveFirst(s, "/items") == "/" + kind + "/" + symbol by {
      assert s[6..] == "/" + kind + "/" + symbol;
    }
    var pieces := ["", kind, symbol];
    assert Text.Join(pieces, '/') == "/" + kind + "/" + symbol by {
      assert pieces[1..] == [kind, symbol];
      assert Text.Join([kind, symbol], '/') == kind + "/" + symbol by {
        assert [kind, symbol][1..] == [symbol];
      }
    }
    Text.SplitJoin(pieces, '/');
  }

  /** One item of the lookup loop: its URL from the cache, then its type
      and symbol from its icon path. */
  method LookupItem(item: Item, cached: ImageTask -> string) returns (r: Item)
    ensures r == SetItemIcon(DescribeItem(item), cached(ItemKey(item)))
    ensures ItemKey(r) == ItemKey(item) && r.iconUrl == cached(ItemKey(item))
  {
    r := item.(iconUrl := cached(ItemKey(item)));
    var pieces := IconSegments(r.iconFile);
    r := r.(typeName := Segment(pieces, 1), symbol := Segment(pieces, 2));
  }

  /** The inventory items looked up and described one at a time, in order. */
  function ItemsLookup(items: seq<Item>, cached: ImageTask -> string): seq<Item> {
    if items == [] then []
    else
      var last := items[|items| - 1];
      ItemsLookup(items[..|items| - 1], cached) + [SetItemIcon(DescribeItem(last), cached(ItemKey(last)))]
  }

  /** Item by item, the result is the described item with its cached URL. */
  lemma {:induction false} ItemsLookupExact(items: seq<Item>, cached: ImageTask -> string)
    ensures |ItemsLookup(items, cached)| == |items|
    ensures forall k :: 0 <= k < |items| ==>
              ItemsLookup(items, cached)[k] == SetItemIcon(DescribeItem(items[k]), cached(ItemKey(items[k])))
  {
    if items != [] {
      var init := items[..|items| - 1];
      ItemsLookupExact(init, cached);
      assert forall k :: 0 <= k < |init| ==> init[k] == items[k];
    }
  }

  /** Deriving the type and symbol keeps an item's key, so the loop's
      result is the lookup of the described items. */
  lemma ItemsLookupIsLookup(items: seq<Item>, cached: ImageTask -> string)
    ensures ItemsLookup(items, cached) == Lookup(DescribeItems(items), ItemKey, SetItemIcon, cached)
  {
    ItemsLookupExact(items, cached);
    var r := ItemsLookup(items, cached);
    var described := DescribeItems(items);
    var looked := Lookup(described, ItemKey, SetItemIcon, cached);
    forall k | 0 <= k < |items|
      ensures looked[k] == r[k]
    {
      assert described[k] == DescribeItem(items[k]);
      assert ItemKey(described[k]) == ItemKey(items[k]);
    }
  }

  /** The lookup loop over the inventory items, which also derives their
      type and symbol. */
  method CacheItemImages(items: seq<Item>, cached: ImageTask -> string)
    returns (r: seq<Item>, tasks: seq<ImageTask>, hits: nat)
    ensures r == Lookup(DescribeItems(items), ItemKey, SetItemIcon, cached)
    ensures tasks == Misses(items, ItemKey, cached)
    ensures hits + |tasks| == |items|
  {
    r, tasks, hits := [], [], 0;
    var i := 0;
    while i < |items|
      invariant 0 <= i <= |items|
      invariant r == ItemsLookup(items[..i], cached)
      invariant tasks == Misses(items[..i], ItemKey, cached)
      invariant hits + |tasks| == i
    {
      assert items[..i + 1][..i] == items[..i] && items[..i + 1][i] == items[i];
      var item := LookupItem(items[i], cached);
      r := r + [item];
      if item.iconUrl == "" {
        tasks := tasks + [ItemKey(item)];
      } else {
        hits := hits + 1;
      }
      i := i + 1;
    }
    assert items[..i] == items;
    ItemsLookupIsLookup(items, cached);
  }

  /** The sprite table's tasks: one per sprite, no cache lookup. */
  function SpriteKeys(sprites: seq<Config.Sprite>): seq<ImageTask> {
    seq(|sprites|, i requires 0 <= i < |sprites| => SpriteKey(sprites[i]))
  }

  method StartSpriteTasks(sprites: seq<Config.Sprite>) returns (tasks: seq<ImageTask>)
    ensures tasks == SpriteKeys(sprites)
  {
    tasks := [];
    var i := 0;
    while i < |sprites|
      invariant 0 <= i <= |sprites|
      invariant tasks == SpriteKeys(sprites[..i])
    {
      tasks := tasks + [SpriteKey(sprites[i])];
      i := i + 1;
    }
    assert sprites[..i] == sprites;
  }

  // ---------------------------------------------------------------- the image stages as a whole

  /** The collections as the lookup loops leave them, from the collections
      as they were before any lookup. */
  function Staged(raw: Gallery, cached: ImageTask -> string): Gallery {
    Gallery(CrewLookup(raw.roster, cached),
            Lookup(raw.avatars, AvatarKey, SetAvatarIcon, cached),
            Lookup(raw.ships, ShipKey, SetShipIcon, cached),
            WithItems(raw.payload, Lookup(DescribeItems(Items(raw.payload)), ItemKey, SetItemIcon, cached))
              .(itemArchetypes := Lookup(raw.payload.itemArchetypes, EquipmentKey, SetEquipmentIcon, cached)),
            raw.sprites)
  }

  /** `iconPromises` in push order. */
  function StagedTasks(raw: Gallery, cached: ImageTask -> string): seq<ImageTask> {
    (CrewMisses(raw.roster, cached) + Misses(raw.avatars, AvatarKey, cached))
    + Misses(raw.ships, ShipKey, cached)
    + (Misses(Items(raw.payload), ItemKey, cached) + Misses(raw.payload.itemArchetypes, EquipmentKey, cached)
       + SpriteKeys(raw.sprites))
  }

  /** The roster part of the promise: each entry's icon and body URL are settled. */
  ghost predicate RosterSettles(after: seq<RosterEntry>, raw: seq<RosterEntry>, images: Images) {
    && |after| == |raw|
    && forall i :: 0 <= i < |raw| ==>
         after[i] == raw[i].(iconUrl := Settled(images, CrewIconKey(raw[i])), iconBodyUrl := Settled(images, CrewBodyKey(raw[i])))
  }

  /** A single-URL collection's part: each entity's URL is settled. */
  ghost predicate UrlsSettle<E>(after: seq<E>, raw: seq<E>, key: E -> ImageTask, setUrl: (E, string) -> E, images: Images) {
    && |after| == |raw|
    && forall i :: 0 <= i < |raw| ==> after[i] == setUrl(raw[i], Settled(images, key(raw[i])))
  }

  /** The sprite table's part: a sprite takes the fetched URL when there is one. */
  ghost predicate SpritesSettle(after: seq<Config.Sprite>, raw: seq<Config.Sprite>, images: Images) {
    && |after| == |raw|
    && forall i :: 0 <= i < |raw| ==>
         after[i] == if images.resolve(SpriteKey(raw[i])).Some?
                     then raw[i].(url := Some(images.resolve(SpriteKey(raw[i])).value))
                     else raw[i]
  }

  /** What the image stages promise, entity by entity: every URL is the
      cached one or else what its fetch found (`""` if that failed), items
      also carry their derived type and symbol, sprites take the fetched URL
      when there is one, and nothing else in the player payload changes. */
  ghost predicate Settles(after: Gallery, raw: Gallery, images: Images) {
    && RosterSettles(after.roster, raw.roster, images)
    && UrlsSettle(after.avatars, raw.avatars, AvatarKey, SetAvatarIcon, images)
    && UrlsSettle(after.ships, raw.ships, ShipKey, SetShipIcon, images)
    && UrlsSettle(Items(after.payload), DescribeItems(Items(raw.payload)), ItemKey, SetItemIcon, images)
    && UrlsSettle(after.payload.itemArchetypes, raw.payload.itemArchetypes, EquipmentKey, SetEquipmentIcon, images)
    && WithItems(after.payload, []).(itemArchetypes := []) == WithItems(raw.payload, []).(itemArchetypes := [])
    && SpritesSettle(after.sprites, raw.sprites, images)
  }

  /** Every task a lookup starts is of its collection's kind. */
  lemma MissesTargets<E>(xs: seq<E>, key: E -> ImageTask, cached: ImageTask -> string, kind: Target)
    requires forall i :: 0 <= i < |xs| ==> key(xs[i]).target == kind
    ensures forall t :: t in Misses(xs, key, cached) ==> t.target == kind
  {
    MissesExact(xs, key, cached);
  }

  /** The joined list's crew, avatar and ship segments hold tasks of their
      own kind only. */
  lemma StagedCrewShipTargets(raw: Gallery, cached: ImageTask -> string)
    ensures forall t :: t in CrewMisses(raw.roster, cached) ==> t.target == CrewIcon || t.target == CrewBody
    ensures forall t :: t in Misses(raw.avatars, AvatarKey, cached) ==> t.target == AvatarIcon
    ensures forall t :: t in Misses(raw.ships, ShipKey, cached) ==> t.target == ShipIcon
  {
    CrewMissesTargets(raw.roster, cached);
    MissesTargets(raw.avatars, AvatarKey, cached, AvatarIcon);
    MissesTargets(raw.ships, ShipKey, cached, ShipIcon);
  }

  /** The same for the item, archetype and sprite segments. */
  lemma StagedInventoryTargets(raw: Gallery, cached: ImageTask -> string)
    ensures forall t :: t in Misses(Items(raw.payload), ItemKey, cached) ==> t.target == ItemIcon
    ensures forall t :: t in Misses(raw.payload.itemArchetypes, EquipmentKey, cached) ==> t.target == EquipmentIcon
    ensures forall t :: t in SpriteKeys(raw.sprites) ==> t.target == SpriteIcon
  {
    MissesTargets(Items(raw.payload), ItemKey, cached, ItemIcon);
    MissesTargets(raw.payload.itemArchetypes, EquipmentKey, cached, EquipmentIcon);
  }

  /** The roster's keys are in the joined list exactly when the cache
      missed them. */
  lemma StagedCrewMissed(raw: Gallery, cached: ImageTask -> string)
    ensures forall i :: 0 <= i < |raw.roster| ==>
              (CrewIconKey(raw.roster[i]) in StagedTasks(raw, cached) <==> cached(CrewIconKey(raw.roster[i])) == "")
              && (CrewBodyKey(raw.roster[i]) in StagedTasks(raw, cached) <==> cached(CrewBodyKey(raw.roster[i])) == "")
  {
    StagedCrewShipTargets(raw, cached);
    StagedInventoryTargets(raw, cached);
    CrewMissesExact(raw.roster, cached);
  }

  /** The same for the avatars. */
  lemma StagedAvatarsMissed(raw: Gallery, cached: ImageTask -> string)
    ensures forall i :: 0 <= i < |raw.avatars| ==>
              (AvatarKey(raw.avatars[i]) in StagedTasks(raw, cached) <==> cached(AvatarKey(raw.avatars[i])) == "")
  {
    StagedCrewShipTargets(raw, cached);
    StagedInventoryTargets(raw, cached);
    MissesExact(raw.avatars, AvatarKey, cached);
  }

  /** The same for the ships and the items. */
  lemma StagedShipsItemsMissed(raw: Gallery, cached: ImageTask -> string)
    ensures forall i :: 0 <= i < |raw.ships| ==>
              (ShipKey(raw.ships[i]) in StagedTasks(raw, cached) <==> cached(ShipKey(raw.ships[i])) == "")
    ensures forall i :: 0 <= i < |Items(raw.payload)| ==>
              (ItemKey(Items(raw.payload)[i]) in StagedTasks(raw, cached) <==> cached(ItemKey(Items(raw.payload)[i])) == "")
  {
    StagedCrewShipTargets(raw, cached);
    StagedInventoryTargets(raw, cached);
    MissesExact(raw.ships, ShipKey, cached);
    MissesExact(Items(raw.payload), ItemKey, cached);
  }

  /** The same for the archetypes; every sprite's key is in the list. */
  lemma StagedArchetypesSpritesMissed(raw: Gallery, cached: ImageTask -> string)
    ensures forall i :: 0 <= i < |raw.payload.itemArchetypes| ==>
              (EquipmentKey(raw.payload.itemArchetypes[i]) in StagedTasks(raw, cached)
               <==> cached(EquipmentKey(raw.payload.itemArchetypes[i])) == "")
    ensures forall i :: 0 <= i < |raw.sprites| ==> SpriteKey(raw.sprites[i]) in StagedTasks(raw, cached)
  {
    StagedCrewShipTargets(raw, cached);
    StagedInventoryTargets(raw, cached);
    MissesExact(raw.payload.itemArchetypes, EquipmentKey, cached);
    forall i | 0 <= i < |raw.sprites| ensures SpriteKey(raw.sprites[i]) in SpriteKeys(raw.sprites) {
      assert SpriteKeys(raw.sprites)[i] == SpriteKey(raw.sprites[i]);
    }
  }

  /** Lookup and join, seen from one single-URL collection whose keys are
      in the fetch list exactly when the cache missed them. */
  lemma LookupJoinSettles<E(!new)>(xs: seq<E>, key: E -> ImageTask, setUrl: (E, string) -> E,
                                   images: Images, tasks: seq<ImageTask>, after: seq<E>)
    requires SetterLaws(key, setUrl)
    requires forall i :: 0 <= i < |xs| ==> (key(xs[i]) in tasks <==> images.cached(key(xs[i])) == "")
    requires after == SettleAll(Lookup(xs, key, setUrl, images.cached), key, setUrl, tasks, images.resolve)
    ensures UrlsSettle(after, xs, key, setUrl, images)
  {
    LookupThenSettle(xs, key, setUrl, images, tasks);
  }

  lemma JoinRosterSettles(raw: Gallery, images: Images)
    ensures RosterSettles(Join(Staged(raw, images.cached), StagedTasks(raw, images.cached), images.resolve).roster,
                          raw.roster, images)
  {
    var g := Staged(raw, images.cached);
    var tasks := StagedTasks(raw, images.cached);
    var after := Join(g, tasks, images.resolve);
    StagedCrewMissed(raw, images.cached);
    JoinRoster(g, tasks, images.resolve);
    forall i | 0 <= i < |raw.roster|
      ensures after.roster[i] == raw.roster[i].(iconUrl := Settled(images, CrewIconKey(raw.roster[i])),
                                                iconBodyUrl := Settled(images, CrewBodyKey(raw.roster[i])))
    {
      assert CrewIconKey(g.roster[i]) == CrewIconKey(raw.roster[i]);
      assert CrewBodyKey(g.roster[i]) == CrewBodyKey(raw.roster[i]);
    }
  }

  lemma JoinItemsSettle(raw: Gallery, images: Images)
    ensures UrlsSettle(Items(Join(Staged(raw, images.cached), StagedTasks(raw, images.cached), images.resolve).payload),
                       DescribeItems(Items(raw.payload)), ItemKey, SetItemIcon, images)
  {
    var g := Staged(raw, images.cached);
    var tasks := StagedTasks(raw, images.cached);
    StagedShipsItemsMissed(raw, images.cached);
    JoinViews(g, tasks, images.resolve);
    var described := DescribeItems(Items(raw.payload));
    assert forall i :: 0 <= i < |described| ==> ItemKey(described[i]) == ItemKey(Items(raw.payload)[i]);
    assert Items(g.payload) == Lookup(described, ItemKey, SetItemIcon, images.cached);
    LookupJoinSettles(described, ItemKey, SetItemIcon, images, tasks, Items(Join(g, tasks, images.resolve).payload));
  }

  lemma JoinSpritesSettle(raw: Gallery, images: Images)
    ensures SpritesSettle(Join(Staged(raw, images.cached), StagedTasks(raw, images.cached), images.resolve).sprites,
                          raw.sprites, images)
  {
    var g := Staged(raw, images.cached);
    var tasks := StagedTasks(raw, images.cached);
    StagedArchetypesSpritesMissed(raw, images.cached);
    JoinViews(g, tasks, images.resolve);
    SettleAllExact(raw.sprites, SpriteKey, SetSpriteUrl, tasks, images.resolve);
  }

  lemma JoinAvatarsSettle(raw: Gallery, images: Images)
    ensures UrlsSettle(Join(Staged(raw, images.cached), StagedTasks(raw, images.cached), images.resolve).avatars,
                       raw.avatars, AvatarKey, SetAvatarIcon, images)
  {
    var g := Staged(raw, images.cached);
    var tasks := StagedTasks(raw, images.cached);
    StagedAvatarsMissed(raw, images.cached);
    JoinViews(g, tasks, images.resolve);
    LookupJoinSettles(raw.avatars, AvatarKey, SetAvatarIcon, images, tasks, Join(g, tasks, images.resolve).avatars);
  }

  lemma JoinShipsSettle(raw: Gallery, images: Images)
    ensures UrlsSettle(Join(Staged(raw, images.cached), StagedTasks(raw, images.cached), images.resolve).ships,
                       raw.ships, ShipKey, SetShipIcon, images)
  {
    var g := Staged(raw, images.cached);
    var tasks := StagedTasks(raw, images.cached);
    StagedShipsItemsMissed(raw, images.cached);
    JoinViews(g, tasks, images.resolve);
    LookupJoinSettles(raw.ships, ShipKey, SetShipIcon, images, tasks, Join(g, tasks, images.resolve).ships);
  }

  lemma JoinArchetypesSettle(raw: Gallery, images: Images)
    ensures UrlsSettle(Join(Staged(raw, images.cached), StagedTasks(raw, images.cached), images.resolve).payload.itemArchetypes,
                       raw.payload.itemArchetypes, EquipmentKey, SetEquipmentIcon, images)
  {
    var g := Staged(raw, images.cached);
    var tasks := StagedTasks(raw, images.cached);
    StagedArchetypesSpritesMissed(raw, images.cached);
    JoinViews(g, tasks, images.resolve);
    LookupJoinSettles(raw.payload.itemArchetypes, EquipmentKey, SetEquipmentIcon, images, tasks,
                      Join(g, tasks, images.resolve).payload.itemArchetypes);
  }

  /** The image stages' promise: after the lookups and the join, every
      collection carries its settled URLs. */
  lemma JoinSettles(raw: Gallery, images: Images)
    ensures Settles(Join(Staged(raw, images.cached), StagedTasks(raw, images.cached), images.resolve), raw, images)
  {
    JoinRosterSettles(raw, images);
    JoinAvatarsSettle(raw, images);
    JoinShipsSettle(raw, images);
    JoinItemsSettle(raw, images);
    JoinArchetypesSettle(raw, images);
    JoinSpritesSettle(raw, images);
    JoinViews(Staged(raw, images.cached), StagedTasks(raw, images.cached), images.resolve);
  }

  // ---------------------------------------------------------------- the loaders

  /** One loader of the session, named by what it loads. */
  datatype Stage = CrewInformation | ServerConfiguration | PlatformConfiguration | ShipInformation | PlayerData
                 | FleetMembers | FleetInformation | StarbaseInformation

  /** The text a loader's progress message names. */
  function Description(stage: Stage): string {
    match stage
    case CrewInformation => "crew information"
    case ServerConfiguration => "server configuration"
    case PlatformConfiguration => "platform configuration"
    case ShipInformation => "ship information"
    case PlayerData => "player data"
    case FleetMembers => "fleet members"
    case FleetInformation => "fleet data"
    case StarbaseInformation => "starbase data"
  }

  const MAIN_STAGES: seq<Stage> := [CrewInformation, ServerConfiguration, PlatformConfiguration, ShipInformation, PlayerData]
  const FLEET_STAGES: seq<Stage> := [FleetMembers, FleetInformation, StarbaseInformation]

  /** What each loader's request yields, `None` when the loader rejects; the
      fleet loaders answer per fleet id. The transport is not part of this model. */
  datatype Responses = Responses(
    avatars: Option<seq<Avatar>>, serverConfig: Option<SttApi.ServerConfig>,
    platformConfig: Option<SttApi.PlatformConfig>, schematics: Option<seq<Ship>>,
    payload: Option<SttApi.PlayerPayload>,
    fleetMembers: int -> Option<Blob>, fleetData: int -> Option<Blob>, starbase: int -> Option<Blob>)

  /** Whether the loader of `stage` succeeds. */
  predicate Answered(res: Responses, stage: Stage, fleetId: int) {
    match stage
    case CrewInformation => res.avatars.Some?
    case ServerConfiguration => res.serverConfig.Some?
    case PlatformConfiguration => res.platformConfig.Some?
    case ShipInformation => res.schematics.Some?
    case PlayerData => res.payload.Some?
    case FleetMembers => res.fleetMembers(fleetId).Some?
    case FleetInformation => res.fleetData(fleetId).Some?
    case StarbaseInformation => res.starbase(fleetId).Some?
  }

  /** The session fields the loaders assign. */
  datatype Fields = Fields(
    crewAvatars: Option<seq<Avatar>>, serverConfig: Option<SttApi.ServerConfig>,
    platformConfig: Option<SttApi.PlatformConfig>, shipSchematics: Option<seq<Ship>>,
    playerData: Option<SttApi.PlayerPayload>,
    fleetMemberInfo: Option<Blob>, fleetData: Option<Blob>, starbaseData: Option<Blob>)

  function Loaded(s: SttApi.Session): Fields
    reads s
  {
    Fields(s.crewAvatars, s.serverConfig, s.platformConfig, s.shipSchematics, s.playerData,
           s.fleetMemberInfo, s.fleetData, s.starbaseData)
  }

  /** A successful loader: its field takes the response. */
  function Store(f: Fields, res: Responses, stage: Stage, fleetId: int): Fields {
    match stage
    case CrewInformation => f.(crewAvatars := res.avatars)
    case ServerConfiguration => f.(serverConfig := res.serverConfig)
    case PlatformConfiguration => f.(platformConfig := res.platformConfig)
    case ShipInformation => f.(shipSchematics := res.schematics)
    case PlayerData => f.(playerData := res.payload)
    case FleetMembers => f.(fleetMemberInfo := res.fleetMembers(fleetId))
    case FleetInformation => f.(fleetData := res.fleetData(fleetId))
    case StarbaseInformation => f.(starbaseData := res.starbase(fleetId))
  }

  /** Successful loaders, in order. */
  function StoreAll(f: Fields, res: Responses, stages: seq<Stage>, fleetId: int): Fields {
    if stages == [] then f
    else Store(StoreAll(f, res, stages[..|stages| - 1], fleetId), res, stages[|stages| - 1], fleetId)
  }

  /** After a run of successful loaders, a main field holds its response
      exactly when its loader was among them, and is unchanged otherwise. */
  lemma {:induction false} StoreAllMain(f: Fields, res: Responses, stages: seq<Stage>, fleetId: int)
    ensures var g := StoreAll(f, res, stages, fleetId);
            && g.crewAvatars == (if CrewInformation in stages then res.avatars else f.crewAvatars)
            && g.serverConfig == (if ServerConfiguration in stages then res.serverConfig else f.serverConfig)
            && g.platformConfig == (if PlatformConfiguration in stages then res.platformConfig else f.platformConfig)
            && g.shipSchematics == (if ShipInformation in stages then res.schematics else f.shipSchematics)
            && g.playerData == (if PlayerData in stages then res.payload else f.playerData)
  {
    if stages != [] {
      StoreAllMain(f, res, stages[..|stages| - 1], fleetId);
      assert stages == stages[..|stages| - 1] + [stages[|stages| - 1]];
    }
  }

  /** The same for the fleet fields, whose responses depend on the fleet id. */
  lemma {:induction false} StoreAllFleet(f: Fields, res: Responses, stages: seq<Stage>, fleetId: int)
    ensures var g := StoreAll(f, res, stages, fleetId);
            && g.fleetMemberInfo == (if FleetMembers in stages then res.fleetMembers(fleetId) else f.fleetMemberInfo)
            && g.fleetData == (if FleetInformation in stages then res.fleetData(fleetId) else f.fleetData)
            && g.starbaseData == (if StarbaseInformation in stages then res.starbase(fleetId) else f.starbaseData)
  {
    if stages != [] {
      StoreAllFleet(f, res, stages[..|stages| - 1], fleetId);
      assert stages == stages[..|stages| - 1] + [stages[|stages| - 1]];
    }
  }

  /** How many leading loaders of `stages` succeed before the first rejection. */
  function FirstFailure(stages: seq<Stage>, res: Responses, fleetId: int): (n: nat)
    ensures n <= |stages|
    ensures forall k :: 0 <= k < n ==> Answered(res, stages[k], fleetId)
    ensures n < |stages| ==> !Answered(res, stages[n], fleetId)
  {
    if stages == [] || !Answered(res, stages[0], fleetId) then 0
    else 1 + FirstFailure(stages[1..], res, fleetId)
  }

  /** The number of loaders of `stages` that are announced: up to and
      including the first one rejected. */
  function Announced(stages: seq<Stage>, res: Responses, fleetId: int): nat {
    var n := FirstFailure(stages, res, fleetId);
    if n < |stages| then n + 1 else n
  }

  /** The progress message announcing a loader. */
  function StageMessage(stage: Stage): string {
    "Loading " + Description(stage) + "..."
  }

  /** The progress messages announcing `stages`. */
  function StageMessages(stages: seq<Stage>): seq<string> {
    seq(|stages|, i requires 0 <= i < |stages| => StageMessage(stages[i]))
  }

  /** The fleet gate on the loaded player data: a fleet is present and its
      id is not 0. */
  predicate InFleet(payload: Option<SttApi.PlayerPayload>) {
    payload.Some? && payload.value.player.fleet.Some? && payload.value.player.fleet.value.id != 0
  }

  function FleetId(payload: Option<SttApi.PlayerPayload>): int
    requires InFleet(payload)
  {
    payload.value.player.fleet.value.id
  }

  /** One loader: on success its session field takes the response, on
      rejection nothing changes. */
  method RunLoader(s: SttApi.Session, res: Responses, stage: Stage, fleetId: int) returns (ok: bool)
    modifies s`crewAvatars, s`serverConfig, s`platformConfig, s`shipSchematics, s`playerData,
             s`fleetMemberInfo, s`fleetData, s`starbaseData
    ensures ok == Answered(res, stage, fleetId)
    ensures Loaded(s) == if ok then Store(old(Loaded(s)), res, stage, fleetId) else old(Loaded(s))
  {
    ok := Answered(res, stage, fleetId);
    if !ok {
      return;
    }
    match stage {
      case CrewInformation => s.crewAvatars := res.avatars;
      case ServerConfiguration => s.serverConfig := res.serverConfig;
      case PlatformConfiguration => s.platformConfig := res.platformConfig;
      case ShipInformation => s.shipSchematics := res.schematics;
      case PlayerData => s.playerData := res.payload;
      case FleetMembers => s.fleetMemberInfo := res.fleetMembers(fleetId);
      case FleetInformation => s.fleetData := res.fleetData(fleetId);
      case StarbaseInformation => s.starbaseData := res.starbase(fleetId);
    }
  }

  /** The loaders of `stages` in order, each announced first, stopping at
      the first rejection. */
  method RunStages(s: SttApi.Session, res: Responses, stages: seq<Stage>, fleetId: int)
    returns (failed: Option<Stage>, log: seq<string>)
    modifies s`crewAvatars, s`serverConfig, s`platformConfig, s`shipSchematics, s`playerData,
             s`fleetMemberInfo, s`fleetData, s`starbaseData
    ensures failed == if FirstFailure(stages, res, fleetId) < |stages|
                      then Some(stages[FirstFailure(stages, res, fleetId)]) else None
    ensures log == StageMessages(stages[..Announced(stages, res, fleetId)])
    ensures Loaded(s) == StoreAll(old(Loaded(s)), res, stages[..FirstFailure(stages, res, fleetId)], fleetId)
  {
    failed, log := None, [];
    ghost var before := Loaded(s);
    ghost var n := FirstFailure(stages, res, fleetId);
    var i := 0;
    while i < |stages|
      invariant 0 <= i <= n
      invariant log == StageMessages(stages[..i])
      invariant Loaded(s) == StoreAll(before, res, stages[..i], fleetId)
    {
      var stage := stages[i];
      log := log + [StageMessage(stage)];
      StageMessagesNext(stages, i);
      assert StoreAll(before, res, stages[..i + 1], fleetId)
          == Store(StoreAll(before, res, stages[..i], fleetId), res, stage, fleetId) by {
        assert stages[..i + 1][..i] == stages[..i];
      }
      var ok := RunLoader(s, res, stage, fleetId);
      if !ok {
        assert i == n;
        failed := Some(stage);
        return;
      }
      i := i + 1;
    }
    assert stages[..i] == stages;
  }

  lemma StageMessagesNext(stages: seq<Stage>, i: nat)
    requires i < |stages|
    ensures StageMessages(stages[..i + 1]) == StageMessages(stages[..i]) + [StageMessage(stages[i])]
  {
  }

  /** What the loader stage ends with: the rejected loader if any, the
      loaders it announced, and the loaded fields. */
  datatype LoaderRun = LoaderRun(failed: Option<Stage>, announced: seq<Stage>, fields: Fields)

  /** The loader stage: the main loaders in order, then, when the loaded
      player is in a fleet with a non-zero id, the fleet loaders with that
      id; a rejection ends the stage. */
  function LoaderPlan(before: Fields, res: Responses): LoaderRun {
    var m := FirstFailure(MAIN_STAGES, res, 0);
    var main := StoreAll(before, res, MAIN_STAGES[..m], 0);
    if m < |MAIN_STAGES| then LoaderRun(Some(MAIN_STAGES[m]), MAIN_STAGES[..m + 1], main)
    else if !InFleet(main.playerData) then LoaderRun(None, MAIN_STAGES, main)
    else
      var id := FleetId(main.playerData);
      var f := FirstFailure(FLEET_STAGES, res, id);
      LoaderRun(if f < |FLEET_STAGES| then Some(FLEET_STAGES[f]) else None,
                MAIN_STAGES + FLEET_STAGES[..Announced(FLEET_STAGES, res, id)],
                StoreAll(main, res, FLEET_STAGES[..f], id))
  }

  /** When no loader is rejected, every main field holds its response. */
  lemma LoaderMainLoaded(before: Fields, res: Responses)
    requires LoaderPlan(before, res).failed == None
    ensures var after := LoaderPlan(before, res).fields;
            && after.crewAvatars == res.avatars && res.avatars.Some?
            && after.serverConfig == res.serverConfig && res.serverConfig.Some?
            && after.platformConfig == res.platformConfig && res.platformConfig.Some?
            && after.shipSchematics == res.schematics && res.schematics.Some?
            && after.playerData == res.payload && res.payload.Some?
  {
    assert MAIN_STAGES[..5] == MAIN_STAGES;
    StoreAllMain(before, res, MAIN_STAGES, 0);
    assert Answered(res, MAIN_STAGES[4], 0);
    if InFleet(res.payload) {
      StoreAllMain(StoreAll(before, res, MAIN_STAGES, 0), res, FLEET_STAGES[..FirstFailure(FLEET_STAGES, res, FleetId(res.payload))],
                   FleetId(res.payload));
    }
  }

  /** When no loader is rejected, the fleet fields hold the responses for
      the player's fleet id when the fleet gate is open, and are unchanged
      when it is closed. */
  lemma LoaderFleetLoaded(before: Fields, res: Responses)
    requires LoaderPlan(before, res).failed == None
    ensures var after := LoaderPlan(before, res).fields;
            InFleet(res.payload) ==>
              && after.fleetMemberInfo == res.fleetMembers(FleetId(res.payload)) && after.fleetMemberInfo.Some?
              && after.fleetData == res.fleetData(FleetId(res.payload)) && after.fleetData.Some?
              && after.starbaseData == res.starbase(FleetId(res.payload)) && after.starbaseData.Some?
    ensures var after := LoaderPlan(before, res).fields;
            !InFleet(res.payload) ==>
              after.fleetMemberInfo == before.fleetMemberInfo && after.fleetData == before.fleetData
              && after.starbaseData == before.starbaseData
  {
    UnfailedPlan(before, res);
    var main := StoreAll(before, res, MAIN_STAGES, 0);
    MainStagesStored(before, res);
    if InFleet(res.payload) {
      FleetStagesStored(main, res, FleetId(res.payload));
    } else {
      StoreAllFleet(before, res, MAIN_STAGES, 0);
    }
  }

  /** A run without a rejection: all five main loaders succeeded, and the
      fleet loaders, when they ran, all succeeded too. */
  lemma UnfailedPlan(before: Fields, res: Responses)
    requires LoaderPlan(before, res).failed == None
    ensures FirstFailure(MAIN_STAGES, res, 0) == |MAIN_STAGES|
    ensures var main := StoreAll(before, res, MAIN_STAGES, 0);
            !InFleet(main.playerData) ==> LoaderPlan(before, res).fields == main
    ensures var main := StoreAll(before, res, MAIN_STAGES, 0);
            InFleet(main.playerData) ==>
              && FirstFailure(FLEET_STAGES, res, FleetId(main.playerData)) == |FLEET_STAGES|
              && LoaderPlan(before, res).fields == StoreAll(main, res, FLEET_STAGES, FleetId(main.playerData))
  {
    var m := FirstFailure(MAIN_STAGES, res, 0);
    assert m == |MAIN_STAGES|;
    assert MAIN_STAGES[..m] == MAIN_STAGES;
    var main := StoreAll(before, res, MAIN_STAGES, 0);
    if InFleet(main.playerData) {
      var f := FirstFailure(FLEET_STAGES, res, FleetId(main.playerData));
      assert f == |FLEET_STAGES|;
      assert FLEET_STAGES[..f] == FLEET_STAGES;
    }
  }

  /** With all five main loaders answered, the player data field holds
      the player payload. */
  lemma MainStagesStored(before: Fields, res: Responses)
    requires FirstFailure(MAIN_STAGES, res, 0) == |MAIN_STAGES|
    ensures StoreAll(before, res, MAIN_STAGES, 0).playerData == res.payload
  {
    StoreAllMain(before, res, MAIN_STAGES, 0);
    assert PlayerData in MAIN_STAGES by {
      assert MAIN_STAGES[4] == PlayerData;
    }
  }

  /** The three fleet loaders, all answered, store their three responses. */
  lemma FleetStagesStored(main: Fields, res: Responses, id: int)
    requires FirstFailure(FLEET_STAGES, res, id) == |FLEET_STAGES|
    ensures var after := StoreAll(main, res, FLEET_STAGES, id);
            && after.fleetMemberInfo == res.fleetMembers(id) && after.fleetMemberInfo.Some?
            && after.fleetData == res.fleetData(id) && after.fleetData.Some?
            && after.starbaseData == res.starbase(id) && after.starbaseData.Some?
  {
    assert FLEET_STAGES[..3] == FLEET_STAGES;
    StoreAllFleet(main, res, FLEET_STAGES, id);
    assert Answered(res, FLEET_STAGES[0], id) && Answered(res, FLEET_STAGES[1], id) && Answered(res, FLEET_STAGES[2], id);
  }

  /** The fleet loaders are announced only for a player in a fleet with a
      non-zero id, after all five main loaders succeeded, and then with
      that id; the main loaders always come first, in their fixed order. */
  lemma FleetGated(before: Fields, res: Responses)
    ensures FleetMembers in LoaderPlan(before, res).announced
            <==> FirstFailure(MAIN_STAGES, res, 0) == |MAIN_STAGES| && InFleet(res.payload)
    ensures Announced(MAIN_STAGES, res, 0) <= |LoaderPlan(before, res).announced|
    ensures LoaderPlan(before, res).announced[..Announced(MAIN_STAGES, res, 0)] == MAIN_STAGES[..Announced(MAIN_STAGES, res, 0)]
  {
    var m := FirstFailure(MAIN_STAGES, res, 0);
    var plan := LoaderPlan(before, res);
    if m == |MAIN_STAGES| {
      assert MAIN_STAGES[..m] == MAIN_STAGES;
      MainStagesStored(before, res);
      if InFleet(res.payload) {
        assert plan.announced[5] == FleetMembers;
      } else {
        assert plan.announced == MAIN_STAGES;
        NoFleetInMain(m);
      }
    } else {
      assert plan.announced == MAIN_STAGES[..m + 1];
      NoFleetInMain(m + 1);
    }
  }

  lemma NoFleetInMain(n: nat)
    requires n <= |MAIN_STAGES|
    ensures FleetMembers !in MAIN_STAGES[..n]
  {
    assert forall k :: 0 <= k < n ==> MAIN_STAGES[..n][k] == MAIN_STAGES[k];
  }

  /** The loader stage. */
  method LoadResources(s: SttApi.Session, res: Responses) returns (failed: Option<Stage>, log: seq<string>)
    modifies s`crewAvatars, s`serverConfig, s`platformConfig, s`shipSchematics, s`playerData,
             s`fleetMemberInfo, s`fleetData, s`starbaseData
    ensures failed == LoaderPlan(old(Loaded(s)), res).failed
    ensures log == StageMessages(LoaderPlan(old(Loaded(s)), res).announced)
    ensures Loaded(s) == LoaderPlan(old(Loaded(s)), res).fields
  {
    failed, log := RunStages(s, res, MAIN_STAGES, 0);
    if failed.Some? {
      return;
    }
    assert MAIN_STAGES[..5] == MAIN_STAGES;
    if !InFleet(s.playerData) {
      return;
    }
    var id := FleetId(s.playerData);
    var fleetLog;
    failed, fleetLog := RunStages(s, res, FLEET_STAGES, id);
    assert StageMessages(MAIN_STAGES) + StageMessages(FLEET_STAGES[..Announced(FLEET_STAGES, res, id)])
           == StageMessages(MAIN_STAGES + FLEET_STAGES[..Announced(FLEET_STAGES, res, id)]);
    log := log + fleetLog;
  }

  // ---------------------------------------------------------------- the image stages

  /** The progress message of the crew stage, and the messages of the
      image stages when the crew matched. */
  const CREW_MESSAGE := "Analyzing crew..."
  const IMAGE_MESSAGES := [CREW_MESSAGE, "Loading ships...", "Caching item images...", "Loading equipment...",
                           "Caching images..."]

  /** The collections the session holds after the image stages. */
  function SessionGallery(s: SttApi.Session): Gallery
    requires s.roster.Some? && s.crewAvatars.Some? && s.ships.Some? && s.playerData.Some?
    reads s
  {
    Gallery(s.roster.value, s.crewAvatars.value, s.ships.value, s.playerData.value, s.sprites)
  }

  /** The image stages' total: two icons per crew member, one per avatar,
      ship, item, equipment archetype and sprite. */
  function ImageTotal(raw: Gallery): nat {
    2 * |raw.roster| + |raw.avatars| + |raw.ships| + |Items(raw.payload)| + |raw.payload.itemArchetypes| + |raw.sprites|
  }

  /** Every cache hit and every successful fetch counts once, a failed
      fetch never, so the count never passes the total. */
  lemma CounterBound(raw: Gallery, images: Images)
    ensures |StagedTasks(raw, images.cached)| <= ImageTotal(raw)
    ensures ImageTotal(raw) - |StagedTasks(raw, images.cached)| + Succeeded(StagedTasks(raw, images.cached), images.resolve)
            <= ImageTotal(raw)
  {
    CrewMissesExact(raw.roster, images.cached);
    MissesExact(raw.avatars, AvatarKey, images.cached);
    MissesExact(raw.ships, ShipKey, images.cached);
    MissesExact(Items(raw.payload), ItemKey, images.cached);
    MissesExact(raw.payload.itemArchetypes, EquipmentKey, images.cached);
  }

  /** Matching the crew, then the roster's and the avatars' lookups. */
  method CrewStage(s: SttApi.Session, cached: ImageTask -> string, immortals: string -> Option<CrewData>)
    returns (ok: bool, ghost matched: seq<RosterEntry>, tasks: seq<ImageTask>, hits: nat)
    requires s.crewAvatars.Some? && s.platformConfig.Some? && s.playerData.Some?
    modifies s`immortalsCache, s`roster, s`crewAvatars
    ensures ok == CrewTools.MatchCrewSpec(old(s.crewAvatars.value), s.playerData.value.player.character,
                                          s.platformConfig.value.traitNames, old(s.immortalsCache), immortals).Some?
    ensures !ok ==> s.roster == old(s.roster) && s.crewAvatars == old(s.crewAvatars)
    ensures ok ==> matched == CrewTools.MatchCrewSpec(old(s.crewAvatars.value), s.playerData.value.player.character,
                                                      s.platformConfig.value.traitNames, old(s.immortalsCache),
                                                      immortals).value
    ensures ok ==> s.roster == Some(CrewLookup(matched, cached))
    ensures ok ==> s.crewAvatars == Some(Lookup(old(s.crewAvatars.value), AvatarKey, SetAvatarIcon, cached))
    ensures ok ==> tasks == CrewMisses(matched, cached) + Misses(old(s.crewAvatars.value), AvatarKey, cached)
    ensures ok ==> hits + |tasks| == 2 * |matched| + |old(s.crewAvatars.value)|
  {
    tasks, hits, matched := [], 0, [];
    var found := CrewTools.MatchCrew(s, s.playerData.value.player.character, immortals);
    ok := found.Some?;
    if !ok {
      return;
    }
    matched := found.value;
    s.roster := found;
    var crew, crewTasks, crewHits := CacheRosterImages(found.value, cached);
    s.roster := Some(crew);
    var avatars, avatarTasks, avatarHits := LookupUrls(s.crewAvatars.value, AvatarKey, SetAvatarIcon, cached);
    s.crewAvatars := Some(avatars);
    tasks, hits := crewTasks + avatarTasks, crewHits + avatarHits;
  }

  /** Matching the ships against the schematics, then their lookup. */
  method ShipStage(s: SttApi.Session, cached: ImageTask -> string)
    returns (ghost matched: seq<Ship>, tasks: seq<ImageTask>, hits: nat)
    requires s.shipSchematics.Some? && s.platformConfig.Some? && s.playerData.Some?
    modifies s`shipSchematics, s`ships
    ensures matched == ShipTools.MatchShipsSpec(s.platformConfig.value.shipTraitNames,
                                                s.playerData.value.player.character.ships, old(s.shipSchematics.value))
    ensures s.ships == Some(Lookup(matched, ShipKey, SetShipIcon, cached))
    ensures tasks == Misses(matched, ShipKey, cached)
    ensures hits + |tasks| == |matched|
  {
    var ships := ShipTools.MatchShips(s, s.playerData.value.player.character.ships);
    matched := ships;
    s.ships := Some(ships);
    var looked;
    looked, tasks, hits := LookupUrls(ships, ShipKey, SetShipIcon, cached);
    s.ships := Some(looked);
  }

  /** The inventory items' lookup, which also derives their type and symbol. */
  method ItemStage(s: SttApi.Session, cached: ImageTask -> string) returns (tasks: seq<ImageTask>, hits: nat)
    requires s.playerData.Some?
    modifies s`playerData
    ensures s.playerData == Some(WithItems(old(s.playerData.value),
                                           Lookup(DescribeItems(Items(old(s.playerData.value))), ItemKey, SetItemIcon, cached)))
    ensures tasks == Misses(Items(old(s.playerData.value)), ItemKey, cached)
    ensures hits + |tasks| == |Items(old(s.playerData.value))|
  {
    var items;
    items, tasks, hits := CacheItemImages(Items(s.playerData.value), cached);
    s.playerData := Some(WithItems(s.playerData.value, items));
  }

  /** Completing the equipment tree, then the archetypes' lookup. The
      tree's outcome does not stop the sequence: the lookup runs on
      whatever list the tree left. */
  method EquipmentStage(s: SttApi.Session, cached: ImageTask -> string,
                        fetch: seq<int> -> EquipmentTools.FetchResult, fuel: nat)
    returns (ghost archetypes: seq<Archetype>, outcome: EquipmentTools.TreeOutcome, tasks: seq<ImageTask>, hits: nat)
    requires s.playerData.Some? && s.serverConfig.Some? && s.roster.Some?
    modifies s`playerData, s`equipmentCache
    ensures (archetypes, outcome)
            == EquipmentTools.Tree(fuel, old(s.playerData.value.itemArchetypes),
                                   EquipmentTools.CacheEntry(old(s.equipmentCache), s.serverConfig.value.recipeDigest),
                                   s.roster.value, fetch)
    ensures outcome == EquipmentTools.Complete ==> EquipmentTools.Closed(archetypes, s.roster.value)
    ensures EquipmentTools.Extends(old(s.playerData.value.itemArchetypes), archetypes)
    ensures s.playerData == Some(SttApi.PlayerPayload(old(s.playerData.value.player),
                                                      Lookup(archetypes, EquipmentKey, SetEquipmentIcon, cached)))
    ensures tasks == Misses(archetypes, EquipmentKey, cached)
    ensures hits + |tasks| == |archetypes|
  {
    ghost var batches, missings;
    outcome, batches, missings := EquipmentTools.LoadFullTree(s, fetch, fuel);
    archetypes := s.playerData.value.itemArchetypes;
    var looked;
    looked, tasks, hits := LookupUrls(s.playerData.value.itemArchetypes, EquipmentKey, SetEquipmentIcon, cached);
    s.playerData := Some(s.playerData.value.(itemArchetypes := looked));
  }

  /** The looked-up collections, assembled stage by stage, are `Staged`. */
  lemma StagedAssembled(raw: Gallery, cached: ImageTask -> string, g: Gallery)
    requires g.roster == CrewLookup(raw.roster, cached)
    requires g.avatars == Lookup(raw.avatars, AvatarKey, SetAvatarIcon, cached)
    requires g.ships == Lookup(raw.ships, ShipKey, SetShipIcon, cached)
    requires g.payload == SttApi.PlayerPayload(
               WithItems(raw.payload, Lookup(DescribeItems(Items(raw.payload)), ItemKey, SetItemIcon, cached)).player,
               Lookup(raw.payload.itemArchetypes, EquipmentKey, SetEquipmentIcon, cached))
    requires g.sprites == raw.sprites
    ensures g == Staged(raw, cached)
  {
  }

  /** The crew's and the ships' stages. */
  method RosterStages(s: SttApi.Session, cached: ImageTask -> string, immortals: string -> Option<CrewData>)
    returns (ok: bool, ghost roster: seq<RosterEntry>, ghost ships: seq<Ship>, tasks: seq<ImageTask>, hits: nat)
    requires s.crewAvatars.Some? && s.platformConfig.Some? && s.shipSchematics.Some? && s.playerData.Some?
    modifies s`immortalsCache, s`roster, s`crewAvatars, s`shipSchematics, s`ships
    ensures ok == CrewTools.MatchCrewSpec(old(s.crewAvatars.value), s.playerData.value.player.character,
                                          s.platformConfig.value.traitNames, old(s.immortalsCache), immortals).Some?
    ensures !ok ==> s.roster == old(s.roster)
    ensures ok ==> roster == CrewTools.MatchCrewSpec(old(s.crewAvatars.value), s.playerData.value.player.character,
                                                     s.platformConfig.value.traitNames, old(s.immortalsCache),
                                                     immortals).value
    ensures ok ==> ships == ShipTools.MatchShipsSpec(s.platformConfig.value.shipTraitNames,
                                                     s.playerData.value.player.character.ships, old(s.shipSchematics.value))
    ensures ok ==> s.roster == Some(CrewLookup(roster, cached))
    ensures ok ==> s.crewAvatars == Some(Lookup(old(s.crewAvatars.value), AvatarKey, SetAvatarIcon, cached))
    ensures ok ==> s.ships == Some(Lookup(ships, ShipKey, SetShipIcon, cached))
    ensures ok ==> tasks == CrewMisses(roster, cached) + Misses(old(s.crewAvatars.value), AvatarKey, cached)
                            + Misses(ships, ShipKey, cached)
    ensures ok ==> hits + |tasks| == 2 * |roster| + |old(s.crewAvatars.value)| + |ships|
  {
    ships := [];
    var crewTasks, crewHits;
    ok, roster, crewTasks, crewHits := CrewStage(s, cached, immortals);
    tasks, hits := crewTasks, crewHits;
    if !ok {
      return;
    }
    var shipTasks, shipHits;
    ships, shipTasks, shipHits := ShipStage(s, cached);
    tasks, hits := crewTasks + shipTasks, crewHits + shipHits;
  }

  /** The inventory's lookups: items, then the equipment tree and its
      archetypes, then the sprite tasks. */
  method InventoryStages(s: SttApi.Session, cached: ImageTask -> string,
                         fetch: seq<int> -> EquipmentTools.FetchResult, fuel: nat)
    returns (ghost archetypes: seq<Archetype>, tasks: seq<ImageTask>, hits: nat)
    requires s.playerData.Some? && s.serverConfig.Some? && s.roster.Some?
    modifies s`playerData, s`equipmentCache
    ensures EquipmentTools.Extends(old(s.playerData.value.itemArchetypes), archetypes)
    ensures s.playerData == Some(SttApi.PlayerPayload(
              WithItems(old(s.playerData.value),
                        Lookup(DescribeItems(Items(old(s.playerData.value))), ItemKey, SetItemIcon, cached)).player,
              Lookup(archetypes, EquipmentKey, SetEquipmentIcon, cached)))
    ensures tasks == Misses(Items(old(s.playerData.value)), ItemKey, cached) + Misses(archetypes, EquipmentKey, cached)
                     + SpriteKeys(s.sprites)
    ensures hits + |tasks| == |Items(old(s.playerData.value))| + |archetypes| + |s.sprites|
  {
    var itemTasks, itemHits := ItemStage(s, cached);
    var equipmentTasks, equipmentHits, treeOutcome;
    archetypes, treeOutcome, equipmentTasks, equipmentHits := EquipmentStage(s, cached, fetch, fuel);
    var spriteTasks := StartSpriteTasks(s.sprites);
    tasks := itemTasks + equipmentTasks + spriteTasks;
    hits := itemHits + equipmentHits;
  }

  /** The lookups from matching the crew to starting the sprite tasks: the
      session holds the looked-up collections and `tasks` the started
      fetches. `raw` names the collections as they were before their lookups. */
  method LookupStages(s: SttApi.Session, cached: ImageTask -> string, immortals: string -> Option<CrewData>,
                      fetch: seq<int> -> EquipmentTools.FetchResult, fuel: nat)
    returns (ok: bool, log: seq<string>, tasks: seq<ImageTask>, hits: nat, ghost raw: Gallery)
    requires s.crewAvatars.Some? && s.platformConfig.Some? && s.shipSchematics.Some?
    requires s.playerData.Some? && s.serverConfig.Some?
    modifies s`immortalsCache, s`roster, s`crewAvatars, s`shipSchematics, s`ships, s`playerData, s`equipmentCache
    ensures ok == CrewTools.MatchCrewSpec(old(s.crewAvatars.value), old(s.playerData.value.player.character),
                                          old(s.platformConfig.value.traitNames), old(s.immortalsCache), immortals).Some?
    ensures !ok ==> log == [CREW_MESSAGE] && s.roster == old(s.roster) && s.playerData == old(s.playerData)
    ensures ok ==> log == IMAGE_MESSAGES
    ensures ok ==> raw.roster == CrewTools.MatchCrewSpec(old(s.crewAvatars.value), old(s.playerData.value.player.character),
                                                         old(s.platformConfig.value.traitNames), old(s.immortalsCache),
                                                         immortals).value
    ensures ok ==> raw.avatars == old(s.crewAvatars.value)
    ensures ok ==> raw.ships == ShipTools.MatchShipsSpec(old(s.platformConfig.value.shipTraitNames),
                                                         old(s.playerData.value.player.character.ships),
                                                         old(s.shipSchematics.value))
    ensures ok ==> raw.payload.player == old(s.playerData.value.player)
    ensures ok ==> EquipmentTools.Extends(old(s.playerData.value.itemArchetypes), raw.payload.itemArchetypes)
    ensures ok ==> raw.sprites == s.sprites
    ensures ok ==> s.roster.Some? && s.crewAvatars.Some? && s.ships.Some? && s.playerData.Some?
    ensures ok ==> SessionGallery(s) == Staged(raw, cached)
    ensures ok ==> tasks == StagedTasks(raw, cached)
    ensures ok ==> hits + |tasks| == ImageTotal(raw)
  {
    log := [CREW_MESSAGE];
    tasks, hits := [], 0;
    raw := Gallery([], [], [], s.playerData.value, s.sprites);
    ghost var payload0 := s.playerData.value;
    ghost var avatars0 := s.crewAvatars.value;
    var rosterTasks, rosterHits;
    ghost var roster0, ships0;
    ok, roster0, ships0, rosterTasks, rosterHits := RosterStages(s, cached, immortals);
    assert s.playerData == Some(payload0);
    if !ok {
      return;
    }
    log := IMAGE_MESSAGES;
    ghost var archetypes0;
    var inventoryTasks, inventoryHits;
    archetypes0, inventoryTasks, inventoryHits := InventoryStages(s, cached, fetch, fuel);
    raw := Gallery(roster0, avatars0, ships0, SttApi.PlayerPayload(payload0.player, archetypes0), s.sprites);
    StagedAssembled(raw, cached, SessionGallery(s));
    tasks := rosterTasks + inventoryTasks;
    hits := rosterHits + inventoryHits;
    StagedCounted(raw, cached, rosterTasks, inventoryTasks, rosterHits, inventoryHits);
  }

  /** The two halves' tasks and hits add up to the staged ones. */
  lemma StagedCounted(raw: Gallery, cached: ImageTask -> string, rosterTasks: seq<ImageTask>,
                      inventoryTasks: seq<ImageTask>, rosterHits: nat, inventoryHits: nat)
    requires rosterTasks == CrewMisses(raw.roster, cached) + Misses(raw.avatars, AvatarKey, cached)
                            + Misses(raw.ships, ShipKey, cached)
    requires inventoryTasks == Misses(Items(raw.payload), ItemKey, cached)
                               + Misses(raw.payload.itemArchetypes, EquipmentKey, cached) + SpriteKeys(raw.sprites)
    requires rosterHits + |rosterTasks| == 2 * |raw.roster| + |raw.avatars| + |raw.ships|
    requires inventoryHits + |inventoryTasks| == |Items(raw.payload)| + |raw.payload.itemArchetypes| + |raw.sprites|
    ensures rosterTasks + inventoryTasks == StagedTasks(raw, cached)
    ensures rosterHits + inventoryHits + |rosterTasks + inventoryTasks| == ImageTotal(raw)
  {
  }

  /** The completions' writes, as the session holds them after the join. */
  method StoreGallery(s: SttApi.Session, g: Gallery)
    modifies s`roster, s`crewAvatars, s`ships, s`playerData, s`sprites
    ensures s.roster.Some? && s.crewAvatars.Some? && s.ships.Some? && s.playerData.Some?
    ensures SessionGallery(s) == g
  {
    s.roster := Some(g.roster);
    s.crewAvatars := Some(g.avatars);
    s.ships := Some(g.ships);
    s.playerData := Some(g.payload);
    s.sprites := g.sprites;
  }

  /** From matching the crew to the join of the image tasks: the roster and
      the ships are matched and stored, every collection's URLs are looked
      up and the missing ones fetched, and the equipment tree is completed
      in between; `current` counts the hits and the successful fetches. */
  method CacheImages(s: SttApi.Session, images: Images, immortals: string -> Option<CrewData>,
                     fetch: seq<int> -> EquipmentTools.FetchResult, fuel: nat)
    returns (ok: bool, log: seq<string>, current: nat, total: nat, ghost raw: Gallery)
    requires s.crewAvatars.Some? && s.platformConfig.Some? && s.shipSchematics.Some?
    requires s.playerData.Some? && s.serverConfig.Some?
    modifies s`immortalsCache, s`roster, s`crewAvatars, s`shipSchematics, s`ships, s`playerData,
             s`equipmentCache, s`sprites
    ensures ok == CrewTools.MatchCrewSpec(old(s.crewAvatars.value), old(s.playerData.value.player.character),
                                          old(s.platformConfig.value.traitNames), old(s.immortalsCache), immortals).Some?
    ensures !ok ==> log == [CREW_MESSAGE] && s.roster == old(s.roster) && s.playerData == old(s.playerData)
    ensures ok ==> log == IMAGE_MESSAGES
    ensures ok ==> raw.roster == CrewTools.MatchCrewSpec(old(s.crewAvatars.value), old(s.playerData.value.player.character),
                                                         old(s.platformConfig.value.traitNames), old(s.immortalsCache),
                                                         immortals).value
    ensures ok ==> raw.avatars == old(s.crewAvatars.value)
    ensures ok ==> raw.ships == ShipTools.MatchShipsSpec(old(s.platformConfig.value.shipTraitNames),
                                                         old(s.playerData.value.player.character.ships),
                                                         old(s.shipSchematics.value))
    ensures ok ==> raw.payload.player == old(s.playerData.value.player)
    ensures ok ==> EquipmentTools.Extends(old(s.playerData.value.itemArchetypes), raw.payload.itemArchetypes)
    ensures ok ==> raw.sprites == old(s.sprites)
    ensures ok ==> s.roster.Some? && s.crewAvatars.Some? && s.ships.Some? && s.playerData.Some?
    ensures ok ==> SessionGallery(s) == Join(Staged(raw, images.cached), StagedTasks(raw, images.cached), images.resolve)
    ensures ok ==> total == ImageTotal(raw)
    ensures ok ==> current == total - |StagedTasks(raw, images.cached)| + Succeeded(StagedTasks(raw, images.cached), images.resolve)
  {
    current, total := 0, 0;
    var tasks, hits;
    ok, log, tasks, hits, raw := LookupStages(s, images.cached, immortals, fetch, fuel);
    if !ok {
      return;
    }
    var settled, done := AwaitAll(SessionGallery(s), tasks, images.resolve);
    StoreGallery(s, settled);
    total := hits + |tasks|;
    current := hits + done;
  }

  // ---------------------------------------------------------------- the missions stage

  const MISSIONS_MESSAGE := "Loading missions and quests..."
  const SUCCESS_MESSAGE := "Calculating mission success stats for crew..."

  /** The accepted missions that belong to the main story, in order. */
  function MainStory(missions: seq<AcceptedMission>): seq<AcceptedMission> {
    if missions == [] then []
    else
      var last := missions[|missions| - 1];
      MainStory(missions[..|missions| - 1]) + (if last.mainStory then [last] else [])
  }

  /** The filter keeps exactly the main-story missions and no others. */
  lemma {:induction false} MainStoryExact(missions: seq<AcceptedMission>)
    ensures |MainStory(missions)| <= |missions|
    ensures forall m :: m in MainStory(missions) <==> m in missions && m.mainStory
  {
    if missions != [] {
      MainStoryExact(missions[..|missions| - 1]);
      assert missions == missions[..|missions| - 1] + [missions[|missions| - 1]];
    }
  }

  /** The player payload with new accepted missions and dispute histories. */
  function WithMissions(p: SttApi.PlayerPayload, accepted: seq<AcceptedMission>, disputes: Option<seq<Dispute>>)
    : SttApi.PlayerPayload
  {
    p.(player := p.player.(character := p.player.character.(acceptedMissions := accepted, disputeHistories := disputes)))
  }

  /** What `loadMissionData` comes to in the missions stage for character
      `ch`: rejected when not logged in, rejected with the server's reason
      when `mission/info` is rejected, and otherwise the load of its reply. */
  function MissionStageLoad(ch: SttApi.Character, loggedIn: bool, cache: map<int, QuestDetails>,
                            info: seq<int> -> Result<seq<MissionInfo>, string>,
                            conflict: int -> Result<MissionTools.ConflictReply, string>): MissionTools.MissionLoad
  {
    var ids := MissionTools.RequestedIds(ch.cadetMissions + MainStory(ch.acceptedMissions), ch.disputeHistories);
    if !loggedIn then MissionTools.MissionLoad(Err("Not logged in!"), ch.disputeHistories, cache)
    else if info(ids).Err? then MissionTools.MissionLoad(Err(info(ids).error), ch.disputeHistories, cache)
    else MissionTools.MissionDataLoad(cache, ch.disputeHistories, info(ids).value, conflict)
  }

  /** The missions stage: the accepted missions are filtered to the main
      story and written back, the cadet missions and those are loaded
      together with the dispute histories, whose quests the load fills in
      place, and on success the mission list and the crew success
      statistics are stored. */
  method MissionStage(s: SttApi.Session, info: seq<int> -> Result<seq<MissionInfo>, string>,
                      conflict: int -> Result<MissionTools.ConflictReply, string>,
                      successOf: seq<MissionData> -> seq<seq<Candidate>>)
    returns (failure: Option<string>, log: seq<string>)
    requires s.playerData.Some?
    modifies s`playerData, s`questCache, s`missions, s`missionSuccess
    ensures var ch := old(s.playerData.value.player.character);
            var load := MissionStageLoad(ch, old(s.LoggedIn()), old(s.questCache), info, conflict);
            && s.playerData == Some(WithMissions(old(s.playerData.value), MainStory(ch.acceptedMissions), load.disputes))
            && s.questCache == load.cache
            && failure == (if load.result.Err? then Some(load.result.error) else None)
            && s.missions == (if load.result.Ok? then Some(load.result.value) else old(s.missions))
            && s.missionSuccess == (if load.result.Ok? then successOf(load.result.value) else old(s.missionSuccess))
    ensures log == [MISSIONS_MESSAGE] + (if failure == None then [SUCCESS_MESSAGE] else [])
  {
    log := [MISSIONS_MESSAGE];
    var payload := s.playerData.value;
    var ch := payload.player.character;
    var mainStory := MainStory(ch.acceptedMissions);
    s.playerData := Some(WithMissions(payload, mainStory, ch.disputeHistories));
    var ids, r, updated := MissionTools.LoadMissionData(s, ch.cadetMissions + mainStory, ch.disputeHistories, info, conflict);
    s.playerData := Some(WithMissions(payload, mainStory, updated));
    if r.Err? {
      failure := Some(r.error);
      return;
    }
    failure := None;
    s.missions := Some(r.value);
    log := log + [SUCCESS_MESSAGE];
    s.missionSuccess := successOf(r.value);
  }

  // ---------------------------------------------------------------- the whole sequence

  /** How the sequence ends: it completes, or the first rejection ends it. */
  datatype Outcome = Done | LoaderRejected(stage: Stage) | CrewRejected | MissionsRejected(reason: string)

  /** A gallery with nothing in it. */
  const EMPTY_GALLERY := Gallery([], [], [], SttApi.PlayerPayload(SttApi.Player(None, SttApi.Character([], [], [], [], [], [], None, "")), []), [])

  /** The session holds the joined collections. */
  ghost predicate HoldsJoined(s: SttApi.Session, joined: Gallery)
    reads s
  {
    && s.roster == Some(joined.roster) && s.crewAvatars == Some(joined.avatars) && s.ships == Some(joined.ships)
    && s.sprites == joined.sprites && s.playerData.Some?
    && Items(s.playerData.value) == Items(joined.payload)
    && s.playerData.value.itemArchetypes == joined.payload.itemArchetypes
  }

  /** After the join: the joined collections settle what the lookups
      started from, the session holds them, and `current` counts the hits
      and the successful fetches out of the `total` images. */
  ghost predicate ImagesJoined(s: SttApi.Session, joined: Gallery, raw: Gallery, images: Images, current: nat, total: nat)
    reads s
  {
    && Settles(joined, raw, images)
    && total == ImageTotal(raw) && current <= total
    && current == total - |StagedTasks(raw, images.cached)| + Succeeded(StagedTasks(raw, images.cached), images.resolve)
    && HoldsJoined(s, joined)
  }

  /** How the sequence ends once every loader has succeeded: the crew
      match rejects, or the missions stage, when it runs, rejects, or the
      sequence completes. */
  function Ending(crew: Option<seq<RosterEntry>>, loadMissions: bool, load: MissionTools.MissionLoad): Outcome {
    if crew.None? then CrewRejected
    else if loadMissions && load.result.Err? then MissionsRejected(load.result.error)
    else Done
  }

  /** The end of the sequence once every loader has succeeded, given the
      crew match and the missions load: the outcome is their `Ending`, and
      when the missions stage runs, the stored missions (`missions0`
      before it) and the quest cache are the load's. */
  predicate EndsAfterLoaders(crew: Option<seq<RosterEntry>>, load: MissionTools.MissionLoad, loadMissions: bool,
                             outcome: Outcome, missions0: Option<seq<MissionData>>, missions: Option<seq<MissionData>>,
                             questCache: map<int, QuestDetails>)
  {
    && outcome == Ending(crew, loadMissions, load)
    && (crew.Some? && loadMissions ==>
          && missions == (if load.result.Ok? then Some(load.result.value) else missions0)
          && questCache == load.cache)
  }

  /** The image stages up to their join, seen as a whole: the joined
      collections settle what the lookups started from, and the counters
      count the images. */
  method ImageStages(s: SttApi.Session, images: Images, immortals: string -> Option<CrewData>,
                     fetch: seq<int> -> EquipmentTools.FetchResult, fuel: nat)
    returns (ok: bool, log: seq<string>, current: nat, total: nat, ghost raw: Gallery, ghost joined: Gallery)
    requires s.crewAvatars.Some? && s.platformConfig.Some? && s.shipSchematics.Some?
    requires s.playerData.Some? && s.serverConfig.Some?
    modifies s`immortalsCache, s`roster, s`crewAvatars, s`shipSchematics, s`ships, s`playerData,
             s`equipmentCache, s`sprites
    ensures ok == CrewTools.MatchCrewSpec(old(s.crewAvatars.value), old(s.playerData.value.player.character),
                                          old(s.platformConfig.value.traitNames), old(s.immortalsCache), immortals).Some?
    ensures !ok ==> s.roster == old(s.roster) && s.playerData == old(s.playerData)
    ensures ok ==> ImagesJoined(s, joined, raw, images, current, total) && s.playerData == Some(joined.payload)
    ensures ok ==> s.playerData.value.player
                   == old(s.playerData.value.player).(character := old(s.playerData.value.player.character)
                                                                    .(items := Items(s.playerData.value)))
  {
    joined := EMPTY_GALLERY;
    ok, log, current, total, raw := CacheImages(s, images, immortals, fetch, fuel);
    if !ok {
      return;
    }
    joined := SessionGallery(s);
    JoinSettles(raw, images);
    CounterBound(raw, images);
  }

  /** The missions stage after the join: it leaves the joined collections
      as they are. */
  method MissionsAfterJoin(s: SttApi.Session, ghost joined: Gallery, info: seq<int> -> Result<seq<MissionInfo>, string>,
                           conflict: int -> Result<MissionTools.ConflictReply, string>,
                           successOf: seq<MissionData> -> seq<seq<Candidate>>)
    returns (failure: Option<string>, log: seq<string>)
    requires HoldsJoined(s, joined)
    modifies s`playerData, s`questCache, s`missions, s`missionSuccess
    ensures HoldsJoined(s, joined)
    ensures var load := MissionStageLoad(old(s.playerData.value.player.character), old(s.LoggedIn()),
                                         old(s.questCache), info, conflict);
            && failure == (if load.result.Err? then Some(load.result.error) else None)
            && s.missions == (if load.result.Ok? then Some(load.result.value) else old(s.missions))
            && s.missionSuccess == (if load.result.Ok? then successOf(load.result.value) else old(s.missionSuccess))
            && s.questCache == load.cache
  {
    ghost var payload := s.playerData.value;
    failure, log := MissionStage(s, info, conflict, successOf);
    assert Items(s.playerData.value) == Items(payload)
           && s.playerData.value.itemArchetypes == payload.itemArchetypes;
  }

  /** Everything after the loaders: the image stages up to their single
      join, then, when `loadMissions` holds, the missions stage. */
  method AfterLoaders(s: SttApi.Session, images: Images, immortals: string -> Option<CrewData>,
                      fetch: seq<int> -> EquipmentTools.FetchResult, fuel: nat, loadMissions: bool,
                      info: seq<int> -> Result<seq<MissionInfo>, string>, conflict: int -> Result<MissionTools.ConflictReply, string>,
                      successOf: seq<MissionData> -> seq<seq<Candidate>>)
    returns (outcome: Outcome, log: seq<string>, current: nat, total: nat, ghost raw: Gallery, ghost joined: Gallery)
    requires s.crewAvatars.Some? && s.platformConfig.Some? && s.shipSchematics.Some?
    requires s.playerData.Some? && s.serverConfig.Some?
    modifies s`immortalsCache, s`roster, s`crewAvatars, s`shipSchematics, s`ships, s`playerData,
             s`equipmentCache, s`sprites, s`questCache, s`missions, s`missionSuccess
    ensures var crew := CrewTools.MatchCrewSpec(old(s.crewAvatars.value), old(s.playerData.value.player.character),
                                                old(s.platformConfig.value.traitNames), old(s.immortalsCache), immortals);
            var load := MissionStageLoad(old(s.playerData.value.player.character), old(s.LoggedIn()),
                                         old(s.questCache), info, conflict);
            EndsAfterLoaders(crew, load, loadMissions, outcome, old(s.missions), s.missions, s.questCache)
    ensures outcome.CrewRejected? ==> s.roster == old(s.roster) && s.playerData == old(s.playerData)
    ensures outcome.Done? || outcome.MissionsRejected? ==>
              ImagesJoined(s, joined, raw, images, current, total)
    ensures (outcome.Done? || outcome.MissionsRejected?) && !loadMissions ==>
              s.playerData == Some(joined.payload) && s.missions == old(s.missions)
  {
    var ok;
    ok, log, current, total, raw, joined := ImageStages(s, images, immortals, fetch, fuel);
    if !ok {
      outcome := CrewRejected;
      return;
    }
    outcome := Done;
    if loadMissions {
      assert s.questCache == old(s.questCache) && s.LoggedIn() == old(s.LoggedIn());
      assert MissionStageLoad(s.playerData.value.player.character, s.LoggedIn(), s.questCache, info, conflict)
             == MissionStageLoad(old(s.playerData.value.player.character), old(s.LoggedIn()), old(s.questCache), info, conflict);
      var failure, missionLog := MissionsAfterJoin(s, joined, info, conflict, successOf);
      log := log + missionLog;
      if failure.Some? {
        outcome := MissionsRejected(failure.value);
      }
    }
  }

  /** `loginSequence`: the loaders, the image stages up to their single
      join, then, when `loadMissions` holds, the missions stage. `raw` names
      the collections as they were before their lookups, and `joined` the
      collections right after the join. */
  method Run(s: SttApi.Session, res: Responses, images: Images, immortals: string -> Option<CrewData>,
             fetch: seq<int> -> EquipmentTools.FetchResult, fuel: nat, loadMissions: bool,
             info: seq<int> -> Result<seq<MissionInfo>, string>, conflict: int -> Result<MissionTools.ConflictReply, string>,
             successOf: seq<MissionData> -> seq<seq<Candidate>>)
    returns (outcome: Outcome, log: seq<string>, current: nat, total: nat, ghost raw: Gallery, ghost joined: Gallery)
    modifies s`crewAvatars, s`serverConfig, s`platformConfig, s`shipSchematics, s`playerData,
             s`fleetMemberInfo, s`fleetData, s`starbaseData, s`immortalsCache, s`roster, s`ships,
             s`equipmentCache, s`sprites, s`questCache, s`missions, s`missionSuccess
    ensures var plan := LoaderPlan(old(Loaded(s)), res);
            && |StageMessages(plan.announced)| <= |log|
            && log[..|StageMessages(plan.announced)|] == StageMessages(plan.announced)
            && (plan.failed.Some? ==> outcome == LoaderRejected(plan.failed.value) && log == StageMessages(plan.announced))
    ensures LoaderPlan(old(Loaded(s)), res).failed == None ==>
              && res.avatars.Some? && res.platformConfig.Some? && res.payload.Some?
              && var crew := CrewTools.MatchCrewSpec(res.avatars.value, res.payload.value.player.character,
                                                     res.platformConfig.value.traitNames, old(s.immortalsCache), immortals);
                 var load := MissionStageLoad(res.payload.value.player.character, old(s.LoggedIn()),
                                              old(s.questCache), info, conflict);
                 EndsAfterLoaders(crew, load, loadMissions, outcome, old(s.missions), s.missions, s.questCache)
    ensures outcome.Done? || outcome.MissionsRejected? ==>
              ImagesJoined(s, joined, raw, images, current, total)
    ensures (outcome.Done? || outcome.MissionsRejected?) && !loadMissions ==>
              s.playerData == Some(joined.payload) && s.missions == old(s.missions)
  {
    current, total := 0, 0;
    raw, joined := EMPTY_GALLERY, EMPTY_GALLERY;
    var failed;
    failed, log := LoadResources(s, res);
    if failed.Some? {
      outcome := LoaderRejected(failed.value);
      return;
    }
    LoaderMainLoaded(old(Loaded(s)), res);
    assert s.immortalsCache == old(s.immortalsCache) && s.questCache == old(s.questCache)
           && s.missions == old(s.missions) && s.LoggedIn() == old(s.LoggedIn());
    ghost var loaderLog := log;
    var rest;
    outcome, rest, current, total, raw, joined :=
      AfterLoaders(s, images, immortals, fetch, fuel, loadMissions, info, conflict, successOf);
    log := log + rest;
    assert log[..|loaderLog|] == loaderLog;
  }
}

=== FILE: misc_tools.dfy ===
/** `formatTimeSeconds`: a duration in seconds rendered as days, hours,
    minutes and seconds, each shown only when non-zero. */
module MiscTools {
  import opened Wrappers

  predicate IsDigit(c: char) {
    '0' <= c <= '9'
  }

  function DigitChar(d: nat): (c: char)
    requires d < 10
    ensures IsDigit(c)
  {
    ('0' as int + d) as char
  }

  predicate AllDigits(s: string) {
    forall i :: 0 <= i < |s| ==> IsDigit(s[i])
  }

  /** The decimal rendering of a natural number (what `n + ''` gives). */
  function NatToString(n: nat): (s: string)
    ensures |s| >= 1 && AllDigits(s)
  {
    if n < 10 then [DigitChar(n)] else NatToString(n / 10) + [DigitChar(n % 10)]
  }

  /** A JavaScript integer as text: a minus sign before negatives. */
  function IntToString(v: int): string {
    if v < 0 then "-" + NatToString(-v) else NatToString(v)
  }

  /** Reads a string of decimal digits, most significant first. */
  function DecimalValue(s: string): nat {
    if s == [] then 0
    else
      var c := s[|s| - 1];
      10 * DecimalValue(s[..|s| - 1]) + (if IsDigit(c) then (c - '0') as nat else 0)
  }

  lemma {:induction false} NatToStringRoundTrip(n: nat)
    ensures DecimalValue(NatToString(n)) == n
  {
    var s := NatToString(n);
    if n >= 10 {
      NatToStringRoundTrip(n / 10);
      assert s[..|s| - 1] == NatToString(n / 10);
    }
  }

  /** The four displayed components of a duration. */
  datatype Duration = Duration(days: nat, hours: nat, minutes: nat, seconds: nat)

  /** `h = floor(s / 3600)`, `d = floor(h / 24)`, `h = h - 24 d`,
      `m = floor(s % 3600 / 60)`, `s = s % 3600 % 60`. The components add
      back up to the input and each but the days is within its range. */
  function Components(seconds: nat): (c: Duration)
    ensures c.days * 86400 + c.hours * 3600 + c.minutes * 60 + c.seconds == seconds
    ensures c.hours < 24 && c.minutes < 60 && c.seconds < 60
  {
    var h := seconds / 3600;
    var d := h / 24;
    Duration(d, h - d * 24, seconds % 3600 / 60, seconds % 3600 % 60)
  }

  /** Any in-range decomposition of `seconds` is the one `Components` gives. */
  lemma ComponentsUnique(seconds: nat, c: Duration)
    requires c.days * 86400 + c.hours * 3600 + c.minutes * 60 + c.seconds == seconds
    requires c.hours < 24 && c.minutes < 60 && c.seconds < 60
    ensures c == Components(seconds)
  {
    var r := c.hours * 3600 + c.minutes * 60 + c.seconds;
    assert 0 <= r < 86400;
    assert seconds == c.days * 86400 + r;
    assert seconds / 86400 == c.days;
    var k := c.minutes * 60 + c.seconds;
    assert 0 <= k < 3600;
    assert seconds == (c.days * 24 + c.hours) * 3600 + k;
    assert seconds / 3600 == c.days * 24 + c.hours;
    assert seconds % 3600 == k;
    assert k / 60 == c.minutes && k % 60 == c.seconds;
  }

  /** `n + unit` when `n > 0`, and nothing otherwise. */
  function Part(n: nat, unit: string): string {
    if n > 0 then NatToString(n) + unit else ""
  }

  function FormatTimeSeconds(seconds: nat): string {
    var c := Components(seconds);
    Part(c.days, "D ") + Part(c.hours, "H ") + Part(c.minutes, "M ") + Part(c.seconds, "S")
  }

  /** Only a zero duration renders as the empty string. */
  lemma FormatEmptyIffZero(seconds: nat)
    ensures FormatTimeSeconds(seconds) == "" <==> seconds == 0
  {
    var c := Components(seconds);
    if seconds != 0 {
      assert c.days > 0 || c.hours > 0 || c.minutes > 0 || c.seconds > 0;
      if c.days > 0 { assert |Part(c.days, "D ")| > 0; }
      else if c.hours > 0 { assert |Part(c.hours, "H ")| > 0; }
      else if c.minutes > 0 { assert |Part(c.minutes, "M ")| > 0; }
      else { assert |Part(c.seconds, "S")| > 0; }
    }
  }

  // ---------------------------------------------------------------- reading back

  function UnitSeconds(u: char): Option<nat> {
    if u == 'D' then Some(86400)
    else if u == 'H' then Some(3600)
    else if u == 'M' then Some(60)
    else if u == 'S' then Some(1)
    else None
  }

  /** The length of the run of digits that starts `t`. */
  function DigitRun(t: string): (k: nat)
    ensures k <= |t|
  {
    if t != [] && IsDigit(t[0]) then 1 + DigitRun(t[1..]) else 0
  }

  function AddTo(a: nat, o: Option<nat>): Option<nat> {
    match o
    case None => None
    case Some(v) => Some(a + v)
  }

  /** Reads a rendered duration back: a sequence of `<digits><unit>`
      groups, each optionally followed by one space. */
  function ParseTime(t: string): Option<nat>
    decreases |t|
  {
    if t == [] then Some(0)
    else
      var k := DigitRun(t);
      if k == 0 || k == |t| || UnitSeconds(t[k]).None? then None
      else
        var rest := t[k + 1..];
        var rest' := if rest != [] && rest[0] == ' ' then rest[1..] else rest;
        AddTo(DecimalValue(t[..k]) * UnitSeconds(t[k]).value, ParseTime(rest'))
  }

  lemma {:induction false} DigitRunOfNumber(ds: string, rest: string)
    requires AllDigits(ds)
    requires rest == [] || !IsDigit(rest[0])
    ensures DigitRun(ds + rest) == |ds|
  {
    if ds != [] {
      assert (ds + rest)[1..] == ds[1..] + rest;
      DigitRunOfNumber(ds[1..], rest);
    }
  }

  /** A group of digits, a unit and a space parse to the group's share
      followed by whatever the rest parses to. */
  lemma GroupThenSpace(ds: string, u: char, rest: string)
    requires |ds| >= 1 && AllDigits(ds)
    requires UnitSeconds(u).Some?
    ensures ParseTime(ds + [u, ' '] + rest) == AddTo(DecimalValue(ds) * UnitSeconds(u).value, ParseTime(rest))
  {
    var t := ds + [u, ' '] + rest;
    assert t == ds + ([u, ' '] + rest);
    DigitRunOfNumber(ds, [u, ' '] + rest);
    assert t[..|ds|] == ds;
    assert t[|ds| + 1..] == [' '] + rest;
  }

  /** One component and its unit parse to the component's share. */
  lemma SpacedPart(n: nat, suffix: string, u: char, unit: nat, rest: string)
    requires suffix == [u, ' '] && UnitSeconds(u) == Some(unit)
    ensures ParseTime(Part(n, suffix) + rest) == AddTo(n * unit, ParseTime(rest))
  {
    if n > 0 {
      var ds := NatToString(n);
      assert Part(n, suffix) + rest == ds + [u, ' '] + rest;
      GroupThenSpace(ds, u, rest);
      NatToStringRoundTrip(n);
    } else {
      assert Part(n, suffix) + rest == rest;
      assert n * unit == 0;
      match ParseTime(rest) { case None => case Some(_) => }
    }
  }

  lemma SecondsPart(n: nat)
    ensures ParseTime(Part(n, "S")) == Some(n)
  {
    if n > 0 {
      var ds := NatToString(n);
      var t := ds + "S";
      DigitRunOfNumber(ds, "S");
      assert t[..|ds|] == ds;
      assert t[|ds|] == 'S';
      assert t[|ds| + 1..] == [];
      NatToStringRoundTrip(n);
    }
  }

  lemma MinutesSecondsRoundTrip(m: nat, s: nat)
    ensures ParseTime(Part(m, "M ") + Part(s, "S")) == Some(m * 60 + s)
  {
    var rest := Part(s, "S");
    SecondsPart(s);
    SpacedPart(m, "M ", 'M', 60, rest);
    assert AddTo(m * 60, Some(s)) == Some(m * 60 + s);
  }

  lemma HoursRoundTrip(h: nat, m: nat, s: nat)
    ensures ParseTime(Part(h, "H ") + (Part(m, "M ") + Part(s, "S"))) == Some(h * 3600 + m * 60 + s)
  {
    var rest := Part(m, "M ") + Part(s, "S");
    MinutesSecondsRoundTrip(m, s);
    SpacedPart(h, "H ", 'H', 3600, rest);
    assert AddTo(h * 3600, Some(m * 60 + s)) == Some(h * 3600 + m * 60 + s);
  }

  /** The four parts, read back together, add up their shares. */
  lemma PartsRoundTrip(d: nat, h: nat, m: nat, s: nat, v: nat)
    requires v == d * 86400 + h * 3600 + m * 60 + s
    ensures ParseTime(Part(d, "D ") + (Part(h, "H ") + (Part(m, "M ") + Part(s, "S")))) == Some(v)
  {
    var rest := Part(h, "H ") + (Part(m, "M ") + Part(s, "S"));
    HoursRoundTrip(h, m, s);
    SpacedPart(d, "D ", 'D', 86400, rest);
    assert AddTo(d * 86400, Some(h * 3600 + m * 60 + s)) == Some(d * 86400 + h * 3600 + m * 60 + s);
  }

  /** Reading a rendered duration gives back the number of seconds, so no
      two durations share a rendering. */
  lemma FormatTimeRoundTrip(seconds: nat)
    ensures ParseTime(FormatTimeSeconds(seconds)) == Some(seconds)
  {
    var c := Components(seconds);
    var t := Part(c.days, "D ") + (Part(c.hours, "H ") + (Part(c.minutes, "M ") + Part(c.seconds, "S")));
    assert FormatTimeSeconds(seconds) == t;
    PartsRoundTrip(c.days, c.hours, c.minutes, c.seconds, seconds);
  }

  lemma FormatTimeInjective(a: nat, b: nat)
    requires FormatTimeSeconds(a) == FormatTimeSeconds(b)
    ensures a == b
  {
    FormatTimeRoundTrip(a);
    FormatTimeRoundTrip(b);
  }
}

=== FILE: mission_tools.dfy ===
/** Loading the mission list: the accepted missions with their playable
    quests, and the episodes (dispute histories) shown as missions. */
module MissionTools {
  import opened Wrappers
  import opened Entities
  import MiscTools
  import Text
  import SttApi

  /** The tutorial episode's mission, which is never requested or listed. */
  const TUTORIAL_MISSION := "mission_npev2"
  /** The tutorial dispute, which is skipped everywhere. */
  const TUTORIAL_DISPUTE := "dispute_logic_under_fire_NPE"
  const CONFLICT_QUEST := "ConflictQuest"
  /** The description given to every quest that is not a conflict. */
  const SHIP_BATTLE := "Ship battle"
  /** The rejection of a conflict reply without mastery levels. */
  const INVALID_CONFLICT := "Invalid data for quest conflict!"

  /** The reply of `quest/conflict_info`; `masteryLevels` is `None` when the
      reply carries no `mastery_levels`. */
  datatype ConflictReply = ConflictReply(description: string, challenges: Blob,
                                         masteryLevels: Option<Blob>, cadet: Blob,
                                         crewRequirement: Blob)

  /** A quest after its load, the quest cache after it, and the reason the
      load rejected (`None` when it resolved). */
  datatype Loaded = Loaded(quest: Quest, cache: map<int, QuestDetails>, failure: Option<string>)

  /** A quest list after its loads, the quest cache, and the first
      rejection among the loads (`None` when every load resolved). */
  datatype LoadedList = LoadedList(quests: seq<Quest>, cache: map<int, QuestDetails>, failure: Option<string>)

  /** The rejection `Promise.all` reports for two groups of loads: the
      earlier group's, if it has one. */
  function Earlier(a: Option<string>, b: Option<string>): (r: Option<string>)
    ensures r.None? <==> a.None? && b.None?
    ensures a.Some? ==> r == a
  {
    if a.Some? then a else b
  }

  // ---------------------------------------------------------------- mission ids

  /** Ids of the accepted missions other than the tutorial, in order. */
  function AcceptedIds(accepted: seq<AcceptedMission>): seq<int> {
    if accepted == [] then []
    else
      var m := accepted[|accepted| - 1];
      AcceptedIds(accepted[..|accepted| - 1]) + (if m.symbol != TUTORIAL_MISSION then [m.id] else [])
  }

  /** The mission ids of the disputes other than the tutorial, concatenated. */
  function DisputeIds(disputes: seq<Dispute>): seq<int> {
    if disputes == [] then []
    else
      var d := disputes[|disputes| - 1];
      DisputeIds(disputes[..|disputes| - 1]) + (if d.symbol != TUTORIAL_DISPUTE then d.missionIds else [])
  }

  /** The ids sent to `mission/info`. */
  function RequestedIds(accepted: seq<AcceptedMission>, disputes: Option<seq<Dispute>>): seq<int> {
    AcceptedIds(accepted) + (if disputes.Some? then DisputeIds(disputes.value) else [])
  }

  lemma {:induction false} AcceptedIdsExact(accepted: seq<AcceptedMission>)
    ensures forall id :: id in AcceptedIds(accepted) <==>
              exists i :: 0 <= i < |accepted| && accepted[i].symbol != TUTORIAL_MISSION && accepted[i].id == id
  {
    if accepted != [] {
      var init := accepted[..|accepted| - 1];
      AcceptedIdsExact(init);
      assert forall i :: 0 <= i < |init| ==> init[i] == accepted[i];
    }
  }

  lemma {:induction false} DisputeIdsExact(disputes: seq<Dispute>)
    ensures forall id :: id in DisputeIds(disputes) <==>
              exists j :: 0 <= j < |disputes| && disputes[j].symbol != TUTORIAL_DISPUTE && id in disputes[j].missionIds
  {
    if disputes != [] {
      var init := disputes[..|disputes| - 1];
      DisputeIdsExact(init);
      assert forall j :: 0 <= j < |init| ==> init[j] == disputes[j];
    }
  }

  /** An id is requested exactly when a non-tutorial accepted mission has it
      or a non-tutorial dispute lists it; the accepted missions come first. */
  lemma RequestedIdsExact(accepted: seq<AcceptedMission>, disputes: Option<seq<Dispute>>)
    ensures RequestedIds(accepted, disputes)[..|AcceptedIds(accepted)|] == AcceptedIds(accepted)
    ensures forall id :: id in RequestedIds(accepted, disputes) <==>
              (exists i :: 0 <= i < |accepted| && accepted[i].symbol != TUTORIAL_MISSION && accepted[i].id == id)
              || (disputes.Some?
                  && exists j :: 0 <= j < |disputes.value|
                                 && disputes.value[j].symbol != TUTORIAL_DISPUTE
                                 && id in disputes.value[j].missionIds)
  {
    AcceptedIdsExact(accepted);
    if disputes.Some? {
      DisputeIdsExact(disputes.value);
    }
  }

  /** The two `forEach` loops that build `mission_ids`. */
  method CollectMissionIds(accepted: seq<AcceptedMission>, disputes: Option<seq<Dispute>>) returns (ids: seq<int>)
    ensures ids == RequestedIds(accepted, disputes)
  {
    ids := [];
    var i := 0;
    while i < |accepted|
      invariant 0 <= i <= |accepted|
      invariant ids == AcceptedIds(accepted[..i])
    {
      assert accepted[..i + 1][..i] == accepted[..i];
      if accepted[i].symbol != TUTORIAL_MISSION {
        ids := ids + [accepted[i].id];
      }
      i := i + 1;
    }
    assert accepted[..i] == accepted;
    if disputes.Some? {
      var ds := disputes.value;
      var more: seq<int> := [];
      var j := 0;
      while j < |ds|
        invariant 0 <= j <= |ds|
        invariant more == DisputeIds(ds[..j])
      {
        assert ds[..j + 1][..j] == ds[..j];
        if ds[j].symbol != TUTORIAL_DISPUTE {
          more := more + ds[j].missionIds;
        }
        j := j + 1;
      }
      assert ds[..j] == ds;
      ids := ids + more;
    }
  }

  // ---------------------------------------------------------------- one quest

  /** The fields a load never changes. */
  predicate SameQuest(a: Quest, b: Quest) {
    a.id == b.id && a.name == b.name && a.locked == b.locked && a.questType == b.questType
  }

  /** `loadConflictInfo` given the server's answer: a rejected request
      rejects with its own reason, a reply without mastery levels rejects
      with `INVALID_CONFLICT`, and both change nothing; otherwise the quest
      takes the reply's fields and the cache stores them under the quest's
      id. */
  function ConflictLoad(cache: map<int, QuestDetails>, quest: Quest,
                        reply: Result<ConflictReply, string>): (r: Loaded)
    ensures r.failure.None? <==> reply.Ok? && reply.value.masteryLevels.Some?
    ensures reply.Err? ==> r.failure == Some(reply.error)
    ensures reply.Ok? && reply.value.masteryLevels.None? ==> r.failure == Some(INVALID_CONFLICT)
    ensures r.failure.Some? ==> r.quest == quest && r.cache == cache
    ensures r.failure.None? ==> r.quest.details.Some? && r.cache == cache[quest.id := r.quest.details.value]
    ensures r.failure.None? ==> r.quest.description == reply.value.description
                                && r.quest.details.value.masteryLevels == reply.value.masteryLevels.value
                                && r.quest.details.value.challenges == reply.value.challenges
    ensures SameQuest(r.quest, quest)
  {
    if reply.Err? then Loaded(quest, cache, Some(reply.error))
    else if reply.value.masteryLevels.None? then Loaded(quest, cache, Some(INVALID_CONFLICT))
    else
      var data := reply.value;
      var d := QuestDetails(data.description, data.challenges, data.masteryLevels.value,
                            data.cadet, data.crewRequirement);
      Loaded(quest.(description := d.description, details := Some(d)), cache[quest.id := d], None)
  }

  /** `loadQuestData`: a completed quest found in the cache takes the cached
      fields without asking the server; anything else asks the server. */
  function QuestDataLoad(cache: map<int, QuestDetails>, completed: bool, quest: Quest,
                         conflict: int -> Result<ConflictReply, string>): (r: Loaded)
    ensures completed && quest.id in cache ==>
              r.failure.None? && r.cache == cache && r.quest.details == Some(cache[quest.id])
              && r.quest.description == cache[quest.id].description
    ensures !(completed && quest.id in cache) ==> r == ConflictLoad(cache, quest, conflict(quest.id))
    ensures SameQuest(r.quest, quest)
  {
    if completed && quest.id in cache then
      Loaded(quest.(description := cache[quest.id].description, details := Some(cache[quest.id])), cache, None)
    else ConflictLoad(cache, quest, conflict(quest.id))
  }

  /** The server is consulted only when the quest is not both completed and cached. */
  lemma CacheHitIgnoresServer(cache: map<int, QuestDetails>, completed: bool, quest: Quest,
                              conflict1: int -> Result<ConflictReply, string>, conflict2: int -> Result<ConflictReply, string>)
    requires completed && quest.id in cache
    ensures QuestDataLoad(cache, completed, quest, conflict1) == QuestDataLoad(cache, completed, quest, conflict2)
  {
  }

  /** What happens to an eligible quest: a conflict is loaded with the
      given `completed` flag, any other quest becomes a ship battle. */
  function Prepare(cache: map<int, QuestDetails>, completed: bool, quest: Quest,
                   conflict: int -> Result<ConflictReply, string>): (r: Loaded)
    ensures SameQuest(r.quest, quest)
    ensures quest.questType != CONFLICT_QUEST ==>
              r.failure.None? && r.cache == cache && r.quest == quest.(description := SHIP_BATTLE)
    ensures quest.questType == CONFLICT_QUEST ==> r == QuestDataLoad(cache, completed, quest, conflict)
    ensures cache.Keys <= r.cache.Keys
    ensures forall k :: k in cache && k != quest.id ==> r.cache[k] == cache[k]
  {
    if quest.questType == CONFLICT_QUEST then QuestDataLoad(cache, completed, quest, conflict)
    else Loaded(quest.(description := SHIP_BATTLE), cache, None)
  }

  /** `loadConflictInfo`. `conflict` stands for the server: it answers a
      quest id with the reply, or with the reason the request was
      rejected. */
  method LoadConflictInfo(s: SttApi.Session, quest: Quest, conflict: int -> Result<ConflictReply, string>)
    returns (q: Quest, failure: Option<string>)
    modifies s`questCache
    ensures Loaded(q, s.questCache, failure) == ConflictLoad(old(s.questCache), quest, conflict(quest.id))
  {
    var reply := conflict(quest.id);
    if reply.Err? {
      q, failure := quest, Some(reply.error);
      return;
    }
    var data := reply.value;
    if data.masteryLevels.Some? {
      var details := QuestDetails(data.description, data.challenges, data.masteryLevels.value,
                                  data.cadet, data.crewRequirement);
      q := quest.(description := data.description, details := Some(details));
      s.questCache := s.questCache[quest.id := details];
      failure := None;
    } else {
      q, failure := quest, Some(INVALID_CONFLICT);
    }
  }

  /** `loadQuestData`. */
  method LoadQuestData(s: SttApi.Session, completed: bool, quest: Quest, conflict: int -> Result<ConflictReply, string>)
    returns (q: Quest, failure: Option<string>)
    modifies s`questCache
    ensures Loaded(q, s.questCache, failure) == QuestDataLoad(old(s.questCache), completed, quest, conflict)
  {
    if completed && quest.id in s.questCache {
      var entry := s.questCache[quest.id];
      q, failure := quest.(description := entry.description, details := Some(entry)), None;
    } else {
      q, failure := LoadConflictInfo(s, quest, conflict);
    }
  }

  /** The branch on the quest type for an eligible quest. */
  method PrepareQuest(s: SttApi.Session, completed: bool, quest: Quest, conflict: int -> Result<ConflictReply, string>)
    returns (q: Quest, failure: Option<string>)
    modifies s`questCache
    ensures Loaded(q, s.questCache, failure) == Prepare(old(s.questCache), completed, quest, conflict)
  {
    if quest.questType == CONFLICT_QUEST {
      q, failure := LoadQuestData(s, completed, quest, conflict);
    } else {
      q, failure := quest.(description := SHIP_BATTLE), None;
    }
  }

  // ---------------------------------------------------------------- a titled mission

  /** A quest is kept when it is unlocked and has a name. */
  predicate Eligible(q: Quest) {
    !q.locked && q.name != ""
  }

  function EligibleQuests(quests: seq<Quest>): seq<Quest> {
    if quests == [] then []
    else
      var q := quests[|quests| - 1];
      EligibleQuests(quests[..|quests| - 1]) + (if Eligible(q) then [q] else [])
  }

  /** The quests of a mission with a title: each eligible quest, loaded. */
  function MissionQuests(cache: map<int, QuestDetails>, completed: bool, quests: seq<Quest>,
                         conflict: int -> Result<ConflictReply, string>): LoadedList {
    if quests == [] then LoadedList([], cache, None)
    else
      var prev := MissionQuests(cache, completed, quests[..|quests| - 1], conflict);
      var q := quests[|quests| - 1];
      if Eligible(q) then
        var l := Prepare(prev.cache, completed, q, conflict);
        LoadedList(prev.quests + [l.quest], l.cache, Earlier(prev.failure, l.failure))
      else prev
  }

  /** A titled mission's quests are its eligible quests, in order (as far as
      the fields a load keeps), every non-conflict one a ship battle, and the
      cache only gains keys. */
  lemma {:induction false} MissionQuestsShape(cache: map<int, QuestDetails>, completed: bool,
                                             quests: seq<Quest>, conflict: int -> Result<ConflictReply, string>)
    ensures |MissionQuests(cache, completed, quests, conflict).quests| == |EligibleQuests(quests)|
    ensures forall k :: 0 <= k < |EligibleQuests(quests)| ==>
              SameQuest(MissionQuests(cache, completed, quests, conflict).quests[k], EligibleQuests(quests)[k])
    ensures forall k :: 0 <= k < |EligibleQuests(quests)| && EligibleQuests(quests)[k].questType != CONFLICT_QUEST ==>
              MissionQuests(cache, completed, quests, conflict).quests[k] == EligibleQuests(quests)[k].(description := SHIP_BATTLE)
    ensures cache.Keys <= MissionQuests(cache, completed, quests, conflict).cache.Keys
  {
    if quests != [] {
      MissionQuestsShape(cache, completed, quests[..|quests| - 1], conflict);
    }
  }

  /** The eligible quests are exactly the unlocked, named ones. */
  lemma {:induction false} EligibleQuestsExact(quests: seq<Quest>)
    ensures forall q :: q in EligibleQuests(quests) <==> q in quests && Eligible(q)
  {
    if quests != [] {
      var init := quests[..|quests| - 1];
      EligibleQuestsExact(init);
      assert quests == init + [quests[|quests| - 1]];
    }
  }

  /** The `mission.quests.forEach` of a titled mission. */
  method FillMissionQuests(s: SttApi.Session, completed: bool, quests: seq<Quest>, conflict: int -> Result<ConflictReply, string>)
    returns (kept: seq<Quest>, failure: Option<string>)
    modifies s`questCache
    ensures LoadedList(kept, s.questCache, failure) == MissionQuests(old(s.questCache), completed, quests, conflict)
  {
    ghost var cache0 := s.questCache;
    kept, failure := [], None;
    var i := 0;
    while i < |quests|
      invariant 0 <= i <= |quests|
      invariant LoadedList(kept, s.questCache, failure) == MissionQuests(cache0, completed, quests[..i], conflict)
    {
      assert quests[..i + 1][..i] == quests[..i];
      var quest := quests[i];
      if Eligible(quest) {
        var q, loaded := PrepareQuest(s, completed, quest, conflict);
        kept, failure := kept + [q], Earlier(failure, loaded);
      }
      i := i + 1;
    }
    assert quests[..i] == quests;
  }

  // ---------------------------------------------------------------- an episode's quests

  predicate HasQuestId(quests: seq<Quest>, id: int) {
    exists k :: 0 <= k < |quests| && quests[k].id == id
  }

  /** No two quests share an id. */
  predicate DistinctIds(quests: seq<Quest>) {
    forall i, j :: 0 <= i < j < |quests| ==> quests[i].id != quests[j].id
  }

  /** A mission's quests merged into a dispute's list: an eligible quest is
      loaded and appended unless a quest with its id is already there. */
  function MergeQuests(cache: map<int, QuestDetails>, completed: bool, existing: seq<Quest>,
                       quests: seq<Quest>, conflict: int -> Result<ConflictReply, string>): LoadedList {
    if quests == [] then LoadedList(existing, cache, None)
    else
      var prev := MergeQuests(cache, completed, existing, quests[..|quests| - 1], conflict);
      var q := quests[|quests| - 1];
      if Eligible(q) && !HasQuestId(prev.quests, q.id) then
        var l := Prepare(prev.cache, completed, q, conflict);
        LoadedList(prev.quests + [l.quest], l.cache, Earlier(prev.failure, l.failure))
      else prev
  }

  /** The dispute keeps its quests in front, never gains a second quest with
      the same id, and every appended quest is an eligible quest of the mission. */
  lemma {:induction false} MergeQuestsExtends(cache: map<int, QuestDetails>, completed: bool, existing: seq<Quest>,
                                             quests: seq<Quest>, conflict: int -> Result<ConflictReply, string>)
    ensures |existing| <= |MergeQuests(cache, completed, existing, quests, conflict).quests|
    ensures MergeQuests(cache, completed, existing, quests, conflict).quests[..|existing|] == existing
    ensures DistinctIds(existing) ==> DistinctIds(MergeQuests(cache, completed, existing, quests, conflict).quests)
    ensures forall k :: |existing| <= k < |MergeQuests(cache, completed, existing, quests, conflict).quests| ==>
              exists j :: 0 <= j < |quests| && Eligible(quests[j])
                          && SameQuest(MergeQuests(cache, completed, existing, quests, conflict).quests[k], quests[j])
  {
    if quests != [] {
      var init := quests[..|quests| - 1];
      MergeQuestsExtends(cache, completed, existing, init, conflict);
      var prev := MergeQuests(cache, completed, existing, init, conflict);
      var r := MergeQuests(cache, completed, existing, quests, conflict);
      forall k | |existing| <= k < |prev.quests|
        ensures exists j :: 0 <= j < |quests| && Eligible(quests[j]) && SameQuest(r.quests[k], quests[j])
      {
        var j :| 0 <= j < |init| && Eligible(init[j]) && SameQuest(prev.quests[k], init[j]);
        assert r.quests[k] == prev.quests[k] && quests[j] == init[j];
      }
      if r.quests != prev.quests {
        var q := quests[|quests| - 1];
        assert SameQuest(r.quests[|prev.quests|], q);
        if DistinctIds(prev.quests) {
          forall i, j | 0 <= i < j < |r.quests| ensures r.quests[i].id != r.quests[j].id {
            if j == |prev.quests| {
              assert r.quests[i] == prev.quests[i];
            } else {
              assert r.quests[i] == prev.quests[i] && r.quests[j] == prev.quests[j];
            }
          }
        }
      }
    }
  }

  /** After the merge, every eligible quest of the mission has its id in the
      dispute's list. */
  lemma {:induction false} MergeQuestsCovers(cache: map<int, QuestDetails>, completed: bool, existing: seq<Quest>,
                                            quests: seq<Quest>, conflict: int -> Result<ConflictReply, string>)
    ensures forall j :: 0 <= j < |quests| && Eligible(quests[j]) ==>
              HasQuestId(MergeQuests(cache, completed, existing, quests, conflict).quests, quests[j].id)
  {
    if quests != [] {
      var init := quests[..|quests| - 1];
      MergeQuestsCovers(cache, completed, existing, init, conflict);
      MergeQuestsExtends(cache, completed, existing, init, conflict);
      var prev := MergeQuests(cache, completed, existing, init, conflict);
      var r := MergeQuests(cache, completed, existing, quests, conflict);
      assert r.quests[..|prev.quests|] == prev.quests;
      forall j | 0 <= j < |quests| && Eligible(quests[j])
        ensures HasQuestId(r.quests, quests[j].id)
      {
        if j < |init| {
          assert init[j] == quests[j];
          var k :| 0 <= k < |prev.quests| && prev.quests[k].id == quests[j].id;
          assert r.quests[k] == prev.quests[k];
        } else if !HasQuestId(prev.quests, quests[j].id) {
          assert r.quests[|prev.quests|].id == quests[j].id;
        } else {
          var k :| 0 <= k < |prev.quests| && prev.quests[k].id == quests[j].id;
          assert r.quests[k] == prev.quests[k];
        }
      }
    }
  }

  /** The `mission.quests.forEach` for one dispute that lists the mission. */
  method MergeDisputeQuests(s: SttApi.Session, completed: bool, existing: seq<Quest>, quests: seq<Quest>,
                            conflict: int -> Result<ConflictReply, string>)
    returns (merged: seq<Quest>, failure: Option<string>)
    modifies s`questCache
    ensures LoadedList(merged, s.questCache, failure) == MergeQuests(old(s.questCache), completed, existing, quests, conflict)
  {
    ghost var cache0 := s.questCache;
    merged, failure := existing, None;
    var i := 0;
    while i < |quests|
      invariant 0 <= i <= |quests|
      invariant LoadedList(merged, s.questCache, failure) == MergeQuests(cache0, completed, existing, quests[..i], conflict)
    {
      assert quests[..i + 1][..i] == quests[..i];
      var quest := quests[i];
      var present := exists k :: 0 <= k < |merged| && merged[k].id == quest.id;
      if Eligible(quest) && !present {
        var q, loaded := PrepareQuest(s, completed, quest, conflict);
        merged, failure := merged + [q], Earlier(failure, loaded);
      }
      i := i + 1;
    }
    assert quests[..i] == quests;
  }

  // ---------------------------------------------------------------- an untitled mission

  /** A dispute that takes the quests of the mission with this id. */
  predicate Lists(d: Dispute, missionId: int) {
    d.symbol != TUTORIAL_DISPUTE && missionId in d.missionIds
  }

  datatype DisputeRound = DisputeRound(disputes: seq<Dispute>, cache: map<int, QuestDetails>, failure: Option<string>)

  /** An untitled mission's quests merged into every dispute that lists it;
      a listing dispute without quests starts from an empty list. */
  function MergeIntoDisputes(cache: map<int, QuestDetails>, disputes: seq<Dispute>, mission: MissionInfo,
                             conflict: int -> Result<ConflictReply, string>): DisputeRound {
    if disputes == [] then DisputeRound([], cache, None)
    else
      var prev := MergeIntoDisputes(cache, disputes[..|disputes| - 1], mission, conflict);
      var d := disputes[|disputes| - 1];
      if Lists(d, mission.id) then
        var m := MergeQuests(prev.cache, d.starsEarned == d.totalStars,
                             if d.quests.Some? then d.quests.value else [], mission.quests, conflict);
        DisputeRound(prev.disputes + [d.(quests := Some(m.quests))], m.cache, Earlier(prev.failure, m.failure))
      else DisputeRound(prev.disputes + [d], prev.cache, prev.failure)
  }

  /** Only the quest lists of the listing disputes change, and each of them
      then holds every eligible quest of the mission. */
  lemma {:induction false} MergeIntoDisputesShape(cache: map<int, QuestDetails>, disputes: seq<Dispute>,
                                                 mission: MissionInfo, conflict: int -> Result<ConflictReply, string>)
    ensures |MergeIntoDisputes(cache, disputes, mission, conflict).disputes| == |disputes|
    ensures forall k :: 0 <= k < |disputes| ==>
              MergeIntoDisputes(cache, disputes, mission, conflict).disputes[k]
              == disputes[k].(quests := MergeIntoDisputes(cache, disputes, mission, conflict).disputes[k].quests)
    ensures forall k :: 0 <= k < |disputes| && !Lists(disputes[k], mission.id) ==>
              MergeIntoDisputes(cache, disputes, mission, conflict).disputes[k] == disputes[k]
    ensures forall k :: 0 <= k < |disputes| && Lists(disputes[k], mission.id) ==>
              MergeIntoDisputes(cache, disputes, mission, conflict).disputes[k].quests.Some?
              && forall j :: 0 <= j < |mission.quests| && Eligible(mission.quests[j]) ==>
                   HasQuestId(MergeIntoDisputes(cache, disputes, mission, conflict).disputes[k].quests.value,
                              mission.quests[j].id)
  {
    if disputes != [] {
      var n := |disputes| - 1;
      var init, d := disputes[..n], disputes[n];
      MergeIntoDisputesShape(cache, init, mission, conflict);
      var prev := MergeIntoDisputes(cache, init, mission, conflict);
      var r := MergeIntoDisputes(cache, disputes, mission, conflict);
      var existing := if d.quests.Some? then d.quests.value else [];
      var merged := MergeQuests(prev.cache, d.starsEarned == d.totalStars, existing, mission.quests, conflict);
      var last := if Lists(d, mission.id) then d.(quests := Some(merged.quests)) else d;
      assert r.disputes == prev.disputes + [last];
      if Lists(d, mission.id) {
        MergeQuestsCovers(prev.cache, d.starsEarned == d.totalStars, existing, mission.quests, conflict);
      }
      forall k | 0 <= k < |disputes|
        ensures r.disputes[k] == disputes[k].(quests := r.disputes[k].quests)
        ensures !Lists(disputes[k], mission.id) ==> r.disputes[k] == disputes[k]
        ensures Lists(disputes[k], mission.id) ==>
                  r.disputes[k].quests.Some?
                  && forall j :: 0 <= j < |mission.quests| && Eligible(mission.quests[j]) ==>
                       HasQuestId(r.disputes[k].quests.value, mission.quests[j].id)
      {
        if k < n {
          assert r.disputes[k] == prev.disputes[k] && disputes[k] == init[k];
        } else {
          assert r.disputes[k] == last && disputes[k] == d;
        }
      }
    }
  }

  /** The `dispute_histories.forEach` for a mission without a title. */
  method MergeMission(s: SttApi.Session, disputes: seq<Dispute>, mission: MissionInfo, conflict: int -> Result<ConflictReply, string>)
    returns (updated: seq<Dispute>, failure: Option<string>)
    modifies s`questCache
    ensures DisputeRound(updated, s.questCache, failure) == MergeIntoDisputes(old(s.questCache), disputes, mission, conflict)
  {
    ghost var cache0 := s.questCache;
    updated, failure := [], None;
    var i := 0;
    while i < |disputes|
      invariant 0 <= i <= |disputes|
      invariant DisputeRound(updated, s.questCache, failure) == MergeIntoDisputes(cache0, disputes[..i], mission, conflict)
    {
      assert disputes[..i + 1][..i] == disputes[..i];
      var d := disputes[i];
      if d.symbol != TUTORIAL_DISPUTE && mission.id in d.missionIds {
        var existing := if d.quests.Some? then d.quests.value else [];
        var merged, loaded := MergeDisputeQuests(s, d.starsEarned == d.totalStars, existing, mission.quests, conflict);
        updated, failure := updated + [d.(quests := Some(merged))], Earlier(failure, loaded);
      } else {
        updated := updated + [d];
      }
      i := i + 1;
    }
    assert disputes[..i] == disputes;
  }

  // ---------------------------------------------------------------- the mission/info reply

  datatype MissionRound = MissionRound(missions: seq<MissionData>, disputes: seq<Dispute>,
                                       cache: map<int, QuestDetails>, failure: Option<string>)

  /** The entry of a titled mission, given its loaded quests. */
  function TitledEntry(m: MissionInfo, quests: seq<Quest>): MissionData
    requires m.episodeTitle.Some?
  {
    MissionData(Some(m.id), m.episodeTitle.value, m.description, m.starsEarned, m.totalStars, Some(quests))
  }

  /** The `data.character.accepted_missions.forEach`: the tutorial is
      skipped, a titled mission becomes an entry, an untitled one feeds the
      disputes that list it. */
  function ProcessMissions(cache: map<int, QuestDetails>, disputes: seq<Dispute>, infos: seq<MissionInfo>,
                           conflict: int -> Result<ConflictReply, string>): MissionRound {
    if infos == [] then MissionRound([], disputes, cache, None)
    else
      var prev := ProcessMissions(cache, disputes, infos[..|infos| - 1], conflict);
      var m := infos[|infos| - 1];
      if m.symbol == TUTORIAL_MISSION then prev
      else if m.episodeTitle.Some? then
        var l := MissionQuests(prev.cache, m.starsEarned == m.totalStars, m.quests, conflict);
        MissionRound(prev.missions + [TitledEntry(m, l.quests)], prev.disputes, l.cache, Earlier(prev.failure, l.failure))
      else
        var d := MergeIntoDisputes(prev.cache, prev.disputes, m, conflict);
        MissionRound(prev.missions, d.disputes, d.cache, Earlier(prev.failure, d.failure))
  }

  /** The missions that become entries: not the tutorial, with a title. */
  function Titled(infos: seq<MissionInfo>): seq<MissionInfo> {
    if infos == [] then []
    else
      var m := infos[|infos| - 1];
      Titled(infos[..|infos| - 1]) + (if m.symbol != TUTORIAL_MISSION && m.episodeTitle.Some? then [m] else [])
  }

  /** One entry per titled non-tutorial mission, in order, carrying its id,
      title, stars and its eligible quests; the disputes keep their number. */
  lemma {:induction false} ProcessMissionsShape(cache: map<int, QuestDetails>, disputes: seq<Dispute>,
                                               infos: seq<MissionInfo>, conflict: int -> Result<ConflictReply, string>)
    ensures |ProcessMissions(cache, disputes, infos, conflict).missions| == |Titled(infos)|
    ensures |ProcessMissions(cache, disputes, infos, conflict).disputes| == |disputes|
    ensures forall k :: 0 <= k < |disputes| ==>
              ProcessMissions(cache, disputes, infos, conflict).disputes[k]
              == disputes[k].(quests := ProcessMissions(cache, disputes, infos, conflict).disputes[k].quests)
    ensures forall k :: 0 <= k < |Titled(infos)| ==>
              TitledMatches(ProcessMissions(cache, disputes, infos, conflict).missions[k], Titled(infos)[k])
  {
    if infos != [] {
      var init := infos[..|infos| - 1];
      ProcessMissionsShape(cache, disputes, init, conflict);
      var prev := ProcessMissions(cache, disputes, init, conflict);
      var m := infos[|infos| - 1];
      if m.symbol != TUTORIAL_MISSION {
        if m.episodeTitle.Some? {
          MissionQuestsShape(prev.cache, m.starsEarned == m.totalStars, m.quests, conflict);
        } else {
          MergeIntoDisputesShape(prev.cache, prev.disputes, m, conflict);
        }
      }
    }
  }

  /** An entry stands for the titled mission: same id, title, description
      and stars, and its quests are the mission's eligible ones in order. */
  predicate TitledMatches(entry: MissionData, m: MissionInfo) {
    && m.episodeTitle.Some?
    && entry.id == Some(m.id) && entry.episodeTitle == m.episodeTitle.value
    && entry.description == m.description
    && entry.starsEarned == m.starsEarned && entry.totalStars == m.totalStars
    && entry.quests.Some? && |entry.quests.value| == |EligibleQuests(m.quests)|
    && forall k :: 0 <= k < |entry.quests.value| ==> SameQuest(entry.quests.value[k], EligibleQuests(m.quests)[k])
  }

  /** The mission loop over the `mission/info` reply. */
  method ProcessReply(s: SttApi.Session, disputes: seq<Dispute>, infos: seq<MissionInfo>,
                      conflict: int -> Result<ConflictReply, string>)
    returns (missions: seq<MissionData>, updated: seq<Dispute>, failure: Option<string>)
    modifies s`questCache
    ensures MissionRound(missions, updated, s.questCache, failure) == ProcessMissions(old(s.questCache), disputes, infos, conflict)
  {
    ghost var cache0 := s.questCache;
    missions, updated, failure := [], disputes, None;
    var i := 0;
    while i < |infos|
      invariant 0 <= i <= |infos|
      invariant MissionRound(missions, updated, s.questCache, failure) == ProcessMissions(cache0, disputes, infos[..i], conflict)
    {
      assert infos[..i + 1][..i] == infos[..i];
      var m := infos[i];
      if m.symbol != TUTORIAL_MISSION {
        if m.episodeTitle.Some? {
          var quests, loaded := FillMissionQuests(s, m.starsEarned == m.totalStars, m.quests, conflict);
          missions, failure := missions + [TitledEntry(m, quests)], Earlier(failure, loaded);
        } else {
          var merged: Option<string>;
          updated, merged := MergeMission(s, updated, m, conflict);
          failure := Earlier(failure, merged);
        }
      }
      i := i + 1;
    }
    assert infos[..i] == infos;
  }

  // ---------------------------------------------------------------- episodes as missions

  /** An episode shown as a mission: the id of its first mission (`None`
      when it lists none), "Episode <n> : <name>" as title. */
  function EpisodeEntry(d: Dispute): (m: MissionData)
    ensures m.episodeTitle == m.description + " : " + d.name
  {
    var episode := "Episode " + MiscTools.IntToString(d.episode);
    MissionData(if d.missionIds == [] then None else Some(d.missionIds[0]), episode + " : " + d.name,
                episode, d.starsEarned, d.totalStars, d.quests)
  }

  /** One entry per non-tutorial dispute, in order. */
  function Episodes(disputes: seq<Dispute>): seq<MissionData> {
    if disputes == [] then []
    else
      var d := disputes[|disputes| - 1];
      Episodes(disputes[..|disputes| - 1]) + (if d.symbol != TUTORIAL_DISPUTE then [EpisodeEntry(d)] else [])
  }

  function NonTutorial(disputes: seq<Dispute>): seq<Dispute> {
    if disputes == [] then []
    else
      var d := disputes[|disputes| - 1];
      NonTutorial(disputes[..|disputes| - 1]) + (if d.symbol != TUTORIAL_DISPUTE then [d] else [])
  }

  lemma {:induction false} EpisodesShape(disputes: seq<Dispute>)
    ensures |Episodes(disputes)| == |NonTutorial(disputes)|
    ensures forall k :: 0 <= k < |NonTutorial(disputes)| ==> Episodes(disputes)[k] == EpisodeEntry(NonTutorial(disputes)[k])
    ensures forall d :: d in NonTutorial(disputes) <==> d in disputes && d.symbol != TUTORIAL_DISPUTE
  {
    if disputes != [] {
      var init := disputes[..|disputes| - 1];
      EpisodesShape(init);
      assert disputes == init + [disputes[|disputes| - 1]];
    }
  }

  /** The final `dispute_histories.forEach`. */
  method AppendEpisodes(missions: seq<MissionData>, disputes: seq<Dispute>) returns (all: seq<MissionData>)
    ensures all == missions + Episodes(disputes)
  {
    all := missions;
    var i := 0;
    while i < |disputes|
      invariant 0 <= i <= |disputes|
      invariant all == missions + Episodes(disputes[..i])
    {
      ghost var prefix := disputes[..i + 1];
      assert prefix[..i] == disputes[..i] && prefix[i] == disputes[i];
      ghost var entry := if disputes[i].symbol != TUTORIAL_DISPUTE then [EpisodeEntry(disputes[i])] else [];
      assert Episodes(prefix) == Episodes(disputes[..i]) + entry;
      if disputes[i].symbol != TUTORIAL_DISPUTE {
        all := all + [EpisodeEntry(disputes[i])];
      }
      Text.Associative(missions, Episodes(disputes[..i]), entry);
      i := i + 1;
    }
    assert disputes[..i] == disputes;
  }

  // ---------------------------------------------------------------- loadMissionData

  /** The outcome of `loadMissionData`: the list or a rejection, the dispute
      histories as the loop leaves them, and the quest cache. */
  datatype MissionLoad = MissionLoad(result: Result<seq<MissionData>, string>,
                                     disputes: Option<seq<Dispute>>, cache: map<int, QuestDetails>)

  /** `loadMissionData` once `mission/info` has answered with `infos`: it
      rejects with the first quest load rejection, in the order the loads
      start, and otherwise lists the titled missions followed by the
      episodes. */
  function MissionDataLoad(cache: map<int, QuestDetails>, disputes: Option<seq<Dispute>>, infos: seq<MissionInfo>,
                           conflict: int -> Result<ConflictReply, string>): MissionLoad {
    var round := ProcessMissions(cache, if disputes.Some? then disputes.value else [], infos, conflict);
    MissionLoad(if round.failure.Some? then Err(round.failure.value)
                else Ok(round.missions + (if disputes.Some? then Episodes(round.disputes) else [])),
                if disputes.Some? then Some(round.disputes) else None,
                round.cache)
  }

  /** Without dispute histories the list is exactly the titled missions;
      with them, it is those followed by one entry per non-tutorial episode. */
  lemma MissionDataLoadShape(cache: map<int, QuestDetails>, disputes: Option<seq<Dispute>>, infos: seq<MissionInfo>,
                             conflict: int -> Result<ConflictReply, string>)
    requires MissionDataLoad(cache, disputes, infos, conflict).result.Ok?
    ensures |MissionDataLoad(cache, disputes, infos, conflict).result.value|
            == |Titled(infos)| + (if disputes.Some? then |NonTutorial(disputes.value)| else 0)
    ensures forall k :: 0 <= k < |Titled(infos)| ==>
              TitledMatches(MissionDataLoad(cache, disputes, infos, conflict).result.value[k], Titled(infos)[k])
    ensures disputes.Some? ==> |MissionDataLoad(cache, disputes, infos, conflict).disputes.value| == |disputes.value|
  {
    var ds := if disputes.Some? then disputes.value else [];
    ProcessMissionsShape(cache, ds, infos, conflict);
    var round := ProcessMissions(cache, ds, infos, conflict);
    if disputes.Some? {
      EpisodesShape(round.disputes);
      NonTutorialKeepsCount(ds, round.disputes);
    }
    var all := round.missions + (if disputes.Some? then Episodes(round.disputes) else []);
    assert MissionDataLoad(cache, disputes, infos, conflict).result.value == all;
    assert forall k :: 0 <= k < |round.missions| ==> all[k] == round.missions[k];
  }

  /** Disputes that differ only in their quests have as many non-tutorial members. */
  lemma {:induction false} NonTutorialKeepsCount(a: seq<Dispute>, b: seq<Dispute>)
    requires |a| == |b| && forall k :: 0 <= k < |a| ==> b[k].symbol == a[k].symbol
    ensures |NonTutorial(a)| == |NonTutorial(b)|
  {
    if a != [] {
      NonTutorialKeepsCount(a[..|a| - 1], b[..|b| - 1]);
    }
  }

  /** `loadMissionData`: ask `mission/info` for the requested ids (rejected
      when not logged in), then process its reply. `info` stands for the
      server: it answers the ids with the mission list, or with the reason
      the request or the reading of its reply was rejected. */
  method LoadMissionData(s: SttApi.Session, accepted: seq<AcceptedMission>, disputes: Option<seq<Dispute>>,
                         info: seq<int> -> Result<seq<MissionInfo>, string>, conflict: int -> Result<ConflictReply, string>)
    returns (ids: seq<int>, r: Result<seq<MissionData>, string>, updated: Option<seq<Dispute>>)
    modifies s`questCache
    ensures ids == RequestedIds(accepted, disputes)
    ensures !old(s.LoggedIn()) ==> r == Err("Not logged in!") && updated == disputes && s.questCache == old(s.questCache)
    ensures old(s.LoggedIn()) && info(ids).Err? ==>
              r == Err(info(ids).error) && updated == disputes && s.questCache == old(s.questCache)
    ensures old(s.LoggedIn()) && info(ids).Ok? ==>
              MissionLoad(r, updated, s.questCache) == MissionDataLoad(old(s.questCache), disputes, info(ids).value, conflict)
  {
    ids := CollectMissionIds(accepted, disputes);
    // The request serves only as the login guard: the `ids` query is not
    // encoded, and the ids reach the server as the argument of `info`.
    var request := s.GetRequest("mission/info", map[]);
    if request.Err? {
      r, updated := Err(request.error), disputes;
      return;
    }
    var reply := info(ids);
    if reply.Err? {
      r, updated := Err(reply.error), disputes;
      return;
    }
    var ds := if disputes.Some? then disputes.value else [];
    var missions, after, failure := ProcessReply(s, ds, reply.value, conflict);
    updated := if disputes.Some? then Some(after) else None;
    if failure.Some? {
      r := Err(failure.value);
    } else if disputes.Some? {
      var all := AppendEpisodes(missions, after);
      r := Ok(all);
    } else {
      assert missions + [] == missions;
      r := Ok(missions);
    }
  }
}

=== FILE: ship_tools.dfy ===
/** Merging the ship schematics with the ships the player owns. */
module ShipTools {
  import opened Wrappers
  import opened Entities
  import Text
  import SttApi

  /** The `traitNames` text of a ship: the comma-join of the display names
      of its visible then hidden traits, or `""` when it has no `traits`. */
  function ShipTraitNames(names: map<string, string>, ship: Ship): string {
    match ship.traits
    case None => ""
    case Some(traits) =>
      var all := traits + ship.traitsHidden;
      Text.Join(seq(|all|, i requires 0 <= i < |all| => SttApi.TraitName(names, all[i])), ',')
  }

  function WithTraitNames(names: map<string, string>, ship: Ship): Ship {
    ship.(traitNames := ShipTraitNames(names, ship))
  }

  /** The text splits back into the display names when there is at least
      one trait and no display name holds a comma. */
  lemma TraitNamesSplit(names: map<string, string>, ship: Ship)
    requires ship.traits.Some? && |ship.traits.value + ship.traitsHidden| > 0
    requires forall t :: t in ship.traits.value + ship.traitsHidden ==> ',' !in SttApi.TraitName(names, t)
    ensures var all := ship.traits.value + ship.traitsHidden;
            Text.Split(ShipTraitNames(names, ship), ',')
            == seq(|all|, i requires 0 <= i < |all| => SttApi.TraitName(names, all[i]))
  {
    var all := ship.traits.value + ship.traitsHidden;
    var shown := seq(|all|, i requires 0 <= i < |all| => SttApi.TraitName(names, all[i]));
    assert forall i :: 0 <= i < |shown| ==> ',' !in shown[i] by {
      forall i | 0 <= i < |shown| ensures ',' !in shown[i] {
        assert all[i] in all;
      }
    }
    Text.SplitJoin(shown, ',');
  }

  /** Position of the first ship with the name, or `|ships|`. */
  function FirstNamed(ships: seq<Ship>, name: string): (i: nat)
    ensures i <= |ships|
    ensures forall j :: 0 <= j < i ==> ships[j].name != name
    ensures i < |ships| ==> ships[i].name == name
  {
    if ships == [] then 0
    else if ships[0].name == name then 0
    else 1 + FirstNamed(ships[1..], name)
  }

  /** What a schematic contributes: the first owned ship with its name, or
      the schematic's own ship with level and id zeroed; traits named. */
  function SchematicShip(names: map<string, string>, owned: seq<Ship>, schematic: Ship): Ship {
    var i := FirstNamed(owned, schematic.name);
    if i < |owned| then WithTraitNames(names, owned[i])
    else WithTraitNames(names, schematic.(level := 0, id := 0))
  }

  function SchematicPart(names: map<string, string>, owned: seq<Ship>, schematics: seq<Ship>): seq<Ship> {
    if schematics == [] then []
    else SchematicPart(names, owned, schematics[..|schematics| - 1])
         + [SchematicShip(names, owned, schematics[|schematics| - 1])]
  }

  predicate HasName(ships: seq<Ship>, name: string) {
    exists i :: 0 <= i < |ships| && ships[i].name == name
  }

  /** The second loop: every owned ship whose name is not yet listed is
      appended, traits named. */
  function AppendUnlisted(names: map<string, string>, listed: seq<Ship>, owned: seq<Ship>): seq<Ship> {
    if owned == [] then listed
    else
      var r := AppendUnlisted(names, listed, owned[..|owned| - 1]);
      var ship := owned[|owned| - 1];
      if HasName(r, ship.name) then r else r + [WithTraitNames(names, ship)]
  }

  /** The whole `matchShips` result. */
  function MatchShipsSpec(names: map<string, string>, owned: seq<Ship>, schematics: seq<Ship>): seq<Ship> {
    AppendUnlisted(names, SchematicPart(names, owned, schematics), owned)
  }

  lemma {:induction false} SchematicPartShape(names: map<string, string>, owned: seq<Ship>, schematics: seq<Ship>)
    ensures |SchematicPart(names, owned, schematics)| == |schematics|
    ensures forall i :: 0 <= i < |schematics| ==>
              SchematicPart(names, owned, schematics)[i] == SchematicShip(names, owned, schematics[i])
  {
    if schematics != [] {
      SchematicPartShape(names, owned, schematics[..|schematics| - 1]);
    }
  }

  /** What was listed stays, in front. */
  lemma {:induction false} AppendUnlistedPrefix(names: map<string, string>, listed: seq<Ship>, owned: seq<Ship>)
    ensures var r := AppendUnlisted(names, listed, owned);
            |listed| <= |r| && r[..|listed|] == listed
  {
    if owned != [] {
      AppendUnlistedPrefix(names, listed, owned[..|owned| - 1]);
    }
  }

  /** Entry `i` of `r` is an owned ship, traits named, whose name no
      earlier entry carries. */
  predicate AppendedOwned(names: map<string, string>, r: seq<Ship>, i: int, owned: seq<Ship>)
    requires 0 <= i < |r|
  {
    (exists j :: 0 <= j < |owned| && r[i] == WithTraitNames(names, owned[j]))
    && !HasName(r[..i], r[i].name)
  }

  /** The appended ships are owned ships with their traits named, each
      carrying a name not listed before it. */
  lemma {:induction false} AppendUnlistedNew(names: map<string, string>, listed: seq<Ship>, owned: seq<Ship>)
    ensures forall i :: |listed| <= i < |AppendUnlisted(names, listed, owned)| ==>
              AppendedOwned(names, AppendUnlisted(names, listed, owned), i, owned)
  {
    if owned != [] {
      var n := |owned| - 1;
      AppendUnlistedNew(names, listed, owned[..n]);
      var r0 := AppendUnlisted(names, listed, owned[..n]);
      var r := AppendUnlisted(names, listed, owned);
      forall i | |listed| <= i < |r|
        ensures AppendedOwned(names, r, i, owned)
      {
        var unseen := !HasName(r0, owned[n].name);
        assert r == if unseen then r0 + [WithTraitNames(names, owned[n])] else r0;
        if i < |r0| {
          assert r[i] == r0[i] && r[..i] == r0[..i];
          assert AppendedOwned(names, r0, i, owned[..n]);
          var j :| 0 <= j < |owned[..n]| && r0[i] == WithTraitNames(names, owned[..n][j]);
          assert owned[..n][j] == owned[j];
        } else {
          assert r[i] == WithTraitNames(names, owned[n]) && r[..i] == r0;
        }
      }
    }
  }

  /** Every owned ship's name ends up listed. */
  lemma {:induction false} AppendUnlistedCovers(names: map<string, string>, listed: seq<Ship>, owned: seq<Ship>)
    ensures forall j :: 0 <= j < |owned| ==> HasName(AppendUnlisted(names, listed, owned), owned[j].name)
  {
    if owned != [] {
      var n := |owned| - 1;
      AppendUnlistedCovers(names, listed, owned[..n]);
      var r0 := AppendUnlisted(names, listed, owned[..n]);
      var r := AppendUnlisted(names, listed, owned);
      forall j | 0 <= j < |owned|
        ensures HasName(r, owned[j].name)
      {
        if j < n {
          assert owned[..n][j] == owned[j];
          var k :| 0 <= k < |r0| && r0[k].name == owned[j].name;
          assert r[k] == r0[k];
        } else if !HasName(r0, owned[n].name) {
          assert r[|r0|].name == owned[j].name;
        }
      }
    }
  }

  /** What a schematic contributes, by name: the first owned ship of that
      name with its traits named, or else the schematic's ship with level
      and id zeroed. */
  predicate SchematicEntry(names: map<string, string>, owned: seq<Ship>, schematic: Ship, ship: Ship) {
    var k := FirstNamed(owned, schematic.name);
    && ship.name == schematic.name
    && (k < |owned| ==> ship == WithTraitNames(names, owned[k]))
    && (k == |owned| ==> ship.level == 0 && ship.id == 0
                         && ship == WithTraitNames(names, schematic.(level := 0, id := 0)))
  }

  /** `matchShips` starts with one entry per schematic, in schematic order. */
  lemma MatchShipsSchematics(names: map<string, string>, owned: seq<Ship>, schematics: seq<Ship>)
    ensures |schematics| <= |MatchShipsSpec(names, owned, schematics)|
    ensures forall i :: 0 <= i < |schematics| ==>
              SchematicEntry(names, owned, schematics[i], MatchShipsSpec(names, owned, schematics)[i])
  {
    var part := SchematicPart(names, owned, schematics);
    SchematicPartShape(names, owned, schematics);
    AppendUnlistedPrefix(names, part, owned);
    var r := MatchShipsSpec(names, owned, schematics);
    forall i | 0 <= i < |schematics|
      ensures SchematicEntry(names, owned, schematics[i], r[i])
    {
      assert r[i] == part[i];
    }
  }

  /** After the schematics come the owned ships no schematic or earlier
      entry names, so every owned ship's name is listed once it is done. */
  lemma MatchShipsExtras(names: map<string, string>, owned: seq<Ship>, schematics: seq<Ship>)
    ensures forall i :: |schematics| <= i < |MatchShipsSpec(names, owned, schematics)| ==>
              AppendedOwned(names, MatchShipsSpec(names, owned, schematics), i, owned)
    ensures forall j :: 0 <= j < |owned| ==> HasName(MatchShipsSpec(names, owned, schematics), owned[j].name)
  {
    var part := SchematicPart(names, owned, schematics);
    SchematicPartShape(names, owned, schematics);
    AppendUnlistedNew(names, part, owned);
    AppendUnlistedCovers(names, part, owned);
  }

  /** `matchShips`, its two `forEach` loops. The schematics are updated in
      place, so afterwards each holds the ship it contributed. */
  method MatchShips(s: SttApi.Session, ships: seq<Ship>) returns (newShips: seq<Ship>)
    requires s.shipSchematics.Some? && s.platformConfig.Some?
    modifies s`shipSchematics
    ensures newShips == MatchShipsSpec(s.platformConfig.value.shipTraitNames, ships, old(s.shipSchematics.value))
    ensures |old(s.shipSchematics.value)| <= |newShips|
    ensures s.shipSchematics == Some(newShips[..|old(s.shipSchematics.value)|])
  {
    var names := s.platformConfig.value.shipTraitNames;
    var schematics := s.shipSchematics.value;
    newShips := [];
    var i := 0;
    while i < |schematics|
      invariant 0 <= i <= |schematics|
      invariant newShips == SchematicPart(names, ships, schematics[..i])
    {
      assert schematics[..i + 1][..i] == schematics[..i];
      var k := FirstNamed(ships, schematics[i].name);
      var ship := if k < |ships| then ships[k] else schematics[i].(level := 0, id := 0);
      ship := ship.(traitNames := ShipTraitNames(names, ship));
      newShips := newShips + [ship];
      i := i + 1;
    }
    assert schematics[..i] == schematics;
    SchematicPartShape(names, ships, schematics);
    var part := newShips;
    var j := 0;
    while j < |ships|
      invariant 0 <= j <= |ships|
      invariant newShips == AppendUnlisted(names, part, ships[..j])
    {
      assert ships[..j + 1][..j] == ships[..j];
      var exists_ := FirstNamed(newShips, ships[j].name) < |newShips|;
      assert exists_ <==> HasName(newShips, ships[j].name);
      if !exists_ {
        newShips := newShips + [WithTraitNames(names, ships[j])];
      }
      j := j + 1;
    }
    assert ships[..j] == ships;
    AppendUnlistedPrefix(names, part, ships);
    s.shipSchematics := Some(newShips[..|schematics|]);
  }
}

=== FILE: stt_api.dfy ===
/** The client's session object: which payloads are loaded, the access
    token, the local cache tables, and the request guard and login
    classification that decide whether a request is issued at all. */
module SttApi {
  import opened Wrappers
  import opened Entities
  import Config
  import MiscTools

  datatype ServerConfig = ServerConfig(recipeDigest: string)

  datatype PlatformConfig = PlatformConfig(traitNames: map<string, string>,
                                           shipTraitNames: map<string, string>)

  datatype Fleet = Fleet(id: int)

  /** `player.character`: the parts of the player's state the client reshapes. */
  datatype Character = Character(
    crew: seq<CrewData>, storedImmortals: seq<StoredImmortal>, ships: seq<Ship>,
    items: seq<Item>, acceptedMissions: seq<AcceptedMission>,
    cadetMissions: seq<AcceptedMission>, disputeHistories: Option<seq<Dispute>>,
    voyageShipTrait: string)

  datatype Player = Player(fleet: Option<Fleet>, character: Character)

  /** The `player` response: the player and `item_archetype_cache.archetypes`. */
  datatype PlayerPayload = PlayerPayload(player: Player, itemArchetypes: seq<Archetype>)

  /** A value of the local `config` table. */
  datatype ConfigValue = Flag(flag: bool) | Text(text: string)

  datatype Verb = Get | Post

  /** A request as handed to the transport. */
  datatype Request = Request(verb: Verb, url: string, query: map<string, string>,
                             bearer: Option<string>)

  /** The fields of an OAuth token response that the client reads. */
  datatype LoginResponse = LoginResponse(errorDescription: Option<string>,
                                         accessToken: Option<string>)

  /** JavaScript truthiness of an optional string field. */
  predicate Truthy(s: Option<string>) {
    s.Some? && s.value != ""
  }

  /** The login response decides the outcome: an error description wins,
      then an access token, and anything else is malformed. */
  function ClassifyLogin(resp: LoginResponse): Result<string, string> {
    if Truthy(resp.errorDescription) then Err(resp.errorDescription.value)
    else if Truthy(resp.accessToken) then Ok(resp.accessToken.value)
    else Err("Invalid data for login!")
  }

  /** `getTraitName` / `getShipTraitName`: the display name when there is a
      non-empty one, the key itself otherwise. */
  function TraitName(names: map<string, string>, key: string): string {
    if key in names && names[key] != "" then names[key] else key
  }

  /** Position of the first avatar with the id; `|avatars|` when there is none. */
  function FirstAvatarIndex(avatars: seq<Avatar>, id: int): (i: nat)
    ensures i <= |avatars|
    ensures forall j :: 0 <= j < i ==> avatars[j].id != id
    ensures i < |avatars| ==> avatars[i].id == id
  {
    if avatars == [] then 0
    else if avatars[0].id == id then 0
    else 1 + FirstAvatarIndex(avatars[1..], id)
  }

  /** `getCrewAvatarById`: the first avatar with the id, if any. */
  function CrewAvatarById(avatars: seq<Avatar>, id: int): (r: Option<Avatar>)
    ensures r.Some? <==> exists i :: 0 <= i < |avatars| && avatars[i].id == id
    ensures r.Some? ==> r.value.id == id && r.value in avatars
    ensures r.Some? ==> exists i :: 0 <= i < |avatars| && avatars[i] == r.value
                                     && forall j :: 0 <= j < i ==> avatars[j].id != id
  {
    var i := FirstAvatarIndex(avatars, id);
    if i < |avatars| then Some(avatars[i]) else None
  }

  /** The STTApi singleton. */
  class Session {
    var accessToken: Option<string>
    var crewAvatars: Option<seq<Avatar>>
    var serverConfig: Option<ServerConfig>
    var playerData: Option<PlayerPayload>
    var platformConfig: Option<PlatformConfig>
    var shipSchematics: Option<seq<Ship>>
    var starbaseData: Option<Blob>
    var fleetData: Option<Blob>
    var fleetMemberInfo: Option<Blob>
    var roster: Option<seq<RosterEntry>>
    var ships: Option<seq<Ship>>
    var missions: Option<seq<MissionData>>
    var missionSuccess: seq<seq<Candidate>>
    var minimalComplement: Option<Complement>
    // the local cache tables: keyed lookup and upsert only
    var equipmentCache: map<string, seq<Archetype>>
    var immortalsCache: map<string, CrewData>
    var questCache: map<int, QuestDetails>
    var configTable: map<string, ConfigValue>
    /** The `url` column of `CONFIG.SPRITES`, whose only writer is the login sequence. */
    var sprites: seq<Config.Sprite>

    /** Every loaded payload is gone, as `refreshEverything` leaves it. */
    predicate Cleared()
      reads this
    {
      && crewAvatars == None && serverConfig == None && playerData == None
      && platformConfig == None && shipSchematics == None && starbaseData == None
      && fleetData == None && fleetMemberInfo == None && roster == None
      && ships == None && missions == None
      && missionSuccess == [] && minimalComplement == None
    }

    predicate LoggedIn()
      reads this
    {
      accessToken.Some?
    }

    constructor ()
      ensures Cleared() && !LoggedIn()
      ensures equipmentCache == map[] && immortalsCache == map[] && questCache == map[]
      ensures configTable == map[] && sprites == Config.SPRITES
    {
      accessToken := None;
      crewAvatars, serverConfig, playerData, platformConfig := None, None, None, None;
      shipSchematics, starbaseData, fleetData, fleetMemberInfo := None, None, None, None;
      roster, ships, missions := None, None, None;
      missionSuccess, minimalComplement := [], None;
      equipmentCache, immortalsCache, questCache, configTable := map[], map[], map[], map[];
      sprites := Config.SPRITES;
    }

    /** The payloads the login loaders fill in, dropped. */
    method ClearLoaded()
      modifies this`crewAvatars, this`serverConfig, this`playerData, this`platformConfig
      modifies this`shipSchematics, this`starbaseData, this`fleetData, this`fleetMemberInfo
      ensures crewAvatars == None && serverConfig == None && playerData == None && platformConfig == None
      ensures shipSchematics == None && starbaseData == None && fleetData == None && fleetMemberInfo == None
    {
      crewAvatars := None;
      serverConfig := None;
      playerData := None;
      platformConfig := None;
      shipSchematics := None;
      starbaseData := None;
      fleetData := None;
      fleetMemberInfo := None;
    }

    /** What the later stages derive from the payloads, dropped. */
    method ClearDerived()
      modifies this`roster, this`ships, this`missions, this`missionSuccess, this`minimalComplement
      ensures roster == None && ships == None && missions == None
      ensures missionSuccess == [] && minimalComplement == None
    {
      roster := None;
      ships := None;
      missions := None;
      missionSuccess := [];
      minimalComplement := None;
    }

    /** Drops every loaded payload; logs out only when asked to. The cache
        tables are not touched. */
    method RefreshEverything(logout: bool)
      modifies this`crewAvatars, this`serverConfig, this`playerData, this`platformConfig
      modifies this`shipSchematics, this`starbaseData, this`fleetData, this`fleetMemberInfo
      modifies this`roster, this`ships, this`missions, this`missionSuccess
      modifies this`minimalComplement, this`accessToken
      ensures Cleared()
      ensures accessToken == if logout then None else old(accessToken)
      ensures LoggedIn() <==> !logout && old(LoggedIn())
    {
      ClearLoaded();
      ClearDerived();
      if logout {
        accessToken := None;
      }
    }

    /** The request `executeGetRequest` would hand to the transport, or the
        rejection it returns without issuing one. The caller's query is
        merged over the client version and the access token. */
    function GetRequest(resourceUrl: string, qs: map<string, string>): (r: Result<Request, string>)
      reads this
      ensures r.Err? <==> !LoggedIn()
      ensures r.Err? ==> r.error == "Not logged in!"
      ensures r.Ok? ==> r.value.verb == Get && r.value.url == Config.URL_SERVER + resourceUrl
      ensures r.Ok? ==> r.value.query.Keys == qs.Keys + {"client_api", "access_token"}
      ensures r.Ok? ==> forall k :: k in qs ==> r.value.query[k] == qs[k]
      ensures r.Ok? && "access_token" !in qs ==> r.value.query["access_token"] == accessToken.value
    {
      match accessToken
      case None => Err("Not logged in!")
      case Some(token) =>
        var base := map["client_api" := MiscTools.NatToString(Config.CLIENT_API_VERSION),
                         "access_token" := token];
        Ok(Request(Get, Config.URL_SERVER + resourceUrl, base + qs, None))
    }

    /** The request `executePostRequest` would hand to the transport: the
        token travels as a bearer credential, not in the form. */
    function PostRequest(resourceUrl: string, qs: map<string, string>): (r: Result<Request, string>)
      reads this
      ensures r.Err? <==> !LoggedIn()
      ensures r.Err? ==> r.error == "Not logged in!"
      ensures r.Ok? ==> r.value.verb == Post && r.value.url == Config.URL_SERVER + resourceUrl
      ensures r.Ok? ==> r.value.query.Keys == qs.Keys + {"client_api"}
      ensures r.Ok? ==> forall k :: k in qs ==> r.value.query[k] == qs[k]
      ensures r.Ok? ==> r.value.bearer == accessToken
    {
      match accessToken
      case None => Err("Not logged in!")
      case Some(token) =>
        var base := map["client_api" := MiscTools.NatToString(Config.CLIENT_API_VERSION)];
        Ok(Request(Post, Config.URL_SERVER + resourceUrl, base + qs, Some(token)))
    }

    /** `_loginWithAccessToken`: store the token; remember it for the next
        start only when auto-login is wanted. */
    method LoginWithAccessToken(token: string, autoLogin: bool)
      modifies this`accessToken, this`configTable
      ensures accessToken == Some(token)
      ensures configTable == if autoLogin
                             then old(configTable)["autoLogin" := Flag(true)]["accessToken" := Text(token)]
                             else old(configTable)
    {
      accessToken := Some(token);
      if autoLogin {
        configTable := configTable["autoLogin" := Flag(autoLogin)];
        configTable := configTable["accessToken" := Text(token)];
      }
    }

    /** `login` / `loginWithFacebook` once the token endpoint has answered. */
    method Login(resp: LoginResponse, autoLogin: bool) returns (r: Result<(), string>)
      modifies this`accessToken, this`configTable
      ensures r.Ok? <==> ClassifyLogin(resp).Ok?
      ensures r.Err? ==> r.error == ClassifyLogin(resp).error
      ensures r.Err? ==> accessToken == old(accessToken) && configTable == old(configTable)
      ensures r.Ok? ==> LoggedIn() && accessToken == Some(ClassifyLogin(resp).value)
    {
      match ClassifyLogin(resp)
      case Err(e) =>
        r := Err(e);
      case Ok(token) =>
        LoginWithAccessToken(token, autoLogin);
        r := Ok(());
    }

    /** `loginWithCachedAccessToken`: succeeds only when auto-login was
        stored as `true` and a non-empty token was stored beside it. */
    method LoginWithCachedAccessToken() returns (ok: bool)
      modifies this`accessToken
      ensures ok <==> ("autoLogin" in configTable && configTable["autoLogin"] == Flag(true)
                       && "accessToken" in configTable && configTable["accessToken"].Text?
                       && configTable["accessToken"].text != "")
      ensures ok ==> accessToken == Some(configTable["accessToken"].text)
      ensures !ok ==> accessToken == old(accessToken)
    {
      ok := false;
      if "autoLogin" in configTable && configTable["autoLogin"] == Flag(true) {
        if "accessToken" in configTable && configTable["accessToken"].Text?
           && configTable["accessToken"].text != "" {
          accessToken := Some(configTable["accessToken"].text);
          ok := true;
        }
      }
    }
  }
}

=== FILE: text.dfy ===
/** The JavaScript string and array primitives the client leans on:
    `Array.prototype.join`, `String.prototype.split`, `indexOf` and the
    first-occurrence `replace`. */
module Text {

  /** `xs.join(sep)`: the elements with `sep` between them; `[]` gives `""`. */
  function Join(xs: seq<string>, sep: char): string {
    if xs == [] then ""
    else if |xs| == 1 then xs[0]
    else xs[0] + [sep] + Join(xs[1..], sep)
  }

  /** `s.split(sep)`: the pieces between separators; `""` gives `[""]`. */
  function Split(s: string, sep: char): (r: seq<string>)
    ensures |r| >= 1
  {
    if s == [] then [""]
    else if s[0] == sep then [""] + Split(s[1..], sep)
    else
      var rest := Split(s[1..], sep);
      [[s[0]] + rest[0]] + rest[1..]
  }

  lemma {:induction false} SplitPlain(a: string, sep: char)
    requires sep !in a
    ensures Split(a, sep) == [a]
  {
    if a != [] {
      SplitPlain(a[1..], sep);
      assert [a[0]] + a[1..] == a;
    }
  }

  lemma {:induction false} SplitAfterPiece(a: string, sep: char, rest: string)
    requires sep !in a
    ensures Split(a + [sep] + rest, sep) == [a] + Split(rest, sep)
  {
    if a == [] {
      assert a + [sep] + rest == [sep] + rest;
      assert ([sep] + rest)[1..] == rest;
    } else {
      SplitAfterPiece(a[1..], sep, rest);
      assert (a + [sep] + rest)[1..] == a[1..] + [sep] + rest;
      assert [a[0]] + a[1..] == a;
    }
  }

  /** Splitting undoes joining when no element holds the separator. */
  lemma {:induction false} SplitJoin(xs: seq<string>, sep: char)
    requires xs != []
    requires forall i :: 0 <= i < |xs| ==> sep !in xs[i]
    ensures Split(Join(xs, sep), sep) == xs
  {
    if |xs| == 1 {
      SplitPlain(xs[0], sep);
    } else {
      SplitJoin(xs[1..], sep);
      SplitAfterPiece(xs[0], sep, Join(xs[1..], sep));
      assert xs == [xs[0]] + xs[1..];
    }
  }

  /** `indexOf`: the first position of `x`, or -1. */
  function IndexOf<T(==)>(xs: seq<T>, x: T): (i: int)
    ensures -1 <= i < |xs|
    ensures i == -1 <==> x !in xs
    ensures 0 <= i ==> xs[i] == x && x !in xs[..i]
  {
    if xs == [] then -1
    else if xs[0] == x then 0
    else
      var j := IndexOf(xs[1..], x);
      if j == -1 then -1
      else
        assert xs[..j + 1] == [xs[0]] + xs[1..][..j];
        j + 1
  }

  /** `pat` occurs in `s` at position `k`. */
  predicate OccursAt(s: string, pat: string, k: int) {
    0 <= k <= |s| - |pat| && s[k..k + |pat|] == pat
  }

  lemma OccursShift(s: string, pat: string, k: int)
    requires s != [] && 1 <= k
    ensures OccursAt(s, pat, k) <==> OccursAt(s[1..], pat, k - 1)
  {
    if 0 <= k - 1 <= |s| - 1 - |pat| {
      var here, there := s[k..k + |pat|], s[1..][k - 1..k - 1 + |pat|];
      forall i | 0 <= i < |pat|
        ensures there[i] == here[i]
      {
      }
      assert here == there;
    }
  }

  /** Position of the first occurrence of `pat` in `s`, or -1. */
  function Find(s: string, pat: string): (i: int)
    ensures -1 <= i
    ensures 0 <= i ==> OccursAt(s, pat, i)
    ensures 0 <= i ==> forall k :: 0 <= k < i ==> !OccursAt(s, pat, k)
    ensures i == -1 ==> forall k :: !OccursAt(s, pat, k)
    decreases |s|
  {
    if |s| < |pat| then -1
    else if s[..|pat|] == pat then 0
    else
      assert !OccursAt(s, pat, 0);
      var j := Find(s[1..], pat);
      if j == -1 then
        assert forall k :: 1 <= k ==> !OccursAt(s, pat, k) by {
          forall k | 1 <= k { OccursShift(s, pat, k); }
        }
        -1
      else
        assert forall k :: 1 <= k <= j + 1 ==> (OccursAt(s, pat, k) <==> OccursAt(s[1..], pat, k - 1)) by {
          forall k | 1 <= k <= j + 1 { OccursShift(s, pat, k); }
        }
        j + 1
  }

  /** `s.replace(pat, "")` with a string pattern: the first occurrence, if
      any, is cut out. */
  function RemoveFirst(s: string, pat: string): (r: string)
    ensures Find(s, pat) == -1 ==> r == s
    ensures 0 <= Find(s, pat) ==> |r| == |s| - |pat| && OccursAt(s, pat, Find(s, pat))
                                  && r == s[..Find(s, pat)] + s[Find(s, pat) + |pat|..]
  {
    var i := Find(s, pat);
    if i == -1 then s else s[..i] + s[i + |pat|..]
  }

  /** Concatenation regroups freely. */
  lemma Associative<T>(x: seq<T>, y: seq<T>, z: seq<T>)
    ensures x + (y + z) == (x + y) + z
  {
  }
}

=== FILE: voyage_tools.dfy ===
/** Picking the ships that suit the current voyage best. */
module VoyageTools {
  import opened Wrappers
  import opened Entities
  import SttApi

  /** Score bonus for a ship carrying the voyage's ship trait. */
  const TRAIT_BONUS := 150

  /** An entry of `consideredShips`. */
  datatype Scored = Scored(ship: Ship, score: int)

  /** A ship's score: its antimatter, plus the bonus when one of its traits
      is the voyage's ship trait. The source tests the truthiness of the
      trait `find` returns, so an empty trait never earns the bonus. */
  function Score(ship: Ship, voyageTrait: string): int
    requires ship.traits.Some?
  {
    ship.antimatter + (if voyageTrait != "" && voyageTrait in ship.traits.value then TRAIT_BONUS else 0)
  }

  /** The bonus is earned exactly when the voyage names a trait and the ship
      carries it; otherwise the score is the antimatter alone. */
  lemma ScoreBonus(ship: Ship, voyageTrait: string)
    requires ship.traits.Some?
    ensures Score(ship, voyageTrait) >= ship.antimatter
    ensures Score(ship, voyageTrait) == ship.antimatter + TRAIT_BONUS
            <==> voyageTrait != "" && voyageTrait in ship.traits.value
    ensures Score(ship, "") == ship.antimatter
  {
  }

  /** Only ships with a positive id take part. */
  predicate Considered(ship: Ship) {
    ship.id > 0
  }

  /** The scored entries, in roster order; `None` when a considered ship
      has no trait list, where the source's `traits.find` throws. */
  function ScoreAll(ships: seq<Ship>, voyageTrait: string): Option<seq<Scored>> {
    if ships == [] then Some([])
    else
      var last := ships[|ships| - 1];
      match ScoreAll(ships[..|ships| - 1], voyageTrait)
      case None => None
      case Some(rest) =>
        if !Considered(last) then Some(rest)
        else if last.traits.None? then None
        else Some(rest + [Scored(last, Score(last, voyageTrait))])
  }

  /** The ships that take part, in roster order. */
  function ConsideredShips(ships: seq<Ship>): seq<Ship> {
    if ships == [] then []
    else
      var rest := ConsideredShips(ships[..|ships| - 1]);
      if Considered(ships[|ships| - 1]) then rest + [ships[|ships| - 1]] else rest
  }

  /** Scoring fails exactly when a ship that takes part has no trait list;
      otherwise it scores every such ship, in order, and no other. */
  lemma {:induction false} ScoreAllExact(ships: seq<Ship>, voyageTrait: string)
    ensures ScoreAll(ships, voyageTrait).None? <==>
              exists i :: 0 <= i < |ships| && Considered(ships[i]) && ships[i].traits.None?
    ensures ScoreAll(ships, voyageTrait).Some? ==>
              |ScoreAll(ships, voyageTrait).value| == |ConsideredShips(ships)|
              && forall k :: 0 <= k < |ConsideredShips(ships)| ==>
                   ScoreAll(ships, voyageTrait).value[k].ship == ConsideredShips(ships)[k]
                   && ConsideredShips(ships)[k].traits.Some?
                   && ScoreAll(ships, voyageTrait).value[k].score == Score(ConsideredShips(ships)[k], voyageTrait)
  {
    if ships != [] {
      var init := ships[..|ships| - 1];
      ScoreAllExact(init, voyageTrait);
      if ScoreAll(init, voyageTrait).None? {
        var i :| 0 <= i < |init| && Considered(init[i]) && init[i].traits.None?;
        assert ships[i] == init[i];
      }
      if exists i :: 0 <= i < |init| && Considered(init[i]) && init[i].traits.None? {
        var i :| 0 <= i < |init| && Considered(init[i]) && init[i].traits.None?;
        assert ships[i] == init[i];
      }
      if exists i :: 0 <= i < |ships| && Considered(ships[i]) && ships[i].traits.None? {
        var i :| 0 <= i < |ships| && Considered(ships[i]) && ships[i].traits.None?;
        if i < |init| {
          assert init[i] == ships[i];
        }
      }
    }
  }

  /** Members of the result are exactly the considered ships. */
  lemma {:induction false} ConsideredShipsExact(ships: seq<Ship>)
    ensures forall x :: x in ConsideredShips(ships) <==> x in ships && Considered(x)
  {
    if ships != [] {
      var init := ships[..|ships| - 1];
      ConsideredShipsExact(init);
      assert ships == init + [ships[|ships| - 1]];
    }
  }

  /** The largest score of a non-empty list. */
  function MaxScore(entries: seq<Scored>): (m: int)
    requires entries != []
    ensures forall k :: 0 <= k < |entries| ==> entries[k].score <= m
    ensures exists k :: 0 <= k < |entries| && entries[k].score == m
  {
    if |entries| == 1 then entries[0].score
    else
      var rest := MaxScore(entries[1..]);
      assert forall k :: 1 <= k < |entries| ==> entries[k] == entries[1..][k - 1];
      if entries[0].score >= rest then entries[0].score else rest
  }

  /** The entries whose score is `m`, in order. */
  function WithScore(entries: seq<Scored>, m: int): seq<Scored> {
    if entries == [] then []
    else (if entries[0].score == m then [entries[0]] else []) + WithScore(entries[1..], m)
  }

  lemma {:induction false} WithScoreExact(entries: seq<Scored>, m: int)
    ensures forall x :: x in WithScore(entries, m) <==> x in entries && x.score == m
  {
    if entries != [] {
      WithScoreExact(entries[1..], m);
      assert entries == [entries[0]] + entries[1..];
    }
  }

  /** Sorting by descending score (a stable sort) and keeping the entries
      that share the first entry's score: the top-scoring entries in their
      original order. */
  function TopScored(entries: seq<Scored>): seq<Scored> {
    if entries == [] then [] else WithScore(entries, MaxScore(entries))
  }

  /** Every returned entry has the top score, every entry with the top score
      is returned, and the result is empty only when there was nothing. */
  lemma TopScoredProps(entries: seq<Scored>)
    ensures forall x :: x in TopScored(entries) ==> x in entries
    ensures forall x, y :: x in TopScored(entries) && y in entries ==> y.score <= x.score
    ensures forall y :: y in entries && (forall z :: z in entries ==> z.score <= y.score) ==> y in TopScored(entries)
    ensures TopScored(entries) == [] <==> entries == []
  {
    if entries != [] {
      var m := MaxScore(entries);
      WithScoreExact(entries, m);
      var k :| 0 <= k < |entries| && entries[k].score == m;
      assert entries[k] in TopScored(entries);
      forall y | y in entries && (forall z :: z in entries ==> z.score <= y.score)
        ensures y in TopScored(entries)
      {
        assert entries[k] in entries;
        var j :| 0 <= j < |entries| && entries[j] == y;
      }
    }
  }

  /** `bestVoyageShip` over the whole roster: `None` where the source throws. */
  function BestVoyageShipSpec(ships: seq<Ship>, voyageTrait: string): Option<seq<Scored>> {
    match ScoreAll(ships, voyageTrait)
    case None => None
    case Some(entries) => Some(TopScored(entries))
  }

  /** The answer is empty exactly when no ship has a positive id. */
  lemma BestEmptyIffNoneConsidered(ships: seq<Ship>, voyageTrait: string)
    requires BestVoyageShipSpec(ships, voyageTrait).Some?
    ensures BestVoyageShipSpec(ships, voyageTrait).value == [] <==> forall i :: 0 <= i < |ships| ==> !Considered(ships[i])
  {
    ScoreAllExact(ships, voyageTrait);
    ConsideredShipsExact(ships);
    var entries := ScoreAll(ships, voyageTrait).value;
    TopScoredProps(entries);
    if exists i :: 0 <= i < |ships| && Considered(ships[i]) {
      var i :| 0 <= i < |ships| && Considered(ships[i]);
      assert ships[i] in ConsideredShips(ships);
    }
    if entries != [] {
      assert ConsideredShips(ships)[0] in ConsideredShips(ships);
    }
  }

  /** Every returned entry is a considered ship of the roster with its score. */
  lemma BestEntriesScored(ships: seq<Ship>, voyageTrait: string)
    requires BestVoyageShipSpec(ships, voyageTrait).Some?
    ensures forall x :: x in BestVoyageShipSpec(ships, voyageTrait).value ==>
              x.ship in ships && Considered(x.ship) && x.ship.traits.Some? && x.score == Score(x.ship, voyageTrait)
  {
    ScoreAllExact(ships, voyageTrait);
    ConsideredShipsExact(ships);
    var entries := ScoreAll(ships, voyageTrait).value;
    TopScoredProps(entries);
    forall x | x in BestVoyageShipSpec(ships, voyageTrait).value
      ensures x.ship in ships && Considered(x.ship) && x.ship.traits.Some? && x.score == Score(x.ship, voyageTrait)
    {
      var k :| 0 <= k < |entries| && entries[k] == x;
      assert ConsideredShips(ships)[k] in ConsideredShips(ships);
    }
  }

  /** `bestVoyageShip`: the `forEach` that scores the considered ships,
      then the top-score selection. */
  method BestVoyageShip(s: SttApi.Session) returns (r: Option<seq<Scored>>)
    requires s.ships.Some? && s.playerData.Some?
    ensures r == BestVoyageShipSpec(s.ships.value, s.playerData.value.player.character.voyageShipTrait)
  {
    var voyageTrait := s.playerData.value.player.character.voyageShipTrait;
    var ships := s.ships.value;
    var considered: seq<Scored> := [];
    var i := 0;
    while i < |ships|
      invariant 0 <= i <= |ships|
      invariant ScoreAll(ships[..i], voyageTrait) == Some(considered)
    {
      assert ships[..i + 1][..i] == ships[..i];
      var ship := ships[i];
      if ship.id > 0 {
        if ship.traits.None? {
          ScoreAllExact(ships, voyageTrait);
          return None;
        }
        considered := considered + [Scored(ship, Score(ship, voyageTrait))];
      }
      i := i + 1;
    }
    assert ships[..i] == ships;
    r := Some(TopScored(considered));
  }
}

=== FILE: wrappers.dfy ===
/** Optional values and fallible results, used wherever the client meets
    `undefined`, a missing field or a rejected promise. */
module Wrappers {

  datatype Option<+T> = None | Some(value: T)

  /** `Err` carries the rejection reason the client would see. */
  datatype Result<+T, +E> = Ok(value: T) | Err(error: E)
}
